=== FILE: README.md ===
# Reverse-vending-machine controller: a Dafny model

This project models the Python controller of a reverse-vending machine (the
"fandomat"). The machine takes plastic bottles and aluminium cans. A PLC
reports sensors through a Modbus status register and takes commands through
a command register. A vision worker classifies what is in the receiver. An
operator app drives the machine over WebSocket and receives JSON events.

It models six parts of the controller:

- **Register layer** (`modbus_register.dfy`, `plc.dfy`).
  - A `ModbusRegister` is a cached 16-bit value. Its bit operations push every change into the in-process Modbus slave's holding-register map.
  - The `PLC` object names the bits of status register 26 and command register 25, the counters and fill levels in registers 20–23, and the speed in register 24.
- **Peer registry and mailbox** (`server.dfy`).
  - The WebSocket server keeps, per registered client name, its connection, its latest message and a `just_connected` flag.
  - Reads are read-and-clear: `get_command` and `is_client_just_connected`.
- **Application state machine** (`state_machine.dfy`, `application.dfy`, `loop_properties.dfy`).
  - `Application.run` has five states: IDLE, WAITING_VISION, DUMPING_PLASTIC, DUMPING_ALUMINUM and ERROR.
  - `state_machine.dfy` states every handler, and one iteration of the loop, as a function on a `Machine` snapshot.
  - `application.dfy` is the imperative `Application` class. Each method updates the fields, the PLC object and the server object in place, and is proved to equal its function. `Tick(now)` is one loop iteration.
  - `loop_properties.dfy` proves the loop's promises about the functions.
- **Vision worker** (`inference.dfy`).
  - Dispatch of the messages it receives.
  - The class-to-label mapping and the majority vote.
  - The rotation that keeps at most 1000 saved frames.
- **Legacy camera tool** (`legacy.dfy`).
  - The class-name sanitiser.
  - The non-interactive camera-mode choice.
  - The filter, de-duplication and sort of the probed camera modes.
- **Support modules.**
  - `text.dfy`: the `str` methods used (`strip`, `lower`, `isalnum`).
  - `json.dfy`: decoded JSON values and Python truthiness. `json.loads` is a parameter of type `string -> Decoded`.
  - `sorting.dfy`: an insertion sort on integer-pair keys (`sorted(..., key=...)`).
  - `options.dfy`: `Option`.

Time is an integer clock in milliseconds. The timeouts are 2000 (vision), 3000
(dump) and 2000 (carriage reset), and the model keeps the strict `>` tests.
Event records are `(name, data)` pairs. Everything the controller sends is
appended, in order, to one `outbox` log: events for the app, and commands for
vision. That log is what lets the model state "`container_detected` is sent
right before the command to vision".

Behaviour worth knowing:

- A vision answer that agrees with the PLC sets command bit 7 (bottle) or bit 6 (can) and returns to IDLE. It never enters DUMPING.
- DUMPING is entered only by the app's `dump_container` command.
- The WAITING_VISION timeout goes to IDLE, not to ERROR.
- The labels compared are "plastic" and "aluminum".
- Registration names come from `client_id`, `name` or `client`, or from the stripped raw text.
- The ERROR-state command is `restore_device`.
- Registers are 16 bits wide.
- App messages are read as `parse_command` is written (plc/application.py): only a JSON object carries a command, and its parameter comes from `container_type`, then `config`, then `param`. Colon syntax (`dump_container:plastic`), bare-string commands (`get_device_info`) and a `type` key give no command or no parameter. The repository's tests (tests/test_application.py:172-193 and 290-333) expect these formats; the model follows the code.

## Model

| member | source | states |
|---|---|---|
| Registers.Bit | plc/modbus_register.py:18-20 | a bit reads 0 or 1, and 1 exactly when it is set in the value |
| Registers.WithBit | plc/modbus_register.py:12-15 | after setting or clearing bit b, bit b reads 1 or 0 accordingly |
| Registers.WithBitKeepsOthers | plc/modbus_register.py:13-15 | setting or clearing bit b leaves every other bit as it was |
| Registers.BitsDetermineWord | plc/modbus_register.py:18-20 | two register values whose sixteen bits agree are equal |
| Registers.WithBitIdempotent | plc/modbus_register.py:10-16 | `set_bit(b, s)` twice gives the same value as once |
| Registers.Zeros | plc/plc.py:42 | a new block holds exactly registers start to start+size-1, all 0 |
| Registers.Slave.constructor | plc/plc.py:28 | a new slave has no holding registers |
| Registers.Slave.AddBlock | plc/plc.py:42 | adding a block adds its registers with value 0 and keeps the others |
| Registers.Slave.SetValues | plc/modbus_register.py:38 | a write changes exactly one register of the slave |
| Registers.Slave.GetValues | plc/modbus_register.py:41-42 | a read returns the register's value, or nothing when the address is in no block |
| Registers.ModbusRegister.constructor | plc/modbus_register.py:4-8 | a register starts at 0, bound to its slave and number |
| Registers.ModbusRegister.SetBit | plc/modbus_register.py:10-16 | the value gains or loses bit b, and the slave's entry for this register becomes the new value |
| Registers.ModbusRegister.GetBit | plc/modbus_register.py:18-20 | the cached bit, as 0 or 1 |
| Registers.ModbusRegister.SetValue | plc/modbus_register.py:23-26 | the value becomes v (so `get_value` returns v), and the slave's entry for this register becomes v |
| Registers.ModbusRegister.ResetAllBits | plc/modbus_register.py:32-35 | the value is 0, every bit reads 0, and the slave's entry becomes 0 |
| Registers.ModbusRegister.SyncToDevice | plc/modbus_register.py:37-38 | only this register's slave entry changes, to the cached value |
| Registers.ModbusRegister.SyncFromDevice | plc/modbus_register.py:40-44 | the value becomes the slave's entry when the read returns one, and is otherwise unchanged |
| Plc.CommandBitSetsOnlyItsBit | plc/plc.py:122-165 | a command write sets or clears exactly its bit, keeps the other bits, publishes the value to register 25, and changes no status, counter or speed register |
| Plc.ClearCommandZeroesOnlyCommand | plc/plc.py:167-169 | clearing the command register makes it 0, publishes 0 and changes nothing else |
| Plc.RefreshTouchesFiveRegisters | plc/plc.py:52-60 | `update_data` reloads exactly the status register and registers 20–23 from the slave; the command and speed caches and the slave stay |
| Plc.PLC.constructor | plc/plc.py:31-43 | registers 10–26 exist and are 0, except speed (24), which holds the given speed |
| Plc.PLC.UpdateData | plc/plc.py:52-60 | the new view is the refreshed old view |
| Plc.PLC.GetStateVeil | plc/plc.py:63-64 | bit 0 of the status register (26) |
| Plc.PLC.GetStateLeftSensorCarriage | plc/plc.py:66-67 | bit 1 of register 26 |
| Plc.PLC.GetStateCenterSensorCarriage | plc/plc.py:69-70 | bit 2 of register 26 |
| Plc.PLC.GetStateRightSensorCarriage | plc/plc.py:72-73 | bit 3 of register 26 |
| Plc.PLC.GetStateUnknownSensorCarriage | plc/plc.py:75-76 | bit 4 of register 26 |
| Plc.PLC.GetStateWeightError | plc/plc.py:78-79 | bit 5 of register 26 |
| Plc.PLC.GetBankExist | plc/plc.py:81-82 | bit 6 of register 26 |
| Plc.PLC.GetBottleExist | plc/plc.py:84-85 | bit 7 of register 26 |
| Plc.PLC.GetWeightTooSmall | plc/plc.py:87-88 | bit 8 of register 26 |
| Plc.PLC.GetBottleWeightOk | plc/plc.py:90-91 | bit 9 of register 26 |
| Plc.PLC.GetBankWeightOk | plc/plc.py:93-94 | bit 10 of register 26 |
| Plc.PLC.GetStatusWork | plc/plc.py:96-97 | bit 11 of register 26 |
| Plc.PLC.GetLeftMovementError | plc/plc.py:99-100 | bit 12 of register 26 |
| Plc.PLC.GetRightMovementError | plc/plc.py:102-103 | bit 13 of register 26 |
| Plc.PLC.GetBankCount | plc/plc.py:106-108 | the cached value of register 20 |
| Plc.PLC.GetBottleCount | plc/plc.py:110-112 | the cached value of register 21 |
| Plc.PLC.GetBottleFillPercent | plc/plc.py:114-116 | the cached value of register 22 |
| Plc.PLC.GetBankFillPercent | plc/plc.py:118-120 | the cached value of register 23 |
| Plc.PLC.CmdLockAndBlockCarriage | plc/plc.py:123-125 | sets command bit 0 and nothing else |
| Plc.PLC.CmdWeightErrorReset | plc/plc.py:127-129 | sets command bit 1 and nothing else |
| Plc.PLC.CmdResetBankCounters | plc/plc.py:131-133 | sets command bit 2 and nothing else |
| Plc.PLC.CmdResetBottleCounters | plc/plc.py:135-137 | sets command bit 3 and nothing else |
| Plc.PLC.CmdForceMoveCarriageLeft | plc/plc.py:139-141 | sets command bit 4 and nothing else |
| Plc.PLC.CmdForceMoveCarriageRight | plc/plc.py:143-145 | sets command bit 5 and nothing else |
| Plc.PLC.CmdRadxaDetectedBank | plc/plc.py:147-149 | sets command bit 6 and nothing else |
| Plc.PLC.CmdRadxaDetectedBottle | plc/plc.py:151-153 | sets command bit 7 and nothing else |
| Plc.PLC.CmdRadxaStopDetectedBank | plc/plc.py:155-157 | clears command bit 6 and nothing else |
| Plc.PLC.CmdRadxaStopDetectedBottle | plc/plc.py:159-161 | clears command bit 7 and nothing else |
| Plc.PLC.CmdResetWeightReading | plc/plc.py:163-165 | sets command bit 8 and nothing else |
| Plc.PLC.CmdFullClearRegister | plc/plc.py:167-169 | the command register becomes 0 and nothing else changes |
| Json.Or | websocket/server.py:81 | Python `a or b`: truthy exactly when one of them is |
| Text.TrimLeft | legacy/interference.py:266 | `lstrip`: the result is a suffix, it does not start with a dropped character, and only dropped characters were removed |
| Text.TrimRight | legacy/interference.py:266 | `rstrip`: the result is a prefix, it does not end with a dropped character, and only dropped characters were removed |
| Text.TrimIsSlice | legacy/interference.py:266 | `strip` cuts out one contiguous stretch, and everything outside it is a dropped character |
| Text.Lower | vision/inference_service.py:213 | `lower()` keeps the length, leaves no ASCII capital, keeps every other character, and maps each of 'A'–'Z' to its small letter (code + 32) |
| Text.LowerIdempotent | vision/inference_service.py:213 | lower-casing twice is lower-casing once |
| Server.RegistrationPrefersClientId | websocket/server.py:79-81 | a non-empty `client_id` string is the registration name, whatever `name` and `client` hold |
| Server.PlainTextRegistersStripped | websocket/server.py:82-90 | non-JSON first messages register under the stripped text, and an all-blank text registers nothing |
| Server.RegistrationFallsBackToName | websocket/server.py:79-81 | with a falsy `client_id`, a non-empty `name` string is the registration name, whatever `client` holds |
| Server.RegistrationFallsBackToClient | websocket/server.py:79-81 | with `client_id` and `name` both falsy, a non-empty `client` string is the registration name |
| Server.RegistrationAllFalsyNone | websocket/server.py:79-90 | a JSON object whose three name keys are all missing or falsy registers nothing |
| Server.RegisteredNameNotEmpty | websocket/server.py:87-90 | no connection is ever registered under an empty name |
| Server.RegisterReplaces | websocket/server.py:92-101 | registering stores the connection and a mailbox entry with message "" and `just_connected` set, replacing any entry of that name and keeping the others |
| Server.LatestMessageWins | websocket/server.py:106-114 | of two unread messages only the later one is kept, and the `just_connected` flag is gone |
| Server.TakeCommandReadsOnce | websocket/server.py:222-229 | `get_command` returns the stored message, an immediate second call returns "", and an unknown name returns "" and changes nothing |
| Server.TakeCommandKeepsRest | websocket/server.py:222-229 | `get_command` keeps the set of names, every other entry, and the entry's flag |
| Server.JustConnectedAtMostOnce | websocket/server.py:231-241 | `is_client_just_connected` is true at most once per registration, and false for an unknown name |
| Server.PeekDoesNotClear | websocket/server.py:243-247 | `get_state` returns what `get_command` would, without clearing it |
| Server.UnregisterRemovesBoth | websocket/server.py:123-130 | disconnect removes both the socket entry and the mailbox entry of that name, and only those |
| Server.SendOnlyToRegistered | websocket/server.py:184-194 | sending to an unregistered name sends nothing; otherwise exactly one message goes to that name's socket |
| Server.StaleDisconnectDropsNewerRegistration | websocket/server.py:92-130 | when an older connection of a re-registered name closes, it removes the newer connection's entries |
| Server.WebSocket.constructor | websocket/server.py:50-63 | the registry and the mailbox start empty |
| Server.WebSocket.Connect | websocket/server.py:76-101 | the first message registers the connection under its registration name when that name is a non-empty string, and registers nothing otherwise |
| Server.WebSocket.Receive | websocket/server.py:106-114 | a later message overwrites the client's mailbox entry |
| Server.WebSocket.Disconnect | websocket/server.py:123-130 | both entries of the name are removed |
| Server.WebSocket.GetCommand | websocket/server.py:222-229 | returns and clears the stored message; the registry and the sent log are unchanged |
| Server.WebSocket.IsClientJustConnected | websocket/server.py:231-241 | returns and clears the `just_connected` flag |
| Server.WebSocket.GetState | websocket/server.py:243-247 | the stored message, "" for an unknown name |
| Server.WebSocket.SendToClient | websocket/server.py:184-194 | the message is handed to the name's socket if one is registered |
| StateMachine.PlcDetection | plc/application.py:219-225 | plastic exactly when bit 7 is set, aluminum exactly when only bit 6 is, none exactly when neither is |
| StateMachine.HandleGetPhoto | plc/application.py:557-567 | a photo request is started (counted) and nothing else changes |
| StateMachine.HandleGetDeviceInfo | plc/application.py:537-555 | emits `device_info` with exactly the ten documented keys, including the state's name and the door flag |
| StateMachine.HandleDeviceInit | plc/application.py:518-535 | a falsy config changes nothing; otherwise the config is stored and `device_init_ack` is emitted |
| StateMachine.HandleContainerDump | plc/application.py:616-638 | "plastic" goes to DUMPING_PLASTIC with bit 4 and "aluminum" to DUMPING_ALUMINUM with bit 5, each with a start time and `container_dumped`; any other value changes nothing |
| StateMachine.HandleContainerUnloaded | plc/application.py:640-653 | "plastic" sets bit 3 and "aluminum" sets bit 2, anything else sets no bit; `container_unloaded_ack` echoes the parameter |
| StateMachine.RegisterCommand | plc/application.py:109-113 | each of the five `cmd_*` app commands performs exactly its PLC write (`cmd_full_clear_register` clears register 25; `cmd_force_move_carriage_left`, `_right`, `cmd_weight_error_reset` and `cmd_reset_weight_reading` set bits 4, 5, 1 and 8) and changes only the PLC |
| StateMachine.PlcHandler | plc/application.py:616-653 | the two PLC handlers keep the invariant, only append app events, and change the state only into DUMPING on `dump_container` |
| StateMachine.DeviceHandler | plc/application.py:518-567 | the device handlers change only the device record and append only app events |
| StateMachine.AppHandler | plc/application.py:386-394 | the registered handlers keep the invariant, touch no mailbox, and change the state only into DUMPING on `dump_container` |
| StateMachine.Dispatch | plc/application.py:367-396 | an unknown command emits `command_error`/`unknown_command` and runs nothing; a stub emits `<name>_ack`/`not_implemented`; `dump_container` runs the dump handler with the message's `param`; the state changes only on `dump_container` |
| StateMachine.ParseCommand | plc/application.py:481-514 | empty or non-JSON input gives (None, {}); a JSON object keeps every key, and `param` becomes `container_type`, else `config`, else stays as sent |
| StateMachine.HandleVisionResponseWithEvents | plc/application.py:728-770 | plastic/plastic sets bit 7, aluminum/aluminum sets bit 6, each starting the reset clock and emitting `container_recognized`; anything else writes no bit and emits one `container_not_recognized`: with an empty payload for "none", and otherwise with `plc_type` (the PLC's detection, null when it saw nothing) and `vision_type` (the answer) |
| StateMachine.HandleVisionResponse | plc/application.py:707-726 | the same bit decisions, with no events |
| StateMachine.DumpingStep | plc/application.py:337-365 | the sensor is checked first (register 25 cleared, IDLE, `container_accepted` with the counter); then the strict timeout (register 25 cleared, ERROR, one `hardware_error`); otherwise nothing changes |
| StateMachine.CarriageReset | plc/application.py:189-202 | past the reset timeout, a moving bottle clears bit 7 and the clock; without a pending move or before the timeout nothing changes |
| StateMachine.WaitingRead | plc/application.py:204-225 | only the vision message is taken and cleared, every other mailbox entry stays; a held answer is kept, else a non-empty message becomes the pending answer; a known PLC detection is kept, else it is read from bits 7 and 6; nothing else changes |
| StateMachine.WaitingDecide | plc/application.py:228-256 | back to IDLE exactly when both results are held or the timeout has passed; otherwise nothing changes |
| StateMachine.WaitingStep | plc/application.py:204-256 | WAITING_VISION ends in IDLE exactly when both results are held or the timeout has passed, with the pending fields cleared; a timeout without both emits `container_not_recognized`; it never goes to DUMPING or ERROR |
| StateMachine.ErrorStep | plc/application.py:772-787 | the app mailbox is read once and the parsed command goes to the ERROR-state rules |
| StateMachine.ErrorCommand | plc/application.py:784-806 | no command changes nothing; `get_photo`, `get_device_info` and `dump_container` run exactly their handlers (so `dump_container` can leave ERROR for DUMPING); `restore_device` goes to IDLE with `restore_device_ack`; any command outside the four emits `not_allowed_in_error_state` and stays in ERROR |
| StateMachine.VisionCommand | plc/application.py:290-300 | "bank_exist" exactly when the PLC reports only a can, "bottle_exist" otherwise |
| StateMachine.StartInference | plc/application.py:282-308 | WAITING_VISION, latch and request time set, stale vision answer discarded, `container_detected` then the vision command appended |
| StateMachine.GreetApp | plc/application.py:265-268 | consumes the `just_connected` flag, appends only app events, and leaves the app's pending message alone |
| StateMachine.TrackVeil | plc/application.py:270-315 | records the veil bit, stays in IDLE or enters WAITING_VISION, and touches neither the PLC nor the app's message |
| StateMachine.AppCommand | plc/application.py:317-322 | the app mailbox is read once; an empty message changes nothing else; the state changes only into DUMPING on `dump_container` |
| StateMachine.IdleStep | plc/application.py:263-322 | IDLE goes to IDLE or WAITING_VISION, or to DUMPING only on `dump_container` |
| StateMachine.ReceiverStep | plc/application.py:427-441 | an event is sent exactly when (bottle or bank) differs from its last value: `receiver_not_empty` with both bits, or `receiver_empty` |
| StateMachine.RisingEdge | plc/application.py:446-452 | appends one `hardware_error` for the flag when it went from 0 to 1, and nothing otherwise |
| StateMachine.Reports | plc/application.py:446-479 | one `hardware_error` per flag, in order, each with the flag's `error_code` and `message` |
| StateMachine.RisenFlags | plc/application.py:443-479 | exactly the flags that went from 0 to 1, one entry each, in the order of their status bits 5, 8, 12, 13 |
| StateMachine.HardwareErrorsStep | plc/application.py:443-479 | appends exactly one `hardware_error` per flag that went from 0 to 1 (`weight_error`, `weight_too_small`, `left_movement_error`, `right_movement_error`, in that order, each with its message), and nothing else; the previous flags become the current ones |
| StateMachine.Branch | plc/application.py:204-322 | the state branch of one iteration keeps the invariant |
| StateMachine.Prelude | plc/application.py:186-202 | the dump handling and the carriage resets keep the invariant and the mailboxes |
| LoopProperties.StepPreservesInv | plc/application.py:184-326 | every iteration keeps the timestamps the loop subtracts from set while their state is current |
| LoopProperties.StepExtendsBranch | plc/application.py:324-326 | the receiver and hardware checks at the end of an iteration only append app events |
| LoopProperties.PreludeOutsideDumping | plc/application.py:186-202 | outside DUMPING the opening checks change neither state, status, detection, mailboxes nor log |
| LoopProperties.AppOnlyTransitive | plc/application.py:415-424 | appending only app events twice appends only app events |
| LoopProperties.WaitingNeverDumpsNorFails | plc/application.py:229-256 | from WAITING_VISION an iteration ends in IDLE or WAITING_VISION, never in DUMPING or ERROR |
| LoopProperties.DumpCommandEntersDumping | plc/application.py:616-638 | an IDLE or ERROR iteration whose app command is `dump_container` with "plastic" or "aluminum" ends in DUMPING_PLASTIC or DUMPING_ALUMINUM, with command bit 4 or 5 set and the dump clock started at that iteration |
| LoopProperties.DumpingOnlyByCommand | plc/application.py:616-636 | an iteration that enters DUMPING started in IDLE or ERROR, never in WAITING_VISION, and had `dump_container` as the app's command |
| LoopProperties.RecognitionSetsBitAndReturnsToIdle | plc/application.py:229-236 | an agreeing plastic answer sets bit 7, starts the carriage move, emits `container_recognized` and returns to IDLE |
| LoopProperties.IdleVeilRelease | plc/application.py:282-308 | on a veil release, whatever the app has sent, the IDLE branch latches the inference with the request time, sends `container_detected` immediately before the one vision command, and ends in WAITING_VISION unless `dump_container` is dispatched in the same pass |
| LoopProperties.VeilReleaseStartsInference | plc/application.py:276-308 | a whole iteration on a veil release, whatever the app has sent, latches the inference, sends `container_detected` immediately before the one vision command, and ends in WAITING_VISION unless `dump_container` is dispatched |
| LoopProperties.InferenceStartedExtends | plc/application.py:317-326 | app events sent after the inference start leave `container_detected` and the vision command adjacent |
| LoopProperties.InferenceLatchedWhilePresent | plc/application.py:276-285 | while the latch is set and a container is present, the main loop sends no command to vision and the latch stays set |
| LoopProperties.IdleLatch | plc/application.py:276-285 | the same for the IDLE branch alone |
| LoopProperties.VisionCommandFollowsPresenceBits | plc/application.py:290-303 | "bottle_exist"/plastic on bit 7, "bank_exist"/aluminum on bit 6 alone, "bottle_exist"/unknown on neither |
| LoopProperties.DumpEndsClearingCommandRegister | plc/application.py:346-365 | leaving DUMPING clears register 25 and sends one event; a timeout's event is `hardware_error` with the side's code |
| LoopProperties.CarriageResetClearsBottleBit | plc/application.py:190-195 | after the reset timeout bit 7 reads 0 again |
| LoopProperties.CarriageResetClearsBankBit | plc/application.py:197-202 | with only a can pending, after the reset timeout bit 6 reads 0 again and the can's flag is cleared |
| LoopProperties.SharedStartTimeStrandsBankBit | plc/application.py:190-202 | when both bits are pending, the bottle's reset clears the shared clock and leaves bit 6 set for good |
| LoopProperties.HardwareErrorsOncePerEdge | plc/application.py:443-479 | a second check on the same status sends nothing |
| LoopProperties.WeightErrorRisingReported | plc/application.py:446-452 | when only the weight-error flag rose, exactly one `hardware_error` with `weight_error` is emitted |
| LoopProperties.ReceiverOncePerChange | plc/application.py:427-441 | a second receiver check sends nothing |
| App.Application.constructor | plc/application.py:28-92 | IDLE with every flag, timestamp and edge cleared, over a freshly wired PLC and an empty registry |
| App.Application.PollPlc | plc/application.py:157-162 | one pass of the polling thread refreshes the five registers |
| App.Application.SendEventToApp | plc/application.py:415-424 | one event appended |
| App.Application.HandleGetPhoto | plc/application.py:557-567 | as StateMachine.HandleGetPhoto |
| App.Application.HandleGetDeviceInfo | plc/application.py:537-555 | as StateMachine.HandleGetDeviceInfo |
| App.Application.HandleDeviceInit | plc/application.py:518-535 | as StateMachine.HandleDeviceInit |
| App.Application.HandleContainerDump | plc/application.py:616-638 | as StateMachine.HandleContainerDump |
| App.Application.HandleContainerUnloaded | plc/application.py:640-653 | as StateMachine.HandleContainerUnloaded |
| App.Application.HandleLockDoor | plc/application.py:655-659 | the door flag is set and `up_door_locked` emitted |
| App.Application.HandleUnlockDoor | plc/application.py:661-665 | the door flag is cleared and `up_door_unlocked` emitted |
| App.Application.HandleStubCommand | plc/application.py:667-675 | `<name>_ack` with `not_implemented` is emitted |
| App.Application.RunRegisterCommand | plc/application.py:109-113 | as StateMachine.RegisterCommand |
| App.Application.RunPlcHandler | plc/application.py:98-99 | as StateMachine.PlcHandler |
| App.Application.RunDeviceHandler | plc/application.py:95-101 | as StateMachine.DeviceHandler |
| App.Application.RunAppHandler | plc/application.py:386-394 | as StateMachine.AppHandler |
| App.Application.DispatchCommand | plc/application.py:367-396 | returns true exactly for a registered command, and acts as StateMachine.Dispatch |
| App.Application.HandleVisionResponseWithEvents | plc/application.py:728-770 | as StateMachine.HandleVisionResponseWithEvents |
| App.Application.HandleVisionResponse | plc/application.py:707-726 | as StateMachine.HandleVisionResponse |
| App.Application.HandleDumpingState | plc/application.py:337-365 | as StateMachine.DumpingStep |
| App.Application.CheckBottleReset | plc/application.py:190-195 | past the reset timeout a moving bottle clears bit 7, its flag and the clock |
| App.Application.CheckBankReset | plc/application.py:197-202 | past the reset timeout a moving can clears bit 6, its flag and the clock |
| App.Application.ReadVisionAndPlc | plc/application.py:204-225 | as StateMachine.WaitingRead; the server's registry and sent log are unchanged |
| App.Application.DecideVision | plc/application.py:228-256 | as StateMachine.WaitingDecide |
| App.Application.AwaitVision | plc/application.py:204-256 | as StateMachine.WaitingStep; the server's registry and sent log are unchanged |
| App.Application.HandleErrorStateCommands | plc/application.py:772-806 | as StateMachine.ErrorStep; the server's registry and sent log are unchanged |
| App.Application.GreetApp | plc/application.py:265-268 | as StateMachine.GreetApp; the server's registry and sent log are unchanged |
| App.Application.StartInference | plc/application.py:282-308 | as StateMachine.StartInference; the server's registry and sent log are unchanged |
| App.Application.TrackVeil | plc/application.py:270-315 | as StateMachine.TrackVeil; the server's registry and sent log are unchanged |
| App.Application.HandleAppCommand | plc/application.py:317-322 | as StateMachine.AppCommand; the server's registry and sent log are unchanged |
| App.Application.CheckReceiverState | plc/application.py:427-441 | as StateMachine.ReceiverStep |
| App.Application.CheckHardwareErrors | plc/application.py:443-479 | as StateMachine.HardwareErrorsStep |
| App.Application.OpenIteration | plc/application.py:186-202 | as StateMachine.Prelude |
| App.Application.IdleBranch | plc/application.py:263-322 | as StateMachine.IdleStep; the server's registry and sent log are unchanged |
| App.Application.RunBranch | plc/application.py:204-322 | as StateMachine.Branch; the server's registry and sent log are unchanged |
| App.Application.Tick | plc/application.py:184-326 | one loop iteration: the new state is StateMachine.Step of the old one; the server's registry and sent log are unchanged |
| Inference.TextAction | vision/inference_service.py:213-222 | "none" is answered "none", "bottle_exist" and "bank_exist" both run the inference, and any other text gets no reply |
| Inference.HandleMessage | vision/inference_service.py:182-222 | a JSON object whose command is "get_photo" takes a photo and any other JSON object gets `{"error": "unknown_command"}`; JSON that is not an object gets no reply (`data.get` raises and the receive loop drops the message); non-JSON text is stripped and lower-cased first |
| Inference.BothPresenceCommandsInfer | vision/inference_service.py:218-219 | both presence commands, in any case and with surrounding blanks, run the inference |
| Inference.JsonCommandsAlwaysAnswered | vision/inference_service.py:199-207 | every JSON object gets an answer: the photo or the unknown-command error |
| Inference.MapLabel | vision/inference_service.py:261-267 | "plastic" and "aluminum" map to themselves and every other class to "none" |
| Inference.Captured | vision/inference_service.py:242-260 | the classes of the attempts that produced a frame, in order: no more than there were attempts, and each from a captured frame |
| Inference.CapturedAppend | vision/inference_service.py:242-260 | one more attempt appends its class exactly when it produced a frame |
| Inference.Collect | vision/inference_service.py:242-270 | one result per captured frame, in order: the k-th result is the mapped class of the k-th captured frame, and every result is the mapped class of some captured frame |
| Inference.CollectStep | vision/inference_service.py:242-270 | the labels of captured frames only grow with more attempts, and a captured last frame contributes its mapped class |
| Inference.NothingCollected | vision/inference_service.py:242-275 | when no frame is captured nothing is collected |
| Inference.VoteUpTo | vision/inference_service.py:278-280 | the vote over a prefix: a label of the prefix whose count is maximal among the prefix's labels, and no label of equal count occurs before its first occurrence |
| Inference.Vote | vision/inference_service.py:278-280 | `most_common(1)`: a collected label whose count no label exceeds, and every label of equal count first occurs no earlier than it (the first inserted wins a tie) |
| Inference.HandleInference | vision/inference_service.py:224-287 | the loop's answer is the inference result: "none", or the mapped class of some frame that was captured |
| Inference.SingleFrameAnswer | vision/inference_service.py:238-287 | with one frame, the answer is that frame's mapped class, or "none" when it could not be captured |
| Inference.NoFrameNoLabel | vision/inference_service.py:234-275 | a closed camera, or no captured frame, answers "none" |
| Inference.Overflow | vision/inference_service.py:365-367 | the number of files `saved_files[:overflow]` holds: n − max_files when positive and max_files ≥ 0, else 0 |
| Inference.Oldest | vision/inference_service.py:361-367 | the files chosen for deletion are overflow-many files of the listing |
| Inference.KeepMembers | vision/inference_service.py:367-369 | a file survives exactly when it was listed and was not deleted |
| Inference.KeepStep | vision/inference_service.py:367-369 | deleting one more file after a batch is deleting the longer batch |
| Inference.KeepOne | vision/inference_service.py:369 | deleting a file listed once removes exactly that entry |
| Inference.KeepAbsent | vision/inference_service.py:369 | deleting a file that is not listed changes nothing |
| Inference.KeepNothing | vision/inference_service.py:366 | deleting nothing keeps the listing |
| Inference.KeepPartition | vision/inference_service.py:367-369 | deleting distinct listed files removes exactly those entries |
| Inference.OutputDir.constructor | vision/inference_service.py:361-362 | the folder as listed |
| Inference.OutputDir.RotateSavedFrames | vision/inference_service.py:353-372 | the folder afterwards is the listing without the overflow-many oldest files |
| Inference.OutputDir.DeleteAll | vision/inference_service.py:367-369 | the loop deletes exactly the given files |
| Inference.RotationCount | vision/inference_service.py:353-372 | rotation deletes exactly max(0, n − max_files) files and keeps every other one |
| Inference.RotationDeletesOldest | vision/inference_service.py:361-367 | no kept file is older than a deleted one |
| Sorting.Insert | legacy/interference.py:122 | inserting into a sorted list keeps it sorted and adds exactly one element |
| Sorting.SortBy | legacy/interference.py:122 | `sort(key=...)`: sorted by key, the same elements, the same length |
| Legacy.Replaced | legacy/interference.py:265 | allowed characters are kept in place and every other one becomes '_' |
| Legacy.SanitizeClassName | legacy/interference.py:264-267 | the result is never empty, holds only letters, digits, '-' and '_', and neither starts nor ends with '_' |
| Legacy.SanitizeKeepsOrder | legacy/interference.py:265-267 | unless it is "class", the result is one contiguous stretch of the replaced name, with only '_' cut away around it |
| Legacy.ReplacedFixed | legacy/interference.py:265 | a name made only of allowed characters is left unchanged by the replacement |
| Legacy.SanitizeIdempotent | legacy/interference.py:264-267 | sanitising twice is sanitising once |
| Legacy.Fallback | legacy/interference.py:217-224 | with no modes: the camera defaults, with 640, 480 and 30 where a default is 0 or missing |
| Legacy.PickDefaultMode | legacy/interference.py:238-243 | the first mode whose size equals the camera defaults, else the first mode |
| Legacy.SelectCameraMode | legacy/interference.py:215-250 | no modes gives the fallback and one mode is taken as it is; with several, the first mode whose size equals the camera defaults, or the first mode when none does |
| Legacy.GetCameraModes | legacy/interference.py:59-123 | every mode has fps > 0, no (width, height, fps) appears twice, the list is sorted by (width·height, fps), and a mode is listed exactly when the camera opens and offers it |
| Legacy.NoModesAtFailingSize | legacy/interference.py:86-94 | a size the camera does not deliver contributes no mode |

## Left out

- Threads, locks and asyncio are not modelled. This covers `state_lock`, the polling thread, `start_threads`/`stop`, the photo worker thread, the server's event loop, and `send_to_client`/`broadcast` via `run_coroutine_threadsafe`. Each `Tick` and each mailbox operation is one atomic step. The polling thread is one `PollPlc` call that the environment may interleave between ticks.
- Wall-clock time is an integer millisecond clock passed to every operation. The `[TIMING]` delta logging (`veil_cleared_time` deltas) and all log output are left out.
- Floating-point confidences, and their averaging in the vision worker, are left out. The controller's events carry the constant `1.0`.
- StateMachine.HandleGetPhoto: records only that a photo request was started; the worker thread it launches is not modelled (next line).
- `App.Application.HandleGetPhoto`: the background `_handle_get_photo_worker` is not modelled. The model counts that a photo request was started. The worker is a separate thread that talks to vision, polls with `sleep` and writes a file.
- The file system is left out: `_save_photo`, base64 decoding, `_save_frame`, JPEG encoding and `mkdir`. So is the ISO timestamp that `create_event` adds, and events are `(name, data)` records.
- `Inference.OutputDir.RotateSavedFrames`: an `unlink` that fails with `OSError` is not modelled. Every listed file is deleted, and the listing is taken to be only regular `*.jpg` files.
- The camera, the detection engine and `cv2` probing become inputs. A frame attempt is the predicted class or nothing. The camera's answers to size and rate requests are functions.
- Legacy.SelectCameraMode: the interactive prompt is not modelled. With two or more modes the result is what an empty answer (Enter) selects. Typed indices and `KeyboardInterrupt` need a terminal.
- Sorting.SortBy: stability (equal keys keep their input order, as Python's `sorted` guarantees) is not stated; only sortedness by key and permutation are.
- `_probe_camera`, `_find_available_cameras`, `_select_camera`, warm-up, batch and live inference in the legacy tool are not modelled. They are camera and model I/O.
- `isalnum`, `strip()` and `lower()` are defined on ASCII letters and digits and on the full set of Unicode blank characters. Non-ASCII letters are not treated as alphanumeric, and non-ASCII case mapping is not performed.
- Crash paths of the controller become preconditions rather than modelled exceptions. The exception ends `run` (plc/application.py:330-333), so no later iteration exists to model:
  - JSON that is not an object given to `parse_command` (`data.get` raises).
  - A truthy list or object as `command`, which is unhashable in the handler-table lookup.
  - Those preconditions are `Parseable` and `Dispatchable`. `StepReady` asks them only of the message the iteration's state reads: `Parseable` in ERROR, `Dispatchable` in IDLE, and nothing in WAITING_VISION or DUMPING.
- The Modbus transport is not modelled: the serial port, the RTU server and `stop()`. The slave is its holding-register map with `set_values`/`get_values`.
- Bootstrap and client tools are not part of this model: the configuration loader, the logging set-up, the simulator and terminal tools, the legacy TCP and WebSocket clients, `setup`, `signal_handler` and the `__main__` blocks.
- The `Application` fields are grouped into four records: `Detection`, `Carriage`, `Edges` and `Device`. This is only a layout choice. The attributes that steer the loop all have a field; these do not: `flag` and `time_flag` (set and never read), `running` (the polling and terminal threads' stop flag; stopping is not modelled), `veil_cleared_time` (only used to print a latency), the three thread handles, the serial and Modbus settings (`serial_port`, `baudrate`, `slave_address`, `cmd_register`, `status_register`, `update_data_period`, `web_socket_port`, `web_socket_host`), `photos_dir` and `state_lock`. The timeouts, `_command_handlers` and `_dumping_config` are constants and functions rather than fields.
- Server.WebSocket.Connect: a truthy registration name that is not a string (a number or `true` under `client_id`, `name` or `client`) registers nothing here. The source registers it under a non-string dictionary key, which no read by a string name (`get_command("app")`, `get_command("vision")`) can reach; a list or object name raises `TypeError` and drops the connection.
- The deprecated `request`, `response` and `message_app` attributes of the server are not modelled. Nothing in the controller reads them.

=== FILE: application.dfy ===
/**
 * The controller object: its fields, the PLC and the WebSocket server it
 * drives, and one method per handler of the loop. Every method is proved to
 * change the object exactly as the matching step function of `StateMachine`
 * changes a snapshot, so the properties proved about those functions hold
 * of the object.
 */
module App {
  import opened Options
  import opened Json
  import opened Registers
  import opened Plc
  import opened Server
  import opened StateMachine

  class Application {
    const plc: PLC
    /**
     * The server: the loop reads its mailbox only. What the controller sends
     * is recorded in `outbox`; handing it to a socket is the server's separate
     * `SendToClient` step, so the loop's methods leave `ws.sent` unchanged.
     */
    const ws: WebSocket
    /** `json.loads`, supplied by the caller. */
    const loads: Decoder

    var state: AppState
    /** Everything handed to `send_to_client`, for "app" and for "vision", in order. */
    var outbox: seq<Outbound>

    /** `device_config`, `door_locked` and the photo requests started by `handle_get_photo`. */
    var device: Device
    /** `prev_veil_state`, `veil_just_cleared`, `_inference_requested`, `current_plc_detection`,
        `_pending_vision_response` and `vision_request_time`. */
    var detection: Detection
    /** `dump_started_time`, `carriage_moving_bottle`, `carriage_moving_bank`, `carriage_moving_start_time`. */
    var carriage: Carriage
    /** `prev_receiver_state` and the four `prev_*_error` flags. */
    var edges: Edges

    ghost predicate Valid()
      reads plc.slave
    {
      plc.Valid()
    }

    /** The snapshot of the object, its PLC and the server's mailbox. */
    ghost function Abs(): Machine
      reads this, ws, plc.slave, plc.cmd, plc.status, plc.speed, plc.bankCounter, plc.bottleCounter,
            plc.bottlePercent, plc.bankPercent
    {
      Machine(state, plc.View(), ws.messages, outbox, device, detection, carriage, edges)
    }

    /** `__init__` followed by `setup`: a new PLC with the given speed and a new, empty server. */
    constructor (speed: Word, loads: Decoder)
      ensures Valid() && fresh(plc) && fresh(ws) && this.loads == loads
      ensures Abs() == Initial(PlcView(Zeros(BLOCK_START, BLOCK_SIZE)[SPEED_REGISTER := speed], 0, 0, speed, 0, 0, 0, 0),
                               map[])
    {
      plc := new PLC(speed);
      ws := new WebSocket();
      this.loads := loads;
      state := Idle;
      outbox := [];
      device := Device(JNull, false, 0);
      detection := Detection(0, false, false, None, None, None);
      carriage := Carriage(None, false, false, None);
      edges := Edges(0, 0, 0, 0, 0);
    }

    /** One pass of `PLC_update_data`. */
    method PollPlc()
      requires Valid()
      modifies plc.status, plc.bankCounter, plc.bottleCounter, plc.bottlePercent, plc.bankPercent
      ensures Valid() && Abs() == Poll(old(Abs()))
    {
      plc.UpdateData();
    }

    /** `send_event_to_app`. */
    method SendEventToApp(name: string, data: map<string, Json>)
      modifies this
      ensures Abs() == Emit(old(Abs()), name, data)
    {
      outbox := outbox + [ToApp(Event(name, data))];
    }

    method HandleGetPhoto()
      modifies this
      ensures Abs() == StateMachine.HandleGetPhoto(old(Abs()))
    {
      device := device.(photoRequests := device.photoRequests + 1);
    }

    method HandleGetDeviceInfo()
      requires Valid()
      modifies this
      ensures Abs() == StateMachine.HandleGetDeviceInfo(old(Abs()))
    {
      var info := map[
        "bottle_count" := JInt(plc.GetBottleCount() as int),
        "bank_count" := JInt(plc.GetBankCount() as int),
        "bottle_fill_percent" := JInt(plc.GetBottleFillPercent() as int),
        "bank_fill_percent" := JInt(plc.GetBankFillPercent() as int),
        "state" := JStr(state.Value()),
        "left_sensor" := JInt(plc.GetStateLeftSensorCarriage() as int),
        "center_sensor" := JInt(plc.GetStateCenterSensorCarriage() as int),
        "right_sensor" := JInt(plc.GetStateRightSensorCarriage() as int),
        "weight_error" := JInt(plc.GetStateWeightError() as int),
        "door_locked" := JBool(device.doorLocked)];
      SendEventToApp("device_info", info);
    }

    method HandleDeviceInit(config: Json)
      modifies this
      ensures Abs() == StateMachine.HandleDeviceInit(old(Abs()), config)
    {
      if !Truthy(config) {
        return;
      }
      device := device.(config := config);
      SendEventToApp("device_init_ack", map["status" := JStr("ok")]);
    }

    method HandleContainerDump(containerType: Json, now: int)
      requires Valid()
      modifies this, plc.cmd, plc.slave
      ensures Valid() && Abs() == StateMachine.HandleContainerDump(old(Abs()), containerType, now)
    {
      if containerType == JStr("plastic") {
        state := DumpingPlastic;
        carriage := carriage.(dumpStartedTime := Some(now));
        plc.CmdForceMoveCarriageLeft();
        SendEventToApp("container_dumped", map["container_type" := JStr("plastic")]);
      } else if containerType == JStr("aluminum") {
        state := DumpingAluminum;
        carriage := carriage.(dumpStartedTime := Some(now));
        plc.CmdForceMoveCarriageRight();
        SendEventToApp("container_dumped", map["container_type" := JStr("aluminum")]);
      }
    }

    method HandleContainerUnloaded(containerType: Json)
      requires Valid()
      modifies this, plc.cmd, plc.slave
      ensures Valid() && Abs() == StateMachine.HandleContainerUnloaded(old(Abs()), containerType)
    {
      if containerType == JStr("plastic") {
        plc.CmdResetBottleCounters();
      } else if containerType == JStr("aluminum") {
        plc.CmdResetBankCounters();
      }
      SendEventToApp("container_unloaded_ack", map["container_type" := containerType]);
    }

    method HandleLockDoor()
      modifies this
      ensures Abs() == StateMachine.HandleLockDoor(old(Abs()))
    {
      device := device.(doorLocked := true);
      SendEventToApp("up_door_locked", map["status" := JStr("ok")]);
    }

    method HandleUnlockDoor()
      modifies this
      ensures Abs() == StateMachine.HandleUnlockDoor(old(Abs()))
    {
      device := device.(doorLocked := false);
      SendEventToApp("up_door_unlocked", map["status" := JStr("ok")]);
    }

    method HandleStubCommand(name: string)
      modifies this
      ensures Abs() == StateMachine.HandleStubCommand(old(Abs()), name)
    {
      SendEventToApp(name + "_ack", map["status" := JStr("not_implemented")]);
    }

    /** The `cmd_*` handlers, which only write the command register. */
    method RunRegisterCommand(name: string)
      requires Valid() && IsRegisterCommand(name)
      modifies plc.cmd, plc.slave
      ensures Valid() && Abs() == RegisterCommand(old(Abs()), name)
    {
      if name == "cmd_full_clear_register" {
        plc.CmdFullClearRegister();
      } else if name == "cmd_force_move_carriage_left" {
        plc.CmdForceMoveCarriageLeft();
      } else if name == "cmd_force_move_carriage_right" {
        plc.CmdForceMoveCarriageRight();
      } else if name == "cmd_weight_error_reset" {
        plc.CmdWeightErrorReset();
      } else {
        plc.CmdResetWeightReading();
      }
    }

    /** The app handlers that write the PLC's command register. */
    method RunPlcHandler(name: string, param: Json, now: int)
      requires Valid() && Inv(Abs())
      modifies this, plc.cmd, plc.slave
      ensures Valid() && Abs() == PlcHandler(old(Abs()), name, param, now)
    {
      if name == "dump_container" {
        HandleContainerDump(param, now);
      } else {
        HandleContainerUnloaded(param);
      }
    }

    /** The app handlers that leave the PLC alone. */
    method RunDeviceHandler(name: string, param: Json)
      requires Valid()
      modifies this
      ensures Abs() == DeviceHandler(old(Abs()), name, param)
    {
      if name == "get_photo" {
        HandleGetPhoto();
      } else if name == "get_device_info" {
        HandleGetDeviceInfo();
      } else if name == "device_init" {
        HandleDeviceInit(param);
      } else if name == "lock_door" {
        HandleLockDoor();
      } else {
        HandleUnlockDoor();
      }
    }

    /** The handlers that talk to the app. */
    method RunAppHandler(name: string, param: Json, now: int)
      requires Valid() && Inv(Abs())
      modifies this, plc.cmd, plc.slave
      ensures Valid() && Abs() == AppHandler(old(Abs()), name, param, now)
    {
      if name == "dump_container" || name == "container_unloaded" {
        RunPlcHandler(name, param, now);
      } else {
        RunDeviceHandler(name, param);
      }
    }

    /** `_dispatch_command`: answers whether the command is registered, and runs its handler. */
    method DispatchCommand(command: Json, params: map<string, Json>, now: int) returns (handled: bool)
      requires Valid() && Inv(Abs())
      modifies this, plc.cmd, plc.slave
      ensures handled == IsKnownCommand(command)
      ensures Valid() && Abs() == Dispatch(old(Abs()), command, params, now)
    {
      if !IsKnownCommand(command) {
        SendEventToApp("command_error", map["command" := command, "error" := JStr("unknown_command")]);
        return false;
      }
      if IsStubCommand(command.s) {
        HandleStubCommand(command.s);
      } else if IsRegisterCommand(command.s) {
        RunRegisterCommand(command.s);
      } else {
        RunAppHandler(command.s, Get(params, "param"), now);
      }
      return true;
    }

    /** `_handle_vision_response_with_events`. */
    method HandleVisionResponseWithEvents(response: string, now: int)
      requires Valid()
      modifies this, plc.cmd, plc.slave
      ensures Valid() && Abs() == StateMachine.HandleVisionResponseWithEvents(old(Abs()), response, now)
    {
      if response == "none" {
        SendEventToApp("container_not_recognized", map[]);
        return;
      }
      var detected := detection.plcDetection;
      if detected == Some(Plastic) && response == "plastic" {
        plc.CmdRadxaDetectedBottle();
        carriage := carriage.(movingBottle := true, movingStartTime := Some(now));
        SendEventToApp("container_recognized", map["container_type" := JStr("plastic"), "confidence" := JReal(1.0)]);
      } else if detected == Some(Aluminum) && response == "aluminum" {
        plc.CmdRadxaDetectedBank();
        carriage := carriage.(movingBank := true, movingStartTime := Some(now));
        SendEventToApp("container_recognized", map["container_type" := JStr("aluminum"), "confidence" := JReal(1.0)]);
      } else {
        var plcType := if detected.Some? then JStr(detected.value.Name()) else JNull;
        SendEventToApp("container_not_recognized", map["plc_type" := plcType, "vision_type" := JStr(response)]);
      }
    }

    /** `_handle_vision_response`. */
    method HandleVisionResponse(response: string)
      requires Valid()
      modifies plc.cmd, plc.slave
      ensures Valid() && Abs() == StateMachine.HandleVisionResponse(old(Abs()), response)
    {
      if response == "none" {
        return;
      }
      if detection.plcDetection == Some(Plastic) && response == "plastic" {
        plc.CmdRadxaDetectedBottle();
      } else if detection.plcDetection == Some(Aluminum) && response == "aluminum" {
        plc.CmdRadxaDetectedBank();
      }
    }

    /** `_handle_dumping_state`. */
    method HandleDumpingState(now: int)
      requires Valid() && state.IsDumping() && carriage.dumpStartedTime.Some?
      modifies this, plc.cmd, plc.slave
      ensures Valid() && Abs() == DumpingStep(old(Abs()), now)
    {
      var config := DumpingConfig(state);
      var sensor := if state == DumpingPlastic then plc.GetStateLeftSensorCarriage()
                    else plc.GetStateRightSensorCarriage();
      if sensor == 1 {
        plc.CmdFullClearRegister();
        state := Idle;
        carriage := carriage.(dumpStartedTime := None);
        var counter := if config.kind == Plastic then plc.GetBottleCount() else plc.GetBankCount();
        SendEventToApp("container_accepted",
                       map["container_type" := JStr(config.kind.Name()), "counter" := JInt(counter as int)]);
      } else if now - carriage.dumpStartedTime.value > DUMP_TIMEOUT {
        plc.CmdFullClearRegister();
        state := Error;
        carriage := carriage.(dumpStartedTime := None);
        SendEventToApp("hardware_error",
                       map["error_code" := JStr(config.errorCode), "message" := JStr(config.errorMessage)]);
      }
    }

    /** The bottle half of the carriage-reset check. */
    method CheckBottleReset(now: int)
      requires Valid()
      modifies this, plc.cmd, plc.slave
      ensures Valid() && Abs() == BottleReset(old(Abs()), now)
    {
      if carriage.movingBottle && Started(carriage.movingStartTime) {
        if now - carriage.movingStartTime.value > CARRIAGE_RESET_TIMEOUT {
          plc.CmdRadxaStopDetectedBottle();
          carriage := carriage.(movingBottle := false, movingStartTime := None);
        }
      }
    }

    /** The bank half of the carriage-reset check. */
    method CheckBankReset(now: int)
      requires Valid()
      modifies this, plc.cmd, plc.slave
      ensures Valid() && Abs() == BankReset(old(Abs()), now)
    {
      if carriage.movingBank && Started(carriage.movingStartTime) {
        if now - carriage.movingStartTime.value > CARRIAGE_RESET_TIMEOUT {
          plc.CmdRadxaStopDetectedBank();
          carriage := carriage.(movingBank := false, movingStartTime := None);
        }
      }
    }

    /** WAITING_VISION: the one-shot read of the vision mailbox and the look at the presence bits. */
    method ReadVisionAndPlc()
      requires Valid()
      modifies this, ws
      ensures Abs() == WaitingRead(old(Abs()))
      ensures ws.clients == old(ws.clients) && ws.sent == old(ws.sent)
    {
      var visionResponse := ws.GetCommand(VISION);
      if visionResponse != "" && detection.pendingResponse.None? {
        detection := detection.(pendingResponse := Some(visionResponse));
      }
      if detection.plcDetection.None? {
        if plc.GetBottleExist() == 1 {
          detection := detection.(plcDetection := Some(Plastic));
        } else if plc.GetBankExist() == 1 {
          detection := detection.(plcDetection := Some(Aluminum));
        }
      }
    }

    /** WAITING_VISION: the decision once both halves are held, or the vision timeout. */
    method DecideVision(now: int)
      requires Valid() && state == WaitingVision && detection.requestTime.Some?
      modifies this, plc.cmd, plc.slave
      ensures Valid() && Abs() == WaitingDecide(old(Abs()), now)
    {
      if detection.pendingResponse.Some? && detection.plcDetection.Some? {
        HandleVisionResponseWithEvents(detection.pendingResponse.value, now);
        state := Idle;
        detection := detection.(requestTime := None, plcDetection := None, pendingResponse := None);
      } else if now - detection.requestTime.value > VISION_TIMEOUT {
        state := Idle;
        detection := detection.(requestTime := None, plcDetection := None, pendingResponse := None);
        SendEventToApp("container_not_recognized", map[]);
      }
    }

    /** The WAITING_VISION branch of `run`'s loop. */
    method AwaitVision(now: int)
      requires Valid() && state == WaitingVision && detection.requestTime.Some?
      modifies this, ws, plc.cmd, plc.slave
      ensures Valid() && Abs() == WaitingStep(old(Abs()), now)
      ensures ws.clients == old(ws.clients) && ws.sent == old(ws.sent)
    {
      ReadVisionAndPlc();
      DecideVision(now);
    }

    /** `_handle_error_state_commands`. */
    method HandleErrorStateCommands(now: int)
      requires Valid() && state == Error && Parseable(PeekState(ws.messages, APP), loads)
      modifies this, ws, plc.cmd, plc.slave
      ensures Valid() && Abs() == ErrorStep(old(Abs()), loads, now)
      ensures ws.clients == old(ws.clients) && ws.sent == old(ws.sent)
    {
      var appMessage := ws.GetCommand(APP);
      var parsed := ParseCommand(appMessage, loads);
      var appCommand := parsed.0;
      if !Truthy(appCommand) {
        return;
      }
      var appParam := Get(parsed.1, "param");
      if appCommand == JStr("get_photo") {
        HandleGetPhoto();
      } else if appCommand == JStr("get_device_info") {
        HandleGetDeviceInfo();
      } else if appCommand == JStr("dump_container") {
        HandleContainerDump(appParam, now);
      } else if appCommand == JStr("restore_device") {
        state := Idle;
        SendEventToApp("restore_device_ack", map["status" := JStr("ok")]);
      } else {
        SendEventToApp("command_error", map["command" := appCommand, "error" := JStr("not_allowed_in_error_state")]);
      }
    }

    /** IDLE: a newly connected app gets `device_info`. */
    method GreetApp()
      requires Valid()
      modifies this, ws
      ensures Abs() == StateMachine.GreetApp(old(Abs()))
      ensures ws.clients == old(ws.clients) && ws.sent == old(ws.sent)
    {
      var justConnected := ws.IsClientJustConnected(APP);
      if justConnected {
        HandleGetDeviceInfo();
      }
    }

    /** IDLE, the veil has just cleared: the inference is started and the state becomes WAITING_VISION. */
    method StartInference(now: int)
      requires Valid()
      modifies this, ws
      ensures Abs() == StateMachine.StartInference(old(Abs()), now)
      ensures ws.clients == old(ws.clients) && ws.sent == old(ws.sent)
    {
      var detected: Option<Container>;
      var visionCommand: string;
      if plc.GetBottleExist() == 1 {
        detected, visionCommand := Some(Plastic), "bottle_exist";
      } else if plc.GetBankExist() == 1 {
        detected, visionCommand := Some(Aluminum), "bank_exist";
      } else {
        detected, visionCommand := None, "bottle_exist";
      }
      detection := detection.(veilJustCleared := true, inferenceRequested := true, requestTime := Some(now),
                              plcDetection := detected);
      var shown := if detected.Some? then detected.value.Name() else "unknown";
      SendEventToApp("container_detected", map["container_type" := JStr(shown)]);
      var stale := ws.GetCommand(VISION);
      outbox := outbox + [ToVision(visionCommand)];
      state := WaitingVision;
    }

    /** IDLE: the veil tracking, which starts an inference when the veil clears. */
    method TrackVeil(now: int)
      requires Valid() && state == Idle
      modifies this, ws
      ensures Abs() == StateMachine.TrackVeil(old(Abs()), now)
      ensures ws.clients == old(ws.clients) && ws.sent == old(ws.sent)
    {
      var currentVeil := plc.GetStateVeil();
      var bottleExist := plc.GetBottleExist();
      var bankExist := plc.GetBankExist();
      var containerDetected := bottleExist == 1 || bankExist == 1;
      if !containerDetected {
        detection := detection.(inferenceRequested := false);
      }
      if detection.prevVeil == 1 && currentVeil == 0 && !detection.inferenceRequested {
        StartInference(now);
      }
      if currentVeil == 1 {
        detection := detection.(veilJustCleared := false);
      }
      detection := detection.(prevVeil := currentVeil);
    }

    /** IDLE: the app's command is read once, parsed, and dispatched when truthy. */
    method HandleAppCommand(now: int)
      requires Valid() && Inv(Abs()) && Dispatchable(PeekState(ws.messages, APP), loads)
      modifies this, ws, plc.cmd, plc.slave
      ensures Valid() && Abs() == AppCommand(old(Abs()), loads, now)
      ensures ws.clients == old(ws.clients) && ws.sent == old(ws.sent)
    {
      var appMessage := ws.GetCommand(APP);
      if appMessage != "" {
        var parsed := ParseCommand(appMessage, loads);
        if Truthy(parsed.0) {
          var handled := DispatchCommand(parsed.0, parsed.1, now);
        }
      }
    }

    /** `_check_receiver_state`. */
    method CheckReceiverState()
      requires Valid()
      modifies this
      ensures Abs() == ReceiverStep(old(Abs()))
    {
      var bottle := plc.GetBottleExist();
      var bank := plc.GetBankExist();
      var current := if bottle != 0 then bottle else bank;
      if current != edges.receiver {
        if current != 0 {
          SendEventToApp("receiver_not_empty",
                         map["bottle_exist" := JInt(bottle as int), "bank_exist" := JInt(bank as int)]);
        } else {
          SendEventToApp("receiver_empty", map[]);
        }
        edges := edges.(receiver := current);
      }
    }

    /** `_check_hardware_errors`. */
    method CheckHardwareErrors()
      requires Valid()
      modifies this
      ensures Abs() == HardwareErrorsStep(old(Abs()))
    {
      var weightError := plc.GetStateWeightError();
      var out := RisingEdge(outbox, weightError, edges.weightError, WeightError);
      var weightSmall := plc.GetWeightTooSmall();
      out := RisingEdge(out, weightSmall, edges.weightTooSmall, WeightTooSmall);
      var leftError := plc.GetLeftMovementError();
      out := RisingEdge(out, leftError, edges.leftMovementError, LeftMovementError);
      var rightError := plc.GetRightMovementError();
      out := RisingEdge(out, rightError, edges.rightMovementError, RightMovementError);
      outbox := out;
      edges := edges.(weightError := weightError, weightTooSmall := weightSmall,
                      leftMovementError := leftError, rightMovementError := rightError);
    }

    /** The DUMPING and carriage-reset checks that open every iteration. */
    method OpenIteration(now: int)
      requires Valid() && Inv(Abs())
      modifies this, plc.cmd, plc.slave
      ensures Valid() && Abs() == Prelude(old(Abs()), now)
    {
      if state.IsDumping() {
        HandleDumpingState(now);
      }
      CheckBottleReset(now);
      CheckBankReset(now);
    }

    /** The IDLE branch: greet a new app, track the veil, run the app's command. */
    method IdleBranch(now: int)
      requires Valid() && state == Idle && Dispatchable(PeekState(ws.messages, APP), loads)
      modifies this, ws, plc.cmd, plc.slave
      ensures Valid() && Abs() == IdleStep(old(Abs()), loads, now)
      ensures ws.clients == old(ws.clients) && ws.sent == old(ws.sent)
    {
      GreetApp();
      TrackVeil(now);
      HandleAppCommand(now);
    }

    /** The state branch of `run`'s loop. */
    method RunBranch(now: int)
      requires Valid() && Inv(Abs())
      requires state == Error ==> Parseable(PeekState(ws.messages, APP), loads)
      requires state == Idle ==> Dispatchable(PeekState(ws.messages, APP), loads)
      modifies this, ws, plc.cmd, plc.slave
      ensures Valid() && Abs() == Branch(old(Abs()), loads, now)
      ensures ws.clients == old(ws.clients) && ws.sent == old(ws.sent)
    {
      if state == WaitingVision {
        AwaitVision(now);
      } else if state == Error {
        HandleErrorStateCommands(now);
      } else if state == Idle {
        IdleBranch(now);
      }
    }

    /** One iteration of `run`'s loop at time `now`. */
    method Tick(now: int)
      requires Valid() && StepReady(Abs(), loads, now)
      modifies this, ws, plc.cmd, plc.slave
      ensures Valid() && Abs() == Step(old(Abs()), loads, now)
      ensures ws.clients == old(ws.clients) && ws.sent == old(ws.sent)
    {
      OpenIteration(now);
      RunBranch(now);
      CheckReceiverState();
      CheckHardwareErrors();
    }
  }
}

=== FILE: inference.dfy ===
/**
 * The vision worker: how it answers each message from the controller, how
 * it turns per-frame classes into one label by majority vote, and how it
 * keeps its folder of saved frames within a fixed number of files.
 * The camera, the detection engine and the file system's own behaviour are
 * inputs: a frame attempt yields the class the engine predicted, or nothing.
 */
module Inference {
  import opened Options
  import opened Json
  import opened Text
  import opened Sorting

  /** The three labels the worker ever sends back after an inference. */
  datatype Label = Plastic | Aluminum | NoLabel
  {
    function Name(): string {
      match this
      case Plastic => "plastic"
      case Aluminum => "aluminum"
      case NoLabel => "none"
    }
  }

  /** What `_handle_message` does with one message. */
  datatype Action =
    | Reply(text: string)  // answer with this text
    | Silent               // return None: nothing is sent
    | Infer                // answer with the result of `_handle_inference`
    | Photo                // answer with the result of `_handle_get_photo`

  /** `json.dumps({"error": "unknown_command"})`. */
  const UNKNOWN_COMMAND_REPLY := "{\"error\": \"unknown_command\"}"

  /** Frames per inference (`num_frames`). */
  const NUM_FRAMES := 1

  /** The plain-text protocol, on the stripped and lower-cased message. */
  function TextAction(text: string): (a: Action)
    ensures a == Reply("none") <==> text == "none"
    ensures a == Infer <==> text == "bottle_exist" || text == "bank_exist"
    ensures a == Silent <==> text != "none" && text != "bottle_exist" && text != "bank_exist"
  {
    if text == "none" then Reply("none")
    else if text == "bottle_exist" || text == "bank_exist" then Infer
    else Silent
  }

  /**
   * `_handle_message`: a JSON object is a command, and only "get_photo" is
   * known; any other text is stripped, lower-cased and read as the plain
   * protocol. JSON that is not an object makes `data.get` raise; the
   * receive loop logs that and goes on without sending anything.
   */
  function HandleMessage(message: string, loads: Decoder): (a: Action)
    ensures loads(message).Value? && loads(message).json.JObj? ==>
      (a == Photo <==> Get(loads(message).json.fields, "command") == JStr("get_photo")) &&
      (a != Photo ==> a == Reply(UNKNOWN_COMMAND_REPLY))
    ensures loads(message).Value? && !loads(message).json.JObj? ==> a == Silent
    ensures loads(message).NotJson? ==> a == TextAction(Lower(Strip(message)))
  {
    match loads(message)
    case Value(data) =>
      if !data.JObj? then Silent
      else if Get(data.fields, "command") == JStr("get_photo") then Photo
      else Reply(UNKNOWN_COMMAND_REPLY)
    case NotJson =>
      TextAction(Lower(Strip(message)))
  }

  /** "bottle_exist" and "bank_exist" both start the same inference, whatever their case and padding. */
  lemma BothPresenceCommandsInfer(message: string, loads: Decoder)
    requires loads(message).NotJson?
    requires Lower(Strip(message)) == "bottle_exist" || Lower(Strip(message)) == "bank_exist"
    ensures HandleMessage(message, loads) == Infer
  {
  }

  /** A JSON command never starts an inference and never goes unanswered. */
  lemma JsonCommandsAlwaysAnswered(message: string, loads: Decoder)
    requires loads(message).Value? && loads(message).json.JObj?
    ensures HandleMessage(message, loads) == Photo || HandleMessage(message, loads) == Reply(UNKNOWN_COMMAND_REPLY)
  {
  }

  /** The engine's class name as a label: anything but "plastic" and "aluminum" is "none". */
  function MapLabel(className: string): (l: Label)
    ensures l == Plastic <==> className == "plastic"
    ensures l == Aluminum <==> className == "aluminum"
    ensures l == NoLabel <==> className != "plastic" && className != "aluminum"
  {
    if className == "plastic" then Plastic
    else if className == "aluminum" then Aluminum
    else NoLabel
  }

  /** The labels of the frames the attempts produced. */
  function FrameLabels(attempts: seq<Option<string>>): set<Label> {
    set i | 0 <= i < |attempts| && attempts[i].Some? :: MapLabel(attempts[i].value)
  }

  /** The classes of the captured frames, in attempt order (read from the front). */
  function Captured(attempts: seq<Option<string>>): (classes: seq<string>)
    ensures |classes| <= |attempts|
    ensures forall c :: c in classes ==> Some(c) in attempts
  {
    if attempts == [] then []
    else (if attempts[0].Some? then [attempts[0].value] else []) + Captured(attempts[1..])
  }

  /** Capturing one more attempt appends its class when it produced a frame. */
  lemma {:induction false} CapturedAppend(attempts: seq<Option<string>>, next: Option<string>)
    ensures Captured(attempts + [next]) == Captured(attempts) + (if next.Some? then [next.value] else [])
  {
    if attempts != [] {
      assert (attempts + [next])[1..] == attempts[1..] + [next];
      CapturedAppend(attempts[1..], next);
    }
  }

  /**
   * The labels of the attempts that produced a frame: one per captured frame,
   * in order, the k-th being the mapped class of the k-th captured frame.
   */
  function Collect(attempts: seq<Option<string>>): (results: seq<Label>)
    ensures |results| == |Captured(attempts)| <= |attempts|
    ensures forall k :: 0 <= k < |results| ==> results[k] == MapLabel(Captured(attempts)[k])
    ensures forall l :: l in results ==> l in FrameLabels(attempts)
  {
    if attempts == [] then []
    else
      var init := attempts[..|attempts| - 1];
      var last := attempts[|attempts| - 1];
      assert attempts == init + [last];
      CapturedAppend(init, last);
      CollectStep(attempts);
      Collect(init) + (if last.Some? then [MapLabel(last.value)] else [])
  }

  /** The frames of a prefix are frames of the whole, and so is the last attempt's. */
  lemma CollectStep(attempts: seq<Option<string>>)
    requires attempts != []
    ensures FrameLabels(attempts[..|attempts| - 1]) <= FrameLabels(attempts)
    ensures attempts[|attempts| - 1].Some? ==> MapLabel(attempts[|attempts| - 1].value) in FrameLabels(attempts)
  {
    var init := attempts[..|attempts| - 1];
    forall l | l in FrameLabels(init) ensures l in FrameLabels(attempts) {
      var i :| 0 <= i < |init| && init[i].Some? && MapLabel(init[i].value) == l;
      assert attempts[i] == init[i];
    }
  }

  function Count(results: seq<Label>, l: Label): nat {
    multiset(results)[l]
  }

  /**
   * `Counter(results).most_common(1)` over the first `k` results: a label
   * of the prefix with the largest count, and among equal counts the one
   * seen first.
   */
  predicate VoteOver(results: seq<Label>, k: nat, r: Label)
    requires k <= |results|
  {
    r in results[..k] &&
    (forall j :: 0 <= j < k ==> Count(results, results[j]) <= Count(results, r)) &&
    (forall j :: 0 <= j < k && Count(results, results[j]) == Count(results, r) ==> r in results[..j + 1])
  }

  function VoteUpTo(results: seq<Label>, k: nat): (r: Label)
    requires 1 <= k <= |results|
    ensures VoteOver(results, k, r)
  {
    if k == 1 then
      assert results[..1][0] == results[0];
      results[0]
    else
      var best := VoteUpTo(results, k - 1);
      if Count(results, results[k - 1]) > Count(results, best) then
        VoteTakesNext(results, k, best);
        results[k - 1]
      else
        VoteKeepsBest(results, k, best);
        best
  }

  /** A label counted more often than the prefix's winner wins once it is reached. */
  lemma VoteTakesNext(results: seq<Label>, k: nat, best: Label)
    requires 2 <= k <= |results| && VoteOver(results, k - 1, best)
    requires Count(results, results[k - 1]) > Count(results, best)
    ensures VoteOver(results, k, results[k - 1])
  {
    assert results[..k][k - 1] == results[k - 1];
  }

  /** A label counted no more often than the prefix's winner leaves the winner in place. */
  lemma VoteKeepsBest(results: seq<Label>, k: nat, best: Label)
    requires 2 <= k <= |results| && VoteOver(results, k - 1, best)
    requires Count(results, results[k - 1]) <= Count(results, best)
    ensures VoteOver(results, k, best)
  {
    var i :| 0 <= i < k - 1 && results[..k - 1][i] == best;
    assert results[..k][i] == best;
    forall j | 0 <= j < k && Count(results, results[j]) == Count(results, best)
      ensures best in results[..j + 1]
    {
      if j == k - 1 {
        assert results[..j + 1][i] == best;
      }
    }
  }

  /** The majority vote: the winner is a collected label, no label is counted more often, and ties go to the first seen. */
  function Vote(results: seq<Label>): (r: Label)
    requires results != []
    ensures r in results
    ensures forall l :: Count(results, l) <= Count(results, r)
    ensures forall j :: 0 <= j < |results| && Count(results, results[j]) == Count(results, r) ==> r in results[..j + 1]
  {
    var r := VoteUpTo(results, |results|);
    assert results[..|results|] == results;
    forall l ensures Count(results, l) <= Count(results, r) {
      if l in results {
        var j :| 0 <= j < |results| && results[j] == l;
      }
    }
    r
  }

  /** What `_handle_inference` answers: "none" for a closed camera or no frame, otherwise the vote. */
  function InferenceResult(cameraOpen: bool, attempts: seq<Option<string>>): Label {
    var results := Collect(attempts);
    if !cameraOpen || results == [] then NoLabel else Vote(results)
  }

  /**
   * `_handle_inference`: one attempt per frame; an attempt with no frame is
   * skipped, every other frame's class is mapped and collected; then the vote.
   * `attempts[i]` is the class the engine predicts for attempt `i`'s frame.
   */
  method HandleInference(cameraOpen: bool, attempts: seq<Option<string>>) returns (result: Label)
    requires |attempts| == NUM_FRAMES
    ensures result == InferenceResult(cameraOpen, attempts)
    ensures result == NoLabel || exists i :: 0 <= i < |attempts| && attempts[i].Some? && MapLabel(attempts[i].value) == result
  {
    if !cameraOpen {
      return NoLabel;
    }
    var results: seq<Label> := [];
    for i := 0 to NUM_FRAMES
      invariant results == Collect(attempts[..i])
    {
      assert attempts[..i + 1][..i] == attempts[..i];
      if attempts[i].None? {
        continue;
      }
      results := results + [MapLabel(attempts[i].value)];
    }
    assert attempts[..NUM_FRAMES] == attempts;
    if results == [] {
      return NoLabel;
    }
    result := Vote(results);
  }

  /** With one frame per inference, the answer is that frame's label, or "none" without a frame. */
  lemma SingleFrameAnswer(attempts: seq<Option<string>>)
    requires |attempts| == NUM_FRAMES
    ensures InferenceResult(true, attempts) == if attempts[0].Some? then MapLabel(attempts[0].value) else NoLabel
  {
    assert attempts[..0] == [];
  }

  /** Attempts that all fail collect nothing. */
  lemma {:induction false} NothingCollected(attempts: seq<Option<string>>)
    requires forall i :: 0 <= i < |attempts| ==> attempts[i].None?
    ensures Collect(attempts) == []
  {
    if attempts != [] {
      NothingCollected(attempts[..|attempts| - 1]);
    }
  }

  /** A closed camera, or attempts that all fail, give "none". */
  lemma NoFrameNoLabel(cameraOpen: bool, attempts: seq<Option<string>>)
    requires !cameraOpen || forall i :: 0 <= i < |attempts| ==> attempts[i].None?
    ensures InferenceResult(cameraOpen, attempts) == NoLabel
  {
    if cameraOpen {
      NothingCollected(attempts);
    }
  }

  // Rotation of the saved frames.

  /** A saved `.jpg` and its modification time. */
  datatype SavedFile = SavedFile(path: string, mtime: int)

  /** The default `max_files`. */
  const MAX_SAVED_FILES := 1000

  function MtimeKey(f: SavedFile): (int, int) {
    (f.mtime, 0)
  }

  /** How many files `saved_files[:overflow]` holds when `overflow = n - max_files` is positive, else 0. */
  function Overflow(n: nat, maxFiles: int): (k: nat)
    ensures k <= n
    ensures maxFiles >= 0 ==> k == if n > maxFiles then n - maxFiles else 0
  {
    if n - maxFiles > 0 then (if n - maxFiles < n then n - maxFiles else n) else 0
  }

  /** The files rotation deletes: the first `overflow` of the listing sorted by modification time. */
  function Oldest(files: seq<SavedFile>, maxFiles: int): (r: seq<SavedFile>)
    ensures |r| == Overflow(|files|, maxFiles)
    ensures multiset(r) <= multiset(files)
  {
    var sorted := SortBy(files, MtimeKey);
    var overflow := Overflow(|files|, maxFiles);
    assert sorted == sorted[..overflow] + sorted[overflow..];
    sorted[..overflow]
  }

  /** The files of `s` that are not in `gone`, in order. */
  function Keep(s: seq<SavedFile>, gone: seq<SavedFile>): seq<SavedFile> {
    if s == [] then [] else (if s[0] in gone then [] else [s[0]]) + Keep(s[1..], gone)
  }

  /** A file survives exactly when it was listed and is not deleted. */
  lemma {:induction false} KeepMembers(s: seq<SavedFile>, gone: seq<SavedFile>, f: SavedFile)
    ensures f in Keep(s, gone) <==> f in s && f !in gone
  {
    if s != [] {
      KeepMembers(s[1..], gone, f);
      assert s == [s[0]] + s[1..];
    }
  }

  /** Deleting one more file after a batch is deleting the longer batch. */
  lemma {:induction false} KeepStep(s: seq<SavedFile>, gone: seq<SavedFile>, f: SavedFile)
    ensures Keep(Keep(s, gone), [f]) == Keep(s, gone + [f])
  {
    if s != [] {
      KeepStep(s[1..], gone, f);
      assert s[0] in gone + [f] <==> s[0] in gone || s[0] == f;
      if s[0] in gone {
        assert Keep(s, gone) == Keep(s[1..], gone);
        assert Keep(s, gone + [f]) == Keep(s[1..], gone + [f]);
      } else {
        assert Keep(s, gone) == [s[0]] + Keep(s[1..], gone);
        assert Keep(Keep(s, gone), [f]) == (if s[0] == f then [] else [s[0]]) + Keep(Keep(s[1..], gone), [f]);
      }
    }
  }

  /** Each file listed once, as a directory listing has it. */
  ghost predicate Distinct(s: seq<SavedFile>) {
    forall f :: multiset(s)[f] <= 1
  }

  /** Deleting a file listed once removes exactly that one entry. */
  lemma {:induction false} KeepOne(s: seq<SavedFile>, f: SavedFile)
    requires multiset(s)[f] == 1
    ensures multiset(Keep(s, [f])) == multiset(s) - multiset{f}
  {
    assert s == [s[0]] + s[1..];
    if s[0] == f {
      assert multiset(s[1..])[f] == 0;
      assert Keep(s[1..], [f]) == s[1..] by {
        KeepAbsent(s[1..], f);
      }
    } else {
      KeepOne(s[1..], f);
    }
  }

  lemma {:induction false} KeepAbsent(s: seq<SavedFile>, f: SavedFile)
    requires f !in s
    ensures Keep(s, [f]) == s
  {
    if s != [] {
      assert s == [s[0]] + s[1..];
      KeepAbsent(s[1..], f);
    }
  }

  /** Deleting distinct listed files removes exactly those entries. */
  lemma {:induction false} KeepPartition(s: seq<SavedFile>, gone: seq<SavedFile>)
    requires Distinct(s) && multiset(gone) <= multiset(s)
    ensures multiset(Keep(s, gone)) == multiset(s) - multiset(gone)
  {
    if gone == [] {
      KeepNothing(s);
    } else {
      var init := gone[..|gone| - 1];
      var f := gone[|gone| - 1];
      assert gone == init + [f];
      SplitLast(multiset(s), multiset(init), f);
      KeepPartition(s, init);
      KeepOne(Keep(s, init), f);
      KeepStep(s, init, f);
    }
  }

  /** Multiset arithmetic for one more deletion of an element present once. */
  lemma SplitLast(total: multiset<SavedFile>, before: multiset<SavedFile>, f: SavedFile)
    requires before + multiset{f} <= total && total[f] <= 1
    ensures before <= total && total[f] == 1 && before[f] == 0
    ensures (total - before)[f] == 1
    ensures (total - before) - multiset{f} == total - (before + multiset{f})
  {
    assert (before + multiset{f})[f] == before[f] + 1;
  }

  lemma {:induction false} KeepNothing(s: seq<SavedFile>)
    ensures Keep(s, []) == s
  {
    if s != [] {
      assert s == [s[0]] + s[1..];
      KeepNothing(s[1..]);
    }
  }

  /** The folder of saved frames, as the `*.jpg` listing in the order `glob` returns it. */
  class OutputDir {
    var files: seq<SavedFile>

    constructor (files: seq<SavedFile>)
      ensures this.files == files
    {
      this.files := files;
    }

    /** `_rotate_saved_frames`: sort by modification time and delete the overflow, oldest first. */
    method RotateSavedFrames(maxFiles: int)
      modifies this
      ensures files == Keep(old(files), Oldest(old(files), maxFiles))
    {
      var saved := SortBy(files, MtimeKey);
      var overflow := |saved| - maxFiles;
      if overflow > 0 {
        // `saved_files[:overflow]`
        var count := if overflow < |saved| then overflow else |saved|;
        assert count == Overflow(|files|, maxFiles);
        DeleteAll(saved[..count]);
      } else {
        KeepNothing(files);
      }
    }

    /** The deletion loop: unlinks each file of `gone` in turn. */
    method DeleteAll(gone: seq<SavedFile>)
      modifies this
      ensures files == Keep(old(files), gone)
    {
      KeepNothing(files);
      for i := 0 to |gone|
        invariant files == Keep(old(files), gone[..i])
      {
        KeepStep(old(files), gone[..i], gone[i]);
        assert gone[..i + 1] == gone[..i] + [gone[i]];
        files := Keep(files, [gone[i]]);
      }
      assert gone[..|gone|] == gone;
    }
  }

  /** Rotation deletes exactly max(0, n - max_files) listed files and keeps every other one. */
  lemma RotationCount(files: seq<SavedFile>, maxFiles: int)
    requires Distinct(files)
    ensures |Oldest(files, maxFiles)| == Overflow(|files|, maxFiles)
    ensures multiset(Keep(files, Oldest(files, maxFiles))) + multiset(Oldest(files, maxFiles)) == multiset(files)
    ensures |Keep(files, Oldest(files, maxFiles))| == |files| - Overflow(|files|, maxFiles)
  {
    var gone := Oldest(files, maxFiles);
    KeepPartition(files, gone);
    assert |multiset(Keep(files, gone))| == |multiset(files)| - |multiset(gone)|;
  }

  /** No kept file is older than a deleted one. */
  lemma RotationDeletesOldest(files: seq<SavedFile>, maxFiles: int)
    ensures forall d, k :: d in Oldest(files, maxFiles) && k in Keep(files, Oldest(files, maxFiles)) ==> d.mtime <= k.mtime
  {
    var sorted := SortBy(files, MtimeKey);
    var overflow := Overflow(|files|, maxFiles);
    var gone := Oldest(files, maxFiles);
    assert gone == sorted[..overflow];
    forall d, k | d in gone && k in Keep(files, gone) ensures d.mtime <= k.mtime {
      var i :| 0 <= i < overflow && sorted[i] == d;
      KeepMembers(files, gone, k);
      assert k in multiset(sorted);
      var j :| 0 <= j < |sorted| && sorted[j] == k;
      assert KeyLe(MtimeKey(sorted[i]), MtimeKey(sorted[j]));
    }
  }
}

=== FILE: json.dfy ===
/**
 * The values `json.loads` produces, and the Python truthiness rules the
 * controller applies to them (`if not message`, `a or b or c`).
 * The JSON grammar itself is not modelled: a decoder is passed in as a
 * function from text to `Decoded`.
 */
module Json {

  datatype Json =
    | JNull
    | JBool(b: bool)
    | JInt(i: int)
    | JReal(r: real)
    | JStr(s: string)
    | JArr(items: seq<Json>)
    | JObj(fields: map<string, Json>)

  /** The outcome of `json.loads(text)`: a value, or a `JSONDecodeError`. */
  datatype Decoded = NotJson | Value(json: Json)

  /** A stand-in for `json.loads`. */
  type Decoder = string -> Decoded

  /** Python truthiness of a decoded value. */
  predicate Truthy(j: Json) {
    match j
    case JNull => false
    case JBool(b) => b
    case JInt(i) => i != 0
    case JReal(r) => r != 0.0
    case JStr(s) => s != ""
    case JArr(items) => items != []
    case JObj(fields) => fields != map[]
  }

  /** `d.get(key)`: the value under `key`, or `None` when it is absent. */
  function Get(d: map<string, Json>, key: string): Json {
    if key in d then d[key] else JNull
  }

  /** Python's `a or b`: `a` when it is truthy, otherwise `b`. */
  function Or(a: Json, b: Json): (r: Json)
    ensures Truthy(r) <==> Truthy(a) || Truthy(b)
  {
    if Truthy(a) then a else b
  }

  /** Values that can be looked up in a Python dict (lists and dicts cannot). */
  predicate Hashable(j: Json) {
    !j.JArr? && !j.JObj?
  }
}

=== FILE: legacy.dfy ===
/**
 * The stand-alone camera tool: the class-name sanitiser used for output
 * folders, the rules that pick a camera mode without asking, and the list of
 * modes a camera offers. The camera is an input: what it reports back for
 * each requested resolution and frame rate.
 */
module Legacy {
  import opened Options
  import opened Text
  import opened Sorting

  // The class-name sanitiser.

  /** Characters a class name keeps: letters, digits, '-' and '_'. */
  predicate Allowed(c: char) {
    IsAlnum(c) || c == '-' || c == '_'
  }

  predicate IsUnderscore(c: char) {
    c == '_'
  }

  /** The comprehension: an allowed character stays, any other becomes '_'. */
  function Replaced(name: string): (r: string)
    ensures |r| == |name|
    ensures forall i :: 0 <= i < |name| ==> r[i] == if Allowed(name[i]) then name[i] else '_'
  {
    seq(|name|, i requires 0 <= i < |name| => if Allowed(name[i]) then name[i] else '_')
  }

  /** `_sanitize_class_name`: replace, strip '_' at both ends, and fall back to "class" when nothing is left. */
  function SanitizeClassName(name: string): (r: string)
    ensures r != []
    ensures forall i :: 0 <= i < |r| ==> Allowed(r[i])
    ensures r[0] != '_' && r[|r| - 1] != '_'
  {
    var clean := Trim(Replaced(name), IsUnderscore);
    if clean == [] then "class" else clean
  }

  /**
   * Unless the name has no allowed character other than '_', the result is
   * one contiguous stretch of the replaced name, and only '_' was cut away
   * around it.
   */
  lemma SanitizeKeepsOrder(name: string)
    ensures var r := SanitizeClassName(name);
      r == "class" || exists a, b :: Stretch(Replaced(name), r, a, b, IsUnderscore)
  {
    var s := Replaced(name);
    TrimIsSlice(s, IsUnderscore);
  }

  /** A name made only of allowed characters is left as it is by the replacement. */
  lemma ReplacedFixed(name: string)
    requires forall i :: 0 <= i < |name| ==> Allowed(name[i])
    ensures Replaced(name) == name
  {
  }

  /** Sanitising twice is sanitising once. */
  lemma {:induction false} SanitizeIdempotent(name: string)
    ensures SanitizeClassName(SanitizeClassName(name)) == SanitizeClassName(name)
  {
    var r := SanitizeClassName(name);
    ReplacedFixed(r);
    assert TrimLeft(r, IsUnderscore) == r;
    assert TrimRight(r, IsUnderscore) == r;
  }

  // Camera modes.

  /** One capture mode. */
  datatype Mode = Mode(width: int, height: int, fps: int)

  /** What `_probe_camera` found: its modes and its defaults (`None` when the key is missing). */
  datatype Camera = Camera(modes: seq<Mode>, defaultWidth: Option<int>, defaultHeight: Option<int>, defaultFps: Option<int>)

  /** `int(value or fallback)`: a missing or zero default gives the fallback. */
  function OrElse(value: Option<int>, fallback: int): int {
    if value.Some? && value.value != 0 then value.value else fallback
  }

  /** The mode used when the camera lists none: its defaults, else 640 x 480 at 30 fps. */
  function Fallback(camera: Camera): (m: Mode)
    ensures m.width == OrElse(camera.defaultWidth, 640)
    ensures m.height == OrElse(camera.defaultHeight, 480)
    ensures m.fps == OrElse(camera.defaultFps, 30)
  {
    Mode(OrElse(camera.defaultWidth, 640), OrElse(camera.defaultHeight, 480), OrElse(camera.defaultFps, 30))
  }

  /** The mode's size is the camera's default size (a missing default matches nothing). */
  predicate MatchesDefault(m: Mode, camera: Camera) {
    Some(m.width) == camera.defaultWidth && Some(m.height) == camera.defaultHeight
  }

  /** The default pick of `_select_camera_mode`: the first mode of the default size, else the first mode. */
  method PickDefaultMode(camera: Camera) returns (mode: Mode)
    requires camera.modes != []
    ensures mode in camera.modes
    ensures (exists i :: 0 <= i < |camera.modes| && MatchesDefault(camera.modes[i], camera)) ==>
      exists i :: 0 <= i < |camera.modes| && camera.modes[i] == mode && MatchesDefault(mode, camera) &&
        forall j :: 0 <= j < i ==> !MatchesDefault(camera.modes[j], camera)
    ensures (forall i :: 0 <= i < |camera.modes| ==> !MatchesDefault(camera.modes[i], camera)) ==> mode == camera.modes[0]
  {
    var modes := camera.modes;
    mode := modes[0];
    for i := 0 to |modes|
      invariant mode == modes[0]
      invariant forall j :: 0 <= j < i ==> !MatchesDefault(modes[j], camera)
    {
      if MatchesDefault(modes[i], camera) {
        mode := modes[i];
        return;
      }
    }
  }

  /**
   * `_select_camera_mode` without the prompt: no modes gives the fallback,
   * one mode is taken as it is, and with several the default pick is what an
   * empty answer selects.
   */
  method SelectCameraMode(camera: Camera) returns (mode: Mode)
    ensures camera.modes == [] ==> mode == Fallback(camera)
    ensures |camera.modes| == 1 ==> mode == camera.modes[0]
    ensures |camera.modes| >= 2 ==> mode in camera.modes
    ensures |camera.modes| >= 2 && (exists i :: 0 <= i < |camera.modes| && MatchesDefault(camera.modes[i], camera)) ==>
      exists i :: 0 <= i < |camera.modes| && camera.modes[i] == mode && MatchesDefault(mode, camera) &&
        forall j :: 0 <= j < i ==> !MatchesDefault(camera.modes[j], camera)
    ensures |camera.modes| >= 2 && (forall i :: 0 <= i < |camera.modes| ==> !MatchesDefault(camera.modes[i], camera)) ==>
      mode == camera.modes[0]
  {
    if camera.modes == [] {
      return Fallback(camera);
    }
    if |camera.modes| == 1 {
      return camera.modes[0];
    }
    mode := PickDefaultMode(camera);
  }

  /** The resolutions `_get_camera_modes` asks for, in order. */
  const TEST_RESOLUTIONS: seq<(int, int)> := [
    (320, 240), (640, 480), (800, 600), (1024, 768), (1280, 720), (1280, 1024),
    (1600, 1200), (1920, 1080), (2560, 1440), (2592, 1944), (3840, 2160)]

  /** The frame rates it asks for at each resolution. */
  const TEST_FPS: seq<int> := [15, 24, 25, 30, 60]

  /**
   * The camera as the probe sees it: for a requested size, the size it
   * reports back and whether a frame could be read; for a requested size and
   * rate, the rate it reports (`None` when it reports nothing).
   */
  type SizeProbe = (int, int) -> (int, int, bool)
  type FpsProbe = (int, int, int) -> Option<real>

  /** `fps` when the reported rate is missing or not positive, otherwise the reported rate truncated. */
  function ActualFps(reported: Option<real>, fps: int): int {
    if reported.None? || reported.value <= 0.0 then fps else reported.value.Floor
  }

  /** The camera delivers the requested size and a frame at it. */
  predicate SizeWorks(size: (int, int), probe: SizeProbe) {
    var answer := probe(size.0, size.1);
    answer.0 == size.0 && answer.1 == size.1 && answer.2
  }

  /** The modes the first `j` test rates add at one size. */
  function RateModes(size: (int, int), j: nat, probe: SizeProbe, rates: FpsProbe): set<Mode>
    requires j <= |TEST_FPS|
  {
    if j == 0 then {}
    else
      var fps := ActualFps(rates(size.0, size.1, TEST_FPS[j - 1]), TEST_FPS[j - 1]);
      RateModes(size, j - 1, probe, rates) +
        (if SizeWorks(size, probe) && fps > 0 then {Mode(size.0, size.1, fps)} else {})
  }

  /** The modes the first `k` test sizes offer. */
  function Offered(k: nat, probe: SizeProbe, rates: FpsProbe): set<Mode>
    requires k <= |TEST_RESOLUTIONS|
  {
    if k == 0 then {} else Offered(k - 1, probe, rates) + RateModes(TEST_RESOLUTIONS[k - 1], |TEST_FPS|, probe, rates)
  }

  /** Each mode appears at most once. */
  ghost predicate NoDuplicates(modes: seq<Mode>) {
    forall m :: multiset(modes)[m] <= 1
  }

  /** The sort key `(width * height, fps)`. */
  function ModeKey(m: Mode): (int, int) {
    (m.width * m.height, m.fps)
  }

  /**
   * `_get_camera_modes`: every working size and positive rate, each
   * (width, height, fps) once, sorted by pixel count and then rate; nothing
   * for a camera that does not open.
   */
  method GetCameraModes(isOpen: bool, probe: SizeProbe, rates: FpsProbe) returns (modes: seq<Mode>)
    ensures forall m :: m in modes ==> m.fps > 0
    ensures NoDuplicates(modes)
    ensures SortedBy(modes, ModeKey)
    ensures forall m :: m in modes <==> isOpen && m in Offered(|TEST_RESOLUTIONS|, probe, rates)
  {
    modes := [];
    if !isOpen {
      return;
    }
    var seen: set<Mode> := {};
    for k := 0 to |TEST_RESOLUTIONS|
      invariant forall m :: m in seen <==> m in modes
      invariant forall m :: m in modes <==> m in Offered(k, probe, rates)
      invariant forall m :: m in modes ==> m.fps > 0
      invariant NoDuplicates(modes)
    {
      var size := TEST_RESOLUTIONS[k];
      var (width, height) := size;
      var (actualWidth, actualHeight, read) := probe(width, height);
      if actualWidth != width || actualHeight != height {
        NoModesAtFailingSize(size, |TEST_FPS|, probe, rates);
        continue;
      }
      if !read {
        NoModesAtFailingSize(size, |TEST_FPS|, probe, rates);
        continue;
      }
      for j := 0 to |TEST_FPS|
        invariant forall m :: m in seen <==> m in modes
        invariant forall m :: m in modes <==> m in Offered(k, probe, rates) + RateModes(size, j, probe, rates)
        invariant forall m :: m in modes ==> m.fps > 0
        invariant NoDuplicates(modes)
      {
        var fps := TEST_FPS[j];
        var actualFps := ActualFps(rates(width, height, fps), fps);
        if actualFps <= 0 {
          continue;
        }
        var key := Mode(actualWidth, actualHeight, actualFps);
        if key in seen {
          continue;
        }
        seen := seen + {key};
        modes := modes + [key];
      }
    }
    var unsorted := modes;
    modes := SortBy(modes, ModeKey);
    assert forall m :: m in modes <==> m in unsorted by {
      forall m ensures m in modes <==> m in unsorted {
        assert m in modes <==> m in multiset(modes);
        assert m in unsorted <==> m in multiset(unsorted);
      }
    }
  }

  /** A size the camera does not deliver offers no mode. */
  lemma {:induction false} NoModesAtFailingSize(size: (int, int), j: nat, probe: SizeProbe, rates: FpsProbe)
    requires j <= |TEST_FPS| && !SizeWorks(size, probe)
    ensures RateModes(size, j, probe, rates) == {}
  {
    if j > 0 {
      NoModesAtFailingSize(size, j - 1, probe, rates);
    }
  }
}

=== FILE: loop_properties.dfy ===
/**
 * Properties of whole iterations of the controller's loop: which states can
 * follow which, what triggers an inference, and which events are
 * edge-triggered.
 */
module LoopProperties {
  import opened Options
  import opened Json
  import opened Registers
  import opened Plc
  import opened Server
  import opened StateMachine

  /** Every iteration keeps the timestamps the loop subtracts from set while their state is current. */
  lemma StepPreservesInv(m: Machine, loads: Decoder, now: int)
    requires StepReady(m, loads, now)
    ensures Inv(Step(m, loads, now))
  {
  }

  /**
   * The two event checks that close an iteration only append to the app:
   * the state and the detection bookkeeping are those the branch left.
   */
  lemma StepExtendsBranch(m: Machine, loads: Decoder, now: int)
    requires StepReady(m, loads, now)
    ensures var b := Branch(Prelude(m, now), loads, now);
      var r := Step(m, loads, now);
      r.state == b.state && r.detection == b.detection && AppOnly(b.outbox, r.outbox)
  {
    var b := Branch(Prelude(m, now), loads, now);
    var c := ReceiverStep(b);
    assert AppOnly(b.outbox, c.outbox) && c.state == b.state && c.detection == b.detection;
    AppOnlyTransitive(b.outbox, c.outbox, HardwareErrorsStep(c).outbox);
  }

  /** Outside DUMPING the opening checks only reset recognition bits: state, status, mail and log stay. */
  lemma PreludeOutsideDumping(m: Machine, now: int)
    requires Inv(m) && !m.state.IsDumping()
    ensures var p := Prelude(m, now);
      p.state == m.state && p.plc.status == m.plc.status && p.detection == m.detection &&
      p.mail == m.mail && p.outbox == m.outbox
  {
  }

  /** Appending only app events, twice, appends only app events. */
  lemma AppOnlyTransitive(a: seq<Outbound>, b: seq<Outbound>, c: seq<Outbound>)
    requires AppOnly(a, b) && AppOnly(b, c)
    ensures AppOnly(a, c)
  {
    forall k | |a| <= k < |c| ensures c[k].ToApp? {
      if k < |b| {
        assert c[k] == b[k];
      }
    }
  }

  /**
   * WAITING_VISION never leads to DUMPING or ERROR: the vision decision and
   * the vision timeout both go back to IDLE.
   */
  lemma WaitingNeverDumpsNorFails(m: Machine, loads: Decoder, now: int)
    requires StepReady(m, loads, now) && m.state == WaitingVision
    ensures Step(m, loads, now).state == Idle || Step(m, loads, now).state == WaitingVision
  {
    StepExtendsBranch(m, loads, now);
  }

  /**
   * A DUMPING state is entered only by the app's `dump_container` command,
   * never by a vision answer.
   */
  lemma DumpingOnlyByCommand(m: Machine, loads: Decoder, now: int)
    requires StepReady(m, loads, now) && !m.state.IsDumping()
    requires Step(m, loads, now).state.IsDumping()
    ensures m.state == Idle || m.state == Error
    ensures ParseCommand(PeekState(m.mail, APP), loads).0 == JStr("dump_container")
  {
    StepExtendsBranch(m, loads, now);
    var p := Prelude(m, now);
    assert p.state == m.state && p.mail == m.mail;
  }

  /**
   * An iteration in IDLE or ERROR whose app message is `dump_container` with
   * a known container type ends in that type's DUMPING state, with the
   * carriage's force-move bit set (4 left for plastic, 5 right for aluminum)
   * and the dump's start time recorded.
   */
  lemma DumpCommandEntersDumping(m: Machine, loads: Decoder, now: int, kind: Container)
    requires StepReady(m, loads, now) && (m.state == Idle || m.state == Error)
    requires Parseable(PeekState(m.mail, APP), loads)
    requires ParseCommand(PeekState(m.mail, APP), loads).0 == JStr("dump_container")
    requires Get(ParseCommand(PeekState(m.mail, APP), loads).1, "param") == JStr(kind.Name())
    ensures var r := Step(m, loads, now);
      r.state == (if kind == Plastic then DumpingPlastic else DumpingAluminum) &&
      Bit(r.plc.cmd, if kind == Plastic then FORCE_MOVE_LEFT else FORCE_MOVE_RIGHT) == 1 &&
      r.carriage.dumpStartedTime == Some(now)
  {
    PreludeOutsideDumping(m, now);
    var p := Prelude(m, now);
    var parsed := ParseCommand(PeekState(m.mail, APP), loads);
    var param := Get(parsed.1, "param");
    var q := if m.state == Idle then TrackVeil(GreetApp(p), now) else p;
    var q1 := q.(mail := TakeCommand(q.mail, APP).1);
    var b := Branch(p, loads, now);
    assert PeekState(q.mail, APP) == PeekState(m.mail, APP);
    assert Inv(q1);
    assert b == HandleContainerDump(q1, param, now);
    var bit := if kind == Plastic then FORCE_MOVE_LEFT else FORCE_MOVE_RIGHT;
    assert b.plc == CommandBit(q1.plc, bit, true);
    CommandBitSetsOnlyItsBit(q1.plc, bit, true);
    StepExtendsBranch(m, loads, now);
    var c := ReceiverStep(b);
    assert c.plc == b.plc && c.carriage == b.carriage;
  }

  /** A vision answer that agrees with the PLC sets the recognition bit and leaves the state IDLE. */
  lemma RecognitionSetsBitAndReturnsToIdle(m: Machine, now: int)
    requires m.state == WaitingVision && m.detection.requestTime.Some?
    requires PendingAfterRead(m) == Some("plastic") && DetectionAfterRead(m) == Some(Plastic)
    ensures var r := WaitingStep(m, now);
      r.state == Idle && Bit(r.plc.cmd, DETECTED_BOTTLE) == 1 && r.carriage.movingBottle &&
      r.outbox[|m.outbox|] == ToApp(Event("container_recognized",
        map["container_type" := JStr("plastic"), "confidence" := JReal(1.0)]))
  {
    CommandBitSetsOnlyItsBit(m.plc, DETECTED_BOTTLE, true);
  }

  /**
   * After `before`, `after` holds `container_detected` at `k` and the
   * command to vision at `k + 1`, and every other new entry is for the app.
   */
  predicate InferenceStartedAt(before: seq<Outbound>, after: seq<Outbound>, k: int, detected: Option<Container>) {
    before <= after && |before| <= k && k + 1 < |after| &&
    after[k] == ToApp(DetectedEvent(detected)) && after[k + 1] == ToVision(VisionCommand(detected)) &&
    forall j :: |before| <= j < |after| && j != k + 1 ==> after[j].ToApp?
  }

  /** Appending app events keeps the started inference where it was. */
  lemma InferenceStartedExtends(before: seq<Outbound>, mid: seq<Outbound>, after: seq<Outbound>, k: int,
                                detected: Option<Container>)
    requires InferenceStartedAt(before, mid, k, detected) && AppOnly(mid, after)
    ensures InferenceStartedAt(before, after, k, detected)
  {
    forall j | |before| <= j < |after| && j != k + 1 ensures after[j].ToApp? {
      if j < |mid| {
        assert after[j] == mid[j];
      }
    }
  }

  /**
   * The IDLE branch on a veil release, whatever the app has sent: the
   * inference is started, `container_detected` goes out immediately before
   * the one command to vision, and the state is WAITING_VISION unless the
   * app's `dump_container` is dispatched in the same pass.
   */
  lemma IdleVeilRelease(m: Machine, loads: Decoder, now: int)
    requires m.state == Idle && Dispatchable(PeekState(m.mail, APP), loads)
    requires VeilTrigger(m)
    ensures var r := IdleStep(m, loads, now);
      r.detection.requestTime == Some(now) && r.detection.inferenceRequested &&
      InferenceStartedAt(m.outbox, r.outbox, |GreetApp(m).outbox|, PlcDetection(m)) &&
      (r.state == WaitingVision ||
       (r.state.IsDumping() && ParseCommand(PeekState(m.mail, APP), loads).0 == JStr("dump_container")))
  {
    var g := GreetApp(m);
    var c := if !ContainerPresent(g) then g.(detection := g.detection.(inferenceRequested := false)) else g;
    assert c.plc == m.plc && VeilTrigger(c);
    var t := TrackVeil(g, now);
    var k := |g.outbox|;
    assert t.outbox == g.outbox + [ToApp(DetectedEvent(PlcDetection(m))), ToVision(VisionCommand(PlcDetection(m)))] by {
      assert t.outbox == StartInference(c, now).outbox;
    }
    assert t.state == WaitingVision && t.detection.requestTime == Some(now) && t.detection.inferenceRequested;
    assert PeekState(t.mail, APP) == PeekState(m.mail, APP);
    forall j | |m.outbox| <= j < |t.outbox| && j != k + 1 ensures t.outbox[j].ToApp? {
      if j < k {
        assert t.outbox[j] == g.outbox[j];
      }
    }
    assert InferenceStartedAt(m.outbox, t.outbox, k, PlcDetection(m));
    var r := AppCommand(t, loads, now);
    assert r == IdleStep(m, loads, now);
    InferenceStartedExtends(m.outbox, t.outbox, r.outbox, k, PlcDetection(m));
  }

  /**
   * The veil clears in IDLE with no inference outstanding: whatever the app
   * has sent, `container_detected` is sent immediately before the one
   * command to vision, and the state becomes WAITING_VISION unless the app's
   * `dump_container` is dispatched in the same iteration.
   */
  lemma VeilReleaseStartsInference(m: Machine, loads: Decoder, now: int)
    requires StepReady(m, loads, now) && m.state == Idle
    requires VeilTrigger(m)
    ensures var r := Step(m, loads, now);
      r.detection.requestTime == Some(now) && r.detection.inferenceRequested &&
      (exists k :: InferenceStartedAt(m.outbox, r.outbox, k, PlcDetection(m))) &&
      (r.state == WaitingVision ||
       (r.state.IsDumping() && ParseCommand(PeekState(m.mail, APP), loads).0 == JStr("dump_container")))
  {
    var p := Prelude(m, now);
    PreludeOutsideDumping(m, now);
    IdleVeilRelease(p, loads, now);
    assert PlcDetection(p) == PlcDetection(m);
    StepExtendsBranch(m, loads, now);
    var b := Branch(p, loads, now);
    assert b == IdleStep(p, loads, now);
    var k := |GreetApp(p).outbox|;
    InferenceStartedExtends(m.outbox, b.outbox, Step(m, loads, now).outbox, k, PlcDetection(m));
  }

  /**
   * While inference has been requested and a container is still in the
   * receiver, the main loop sends no further command to vision and the
   * latch stays set: one inference per container.
   */
  lemma InferenceLatchedWhilePresent(m: Machine, loads: Decoder, now: int)
    requires StepReady(m, loads, now) && m.state == Idle
    requires m.detection.inferenceRequested && ContainerPresent(m)
    ensures AppOnly(m.outbox, Step(m, loads, now).outbox)
    ensures Step(m, loads, now).detection.inferenceRequested
  {
    var p := Prelude(m, now);
    PreludeOutsideDumping(m, now);
    IdleLatch(p, loads, now);
    StepExtendsBranch(m, loads, now);
    var b := Branch(p, loads, now);
    assert b == IdleStep(p, loads, now);
    AppOnlyTransitive(m.outbox, b.outbox, Step(m, loads, now).outbox);
  }

  /** The IDLE branch while the latch is set and a container is present. */
  lemma IdleLatch(m: Machine, loads: Decoder, now: int)
    requires m.state == Idle && Dispatchable(PeekState(m.mail, APP), loads)
    requires m.detection.inferenceRequested && ContainerPresent(m)
    ensures AppOnly(m.outbox, IdleStep(m, loads, now).outbox)
    ensures IdleStep(m, loads, now).detection.inferenceRequested
  {
    var g := GreetApp(m);
    var t := TrackVeil(g, now);
    assert !VeilTrigger(g);
    assert t.outbox == g.outbox && t.detection.inferenceRequested;
  }

  /** The vision command: "bottle_exist" if bit 7 is set, "bank_exist" if only bit 6 is, "bottle_exist" otherwise. */
  lemma VisionCommandFollowsPresenceBits(m: Machine)
    ensures Bit(m.plc.status, BOTTLE_EXIST) == 1 ==>
      VisionCommand(PlcDetection(m)) == "bottle_exist" && DetectedEvent(PlcDetection(m)).data["container_type"] == JStr("plastic")
    ensures Bit(m.plc.status, BOTTLE_EXIST) == 0 && Bit(m.plc.status, BANK_EXIST) == 1 ==>
      VisionCommand(PlcDetection(m)) == "bank_exist" && DetectedEvent(PlcDetection(m)).data["container_type"] == JStr("aluminum")
    ensures !ContainerPresent(m) ==>
      VisionCommand(PlcDetection(m)) == "bottle_exist" && DetectedEvent(PlcDetection(m)).data["container_type"] == JStr("unknown")
  {
  }

  /** A dump that reaches its sensor clears the command register; one that times out reports exactly one error. */
  lemma DumpEndsClearingCommandRegister(m: Machine, now: int)
    requires m.state.IsDumping() && m.carriage.dumpStartedTime.Some?
    ensures var r := DumpingStep(m, now);
      r.state != m.state ==>
        r.plc.cmd == 0 && (r.state == Idle || r.state == Error) &&
        |r.outbox| == |m.outbox| + 1 && r.carriage.dumpStartedTime.None?
    ensures var r := DumpingStep(m, now);
      r.state == Error ==>
        r.outbox[|m.outbox|].event.name == "hardware_error" &&
        r.outbox[|m.outbox|].event.data["error_code"] ==
          JStr(if m.state == DumpingPlastic then "carriage_left_timeout" else "carriage_right_timeout")
  {
  }

  /** After the reset timeout, a set bottle recognition bit reads 0 again. */
  lemma CarriageResetClearsBottleBit(m: Machine, now: int)
    requires m.carriage.movingBottle && Elapsed(m.carriage.movingStartTime, now, CARRIAGE_RESET_TIMEOUT)
    ensures Bit(CarriageReset(m, now).plc.cmd, DETECTED_BOTTLE) == 0
    ensures !CarriageReset(m, now).carriage.movingBottle
  {
  }

  /** After the reset timeout, a set bank recognition bit reads 0 again when no bottle is pending. */
  lemma CarriageResetClearsBankBit(m: Machine, now: int)
    requires m.carriage.movingBank && !m.carriage.movingBottle
    requires Elapsed(m.carriage.movingStartTime, now, CARRIAGE_RESET_TIMEOUT)
    ensures Bit(CarriageReset(m, now).plc.cmd, DETECTED_BANK) == 0
    ensures !CarriageReset(m, now).carriage.movingBank
  {
  }

  /**
   * Both recognition bits share one reset clock: when the bottle's reset
   * fires it clears the clock, so the bank bit set in the same window stays
   * set and no later reset of this kind clears it until a new recognition
   * restarts the clock.
   */
  lemma SharedStartTimeStrandsBankBit(m: Machine, now: int, later: int)
    requires m.carriage.movingBottle && m.carriage.movingBank
    requires Bit(m.plc.cmd, DETECTED_BANK) == 1
    requires Elapsed(m.carriage.movingStartTime, now, CARRIAGE_RESET_TIMEOUT)
    ensures var r := CarriageReset(m, now);
      r.carriage.movingBank && r.carriage.movingStartTime.None? && Bit(r.plc.cmd, DETECTED_BANK) == 1 &&
      CarriageReset(r, later) == r
  {
    CommandBitSetsOnlyItsBit(m.plc, DETECTED_BOTTLE, false);
  }

  /**
   * `hardware_error` is edge-triggered: running the check again on the same
   * status sends nothing more, however long a flag stays set.
   */
  lemma HardwareErrorsOncePerEdge(m: Machine)
    ensures var r := HardwareErrorsStep(m);
      HardwareErrorsStep(r).outbox == r.outbox && HardwareErrorsStep(r).edges == r.edges
  {
  }

  /** A flag rising from 0 to 1 produces exactly one `hardware_error` with its code. */
  lemma WeightErrorRisingReported(m: Machine)
    requires Bit(m.plc.status, WEIGHT_ERROR) == 1 && m.edges.weightError == 0
    requires Bit(m.plc.status, WEIGHT_TOO_SMALL) == 0 && Bit(m.plc.status, LEFT_MOVEMENT_ERROR) == 0
    requires Bit(m.plc.status, RIGHT_MOVEMENT_ERROR) == 0
    ensures HardwareErrorsStep(m).outbox == m.outbox + [ToApp(Event("hardware_error",
      map["error_code" := JStr("weight_error"), "message" := JStr("Ошибка взвешивания")]))]
  {
  }

  /** The receiver events fire only on a change of (bottle or bank): a second check sends nothing. */
  lemma ReceiverOncePerChange(m: Machine)
    ensures ReceiverStep(ReceiverStep(m)) == ReceiverStep(m)
  {
  }
}

=== FILE: modbus_register.dfy ===
/**
 * One Modbus holding register as the controller sees it: a cached 16-bit
 * value with bit set, clear and read operations, where every change is pushed
 * into the register block of the in-process Modbus slave.
 */
module Registers {

  /** A holding register is 16 bits wide. */
  type Word = bv16

  /** A bit position inside a register. */
  type BitIndex = b: bv16 | b < 16

  function Mask(b: BitIndex): Word {
    1 << b
  }

  /** `(value >> bit) & 1`: the state of one bit, as 0 or 1. */
  function Bit(v: Word, b: BitIndex): (r: Word)
    ensures r == 0 || r == 1
    ensures r == 1 <==> v & Mask(b) != 0
  {
    (v >> b) & 1
  }

  /** `value | (1 << bit)` when `on`, otherwise `value & ~(1 << bit)`. */
  function WithBit(v: Word, b: BitIndex, on: bool): (r: Word)
    ensures Bit(r, b) == if on then 1 else 0
  {
    if on then v | Mask(b) else v & !Mask(b)
  }

  /** Setting or clearing one bit leaves every other bit as it was. */
  lemma WithBitKeepsOthers(v: Word, b: BitIndex, c: BitIndex, on: bool)
    requires c != b
    ensures Bit(WithBit(v, b, on), c) == Bit(v, c)
  {
    if on {
      assert (v | Mask(b)) & Mask(c) == v & Mask(c);
    } else {
      assert (v & !Mask(b)) & Mask(c) == v & Mask(c);
    }
  }

  /** A register is determined by its sixteen bits. */
  lemma BitsDetermineWord(v: Word, w: Word)
    requires forall c: BitIndex :: Bit(v, c) == Bit(w, c)
    ensures v == w
  {
    assert Bit(v, 0) == Bit(w, 0) && Bit(v, 1) == Bit(w, 1) && Bit(v, 2) == Bit(w, 2) && Bit(v, 3) == Bit(w, 3);
    assert Bit(v, 4) == Bit(w, 4) && Bit(v, 5) == Bit(w, 5) && Bit(v, 6) == Bit(w, 6) && Bit(v, 7) == Bit(w, 7);
    assert Bit(v, 8) == Bit(w, 8) && Bit(v, 9) == Bit(w, 9) && Bit(v, 10) == Bit(w, 10) && Bit(v, 11) == Bit(w, 11);
    assert Bit(v, 12) == Bit(w, 12) && Bit(v, 13) == Bit(w, 13) && Bit(v, 14) == Bit(w, 14) && Bit(v, 15) == Bit(w, 15);
  }

  /** Setting a bit to the same state twice is the same as setting it once. */
  lemma {:induction false} WithBitIdempotent(v: Word, b: BitIndex, on: bool)
    ensures WithBit(WithBit(v, b, on), b, on) == WithBit(v, b, on)
  {
    var once := WithBit(v, b, on);
    forall c: BitIndex ensures Bit(WithBit(once, b, on), c) == Bit(once, c) {
      if c != b {
        WithBitKeepsOthers(once, b, c, on);
      }
    }
    BitsDetermineWord(WithBit(once, b, on), once);
  }

  /**
   * The Modbus slave's holding-register memory: register number to value.
   * The field device, as bus master, reads and writes it over the serial line.
   */
  class Slave {
    var holding: map<int, Word>

    constructor ()
      ensures holding == map[]
    {
      holding := map[];
    }

    /** `add_block('holding', HOLDING_REGISTERS, start, size)`: `size` registers from `start`, all 0. */
    method AddBlock(start: int, size: nat)
      requires forall r :: start <= r < start + size ==> r !in holding
      modifies this
      ensures holding == old(holding) + Zeros(start, size)
    {
      holding := holding + Zeros(start, size);
    }

    /** `set_values('holding', address, value)`: one register; also what a master write does. */
    method SetValues(address: int, value: Word)
      requires address in holding
      modifies this
      ensures holding == old(holding)[address := value]
    {
      holding := holding[address := value];
    }

    /** `get_values('holding', address, 1)`: the register's value, or nothing outside every block. */
    function GetValues(address: int): (r: seq<Word>)
      reads this
      ensures |r| <= 1
      ensures r != [] <==> address in holding
      ensures r != [] ==> r[0] == holding[address]
    {
      if address in holding then [holding[address]] else []
    }
  }

  predicate InBlock(start: int, size: nat, r: int) {
    start <= r < start + size
  }

  /** A freshly added block: registers `start` .. `start + size - 1`, all 0. */
  function Zeros(start: int, size: nat): (z: map<int, Word>)
    ensures forall r :: r in z <==> start <= r < start + size
    ensures forall r :: r in z ==> z[r] == 0
  {
    map r | start <= r < start + size && InBlock(start, size, r) :: 0
  }

  /** A `ModbusRegister`: a cached value bound to one register number of one slave. */
  class ModbusRegister {
    const slave: Slave
    const registerNumber: int
    var value: Word

    constructor (slave: Slave, registerNumber: int)
      ensures this.slave == slave && this.registerNumber == registerNumber
      ensures value == 0
    {
      this.slave := slave;
      this.registerNumber := registerNumber;
      value := 0;
    }

    /** `set_bit`: sets or clears one bit and pushes the new value to the slave. */
    method SetBit(b: BitIndex, state: bool)
      requires registerNumber in slave.holding
      modifies this, slave
      ensures value == WithBit(old(value), b, state)
      ensures slave.holding == old(slave.holding)[registerNumber := value]
    {
      if state {
        value := value | Mask(b);
      } else {
        value := value & !Mask(b);
      }
      SyncToDevice();
    }

    /** `get_bit`: the cached state of one bit. */
    function GetBit(b: BitIndex): (r: Word)
      reads this
      ensures r == 0 || r == 1
      ensures r == 1 <==> value & Mask(b) != 0
    {
      Bit(value, b)
    }

    /** `set_value`: replaces the whole value and pushes it to the slave. */
    method SetValue(v: Word)
      requires registerNumber in slave.holding
      modifies this, slave
      ensures value == v
      ensures slave.holding == old(slave.holding)[registerNumber := v]
    {
      value := v;
      SyncToDevice();
    }

    /** `get_value`. */
    function GetValue(): Word
      reads this
    {
      value
    }

    /** `reset_all_bits`: value 0, pushed to the slave. */
    method ResetAllBits()
      requires registerNumber in slave.holding
      modifies this, slave
      ensures value == 0
      ensures forall c: BitIndex :: GetBit(c) == 0
      ensures slave.holding == old(slave.holding)[registerNumber := 0]
    {
      value := 0;
      SyncToDevice();
    }

    /** `sync_to_device`: writes the cached value into the slave. */
    method SyncToDevice()
      requires registerNumber in slave.holding
      modifies slave
      ensures slave.holding == old(slave.holding)[registerNumber := value]
    {
      slave.SetValues(registerNumber, value);
    }

    /** `sync_from_device`: copies the slave's value when the read returns one. */
    method SyncFromDevice()
      modifies this
      ensures value == if registerNumber in slave.holding then slave.holding[registerNumber] else old(value)
    {
      var status := slave.GetValues(registerNumber);
      if status != [] {
        value := status[0];
      }
    }
  }
}

=== FILE: options.dfy ===
/** The optional value that Python expresses with `None`. */
module Options {

  datatype Option<T> = None | Some(value: T)
}

=== FILE: plc.dfy ===
/**
 * The PLC facade: seven `ModbusRegister`s over one slave, with named readers
 * for the status register (26), the counter and fill registers (20-23), and
 * named writers for the bits of the command register (25).
 */
module Plc {
  import opened Registers

  const SPEED_REGISTER := 24
  const CMD_REGISTER := 25
  const STATUS_REGISTER := 26
  const BANK_COUNTER_REGISTER := 20
  const BOTTLE_COUNTER_REGISTER := 21
  const BOTTLE_PERCENT_REGISTER := 22
  const BANK_PERCENT_REGISTER := 23

  /** The holding-register block the slave serves: registers 10 to 26. */
  const BLOCK_START := 10
  const BLOCK_SIZE := 17

  // Bits of the status register.
  const VEIL: BitIndex := 0
  const LEFT_SENSOR: BitIndex := 1
  const CENTER_SENSOR: BitIndex := 2
  const RIGHT_SENSOR: BitIndex := 3
  const UNKNOWN_SENSOR: BitIndex := 4
  const WEIGHT_ERROR: BitIndex := 5
  const BANK_EXIST: BitIndex := 6
  const BOTTLE_EXIST: BitIndex := 7
  const WEIGHT_TOO_SMALL: BitIndex := 8
  const BOTTLE_WEIGHT_OK: BitIndex := 9
  const BANK_WEIGHT_OK: BitIndex := 10
  const STATUS_WORK: BitIndex := 11
  const LEFT_MOVEMENT_ERROR: BitIndex := 12
  const RIGHT_MOVEMENT_ERROR: BitIndex := 13

  // Bits of the command register.
  const LOCK_AND_BLOCK_CARRIAGE: BitIndex := 0
  const WEIGHT_ERROR_RESET: BitIndex := 1
  const RESET_BANK_COUNTERS: BitIndex := 2
  const RESET_BOTTLE_COUNTERS: BitIndex := 3
  const FORCE_MOVE_LEFT: BitIndex := 4
  const FORCE_MOVE_RIGHT: BitIndex := 5
  const DETECTED_BANK: BitIndex := 6
  const DETECTED_BOTTLE: BitIndex := 7
  const RESET_WEIGHT_READING: BitIndex := 8

  /** Everything the PLC object holds: the slave's registers and the seven cached values. */
  datatype PlcView = PlcView(
    holding: map<int, Word>,
    cmd: Word,
    status: Word,
    speed: Word,
    bankCount: Word,
    bottleCount: Word,
    bottlePercent: Word,
    bankPercent: Word)

  /** The view after `set_bit(b, on)` on the command register. */
  function CommandBit(v: PlcView, b: BitIndex, on: bool): PlcView {
    var c := WithBit(v.cmd, b, on);
    v.(cmd := c, holding := v.holding[CMD_REGISTER := c])
  }

  /** The view after `reset_all_bits` on the command register. */
  function ClearCommand(v: PlcView): PlcView {
    v.(cmd := 0, holding := v.holding[CMD_REGISTER := 0])
  }

  /** One register's `sync_from_device`: the slave's value if it has one, else the cached one. */
  function Synced(holding: map<int, Word>, register: int, cached: Word): Word {
    if register in holding then holding[register] else cached
  }

  /** The view after `update_data`. */
  function Refresh(v: PlcView): PlcView {
    v.(status := Synced(v.holding, STATUS_REGISTER, v.status),
       bankCount := Synced(v.holding, BANK_COUNTER_REGISTER, v.bankCount),
       bottleCount := Synced(v.holding, BOTTLE_COUNTER_REGISTER, v.bottleCount),
       bottlePercent := Synced(v.holding, BOTTLE_PERCENT_REGISTER, v.bottlePercent),
       bankPercent := Synced(v.holding, BANK_PERCENT_REGISTER, v.bankPercent))
  }

  /** Two views that agree on everything except the command register. */
  predicate SameExceptCommand(v: PlcView, w: PlcView) {
    w.status == v.status && w.speed == v.speed &&
    w.bankCount == v.bankCount && w.bottleCount == v.bottleCount &&
    w.bottlePercent == v.bottlePercent && w.bankPercent == v.bankPercent &&
    w.holding.Keys == v.holding.Keys + {CMD_REGISTER} &&
    (forall a :: a in v.holding && a != CMD_REGISTER ==> w.holding[a] == v.holding[a])
  }

  /**
   * A command-bit write sets exactly that bit, keeps every other bit of the
   * command register, publishes the new value to register 25 and changes
   * nothing else: not the status, counter or speed registers.
   */
  lemma CommandBitSetsOnlyItsBit(v: PlcView, b: BitIndex, on: bool)
    ensures var w := CommandBit(v, b, on);
      Bit(w.cmd, b) == (if on then 1 else 0) &&
      (forall c: BitIndex :: c != b ==> Bit(w.cmd, c) == Bit(v.cmd, c)) &&
      w.holding[CMD_REGISTER] == w.cmd &&
      SameExceptCommand(v, w)
  {
    var w := CommandBit(v, b, on);
    forall c: BitIndex | c != b ensures Bit(w.cmd, c) == Bit(v.cmd, c) {
      WithBitKeepsOthers(v.cmd, b, c, on);
    }
  }

  /** Clearing the command register zeroes it, publishes 0 and changes nothing else. */
  lemma ClearCommandZeroesOnlyCommand(v: PlcView)
    ensures var w := ClearCommand(v);
      w.cmd == 0 && (forall c: BitIndex :: Bit(w.cmd, c) == 0) &&
      w.holding[CMD_REGISTER] == 0 && SameExceptCommand(v, w)
  {
  }

  /**
   * `update_data` refreshes exactly the status register and registers 20-23
   * from the slave; the command and speed caches and the slave are untouched.
   */
  lemma RefreshTouchesFiveRegisters(v: PlcView)
    requires forall r :: BLOCK_START <= r < BLOCK_START + BLOCK_SIZE ==> r in v.holding
    ensures var w := Refresh(v);
      w.status == v.holding[STATUS_REGISTER] &&
      w.bankCount == v.holding[BANK_COUNTER_REGISTER] &&
      w.bottleCount == v.holding[BOTTLE_COUNTER_REGISTER] &&
      w.bottlePercent == v.holding[BOTTLE_PERCENT_REGISTER] &&
      w.bankPercent == v.holding[BANK_PERCENT_REGISTER] &&
      w.cmd == v.cmd && w.speed == v.speed && w.holding == v.holding
  {
  }

  /** The PLC object of the controller (serial port and RTU server left out). */
  class PLC {
    const slave: Slave
    const cmd: ModbusRegister
    const status: ModbusRegister
    const speed: ModbusRegister
    const bankCounter: ModbusRegister
    const bottleCounter: ModbusRegister
    const bottlePercent: ModbusRegister
    const bankPercent: ModbusRegister

    /** Every register is bound to the shared slave under its own number. */
    predicate Wired() {
      cmd.slave == slave && cmd.registerNumber == CMD_REGISTER &&
      status.slave == slave && status.registerNumber == STATUS_REGISTER &&
      speed.slave == slave && speed.registerNumber == SPEED_REGISTER &&
      bankCounter.slave == slave && bankCounter.registerNumber == BANK_COUNTER_REGISTER &&
      bottleCounter.slave == slave && bottleCounter.registerNumber == BOTTLE_COUNTER_REGISTER &&
      bottlePercent.slave == slave && bottlePercent.registerNumber == BOTTLE_PERCENT_REGISTER &&
      bankPercent.slave == slave && bankPercent.registerNumber == BANK_PERCENT_REGISTER
    }

    /** The registers are wired and every one of them lies inside the slave's block. */
    ghost predicate Valid()
      reads slave
    {
      Wired() &&
      forall r :: BLOCK_START <= r < BLOCK_START + BLOCK_SIZE ==> r in slave.holding
    }

    ghost function View(): PlcView
      reads slave, cmd, status, speed, bankCounter, bottleCounter, bottlePercent, bankPercent
    {
      PlcView(slave.holding, cmd.value, status.value, speed.value,
              bankCounter.value, bottleCounter.value, bottlePercent.value, bankPercent.value)
    }

    /** Creates the registers, adds the block 10-26 to the slave and writes `speed` to register 24. */
    constructor (speedValue: Word)
      ensures Valid()
      ensures View() == PlcView(Zeros(BLOCK_START, BLOCK_SIZE)[SPEED_REGISTER := speedValue],
                                0, 0, speedValue, 0, 0, 0, 0)
    {
      var s := new Slave();
      slave := s;
      cmd := new ModbusRegister(s, CMD_REGISTER);
      status := new ModbusRegister(s, STATUS_REGISTER);
      var sp := new ModbusRegister(s, SPEED_REGISTER);
      speed := sp;
      bankCounter := new ModbusRegister(s, BANK_COUNTER_REGISTER);
      bottleCounter := new ModbusRegister(s, BOTTLE_COUNTER_REGISTER);
      bottlePercent := new ModbusRegister(s, BOTTLE_PERCENT_REGISTER);
      bankPercent := new ModbusRegister(s, BANK_PERCENT_REGISTER);
      new;
      s.AddBlock(BLOCK_START, BLOCK_SIZE);
      assert s.holding == Zeros(BLOCK_START, BLOCK_SIZE);
      assert SPEED_REGISTER in s.holding;
      sp.SetValue(speedValue);
      assert s.holding.Keys == Zeros(BLOCK_START, BLOCK_SIZE).Keys;
    }

    /** `update_data`: `sync_from_device` on the status register and on registers 20-23. */
    method UpdateData()
      requires Valid()
      modifies status, bankCounter, bottleCounter, bottlePercent, bankPercent
      ensures Valid()
      ensures View() == Refresh(old(View()))
    {
      status.SyncFromDevice();
      bankCounter.SyncFromDevice();
      bottleCounter.SyncFromDevice();
      bottlePercent.SyncFromDevice();
      bankPercent.SyncFromDevice();
    }

    // Readers of the status register (26).

    function GetStateVeil(): (r: Word)
      requires Wired()
      reads status
      ensures r == Bit(status.value, VEIL) && status.registerNumber == STATUS_REGISTER
    {
      status.GetBit(VEIL)
    }

    function GetStateLeftSensorCarriage(): (r: Word)
      requires Wired()
      reads status
      ensures r == Bit(status.value, LEFT_SENSOR) && status.registerNumber == STATUS_REGISTER
    {
      status.GetBit(LEFT_SENSOR)
    }

    function GetStateCenterSensorCarriage(): (r: Word)
      requires Wired()
      reads status
      ensures r == Bit(status.value, CENTER_SENSOR) && status.registerNumber == STATUS_REGISTER
    {
      status.GetBit(CENTER_SENSOR)
    }

    function GetStateRightSensorCarriage(): (r: Word)
      requires Wired()
      reads status
      ensures r == Bit(status.value, RIGHT_SENSOR) && status.registerNumber == STATUS_REGISTER
    {
      status.GetBit(RIGHT_SENSOR)
    }

    function GetStateUnknownSensorCarriage(): (r: Word)
      requires Wired()
      reads status
      ensures r == Bit(status.value, UNKNOWN_SENSOR) && status.registerNumber == STATUS_REGISTER
    {
      status.GetBit(UNKNOWN_SENSOR)
    }

    function GetStateWeightError(): (r: Word)
      requires Wired()
      reads status
      ensures r == Bit(status.value, WEIGHT_ERROR) && status.registerNumber == STATUS_REGISTER
    {
      status.GetBit(WEIGHT_ERROR)
    }

    function GetBankExist(): (r: Word)
      requires Wired()
      reads status
      ensures r == Bit(status.value, BANK_EXIST) && status.registerNumber == STATUS_REGISTER
    {
      status.GetBit(BANK_EXIST)
    }

    function GetBottleExist(): (r: Word)
      requires Wired()
      reads status
      ensures r == Bit(status.value, BOTTLE_EXIST) && status.registerNumber == STATUS_REGISTER
    {
      status.GetBit(BOTTLE_EXIST)
    }

    function GetWeightTooSmall(): (r: Word)
      requires Wired()
      reads status
      ensures r == Bit(status.value, WEIGHT_TOO_SMALL) && status.registerNumber == STATUS_REGISTER
    {
      status.GetBit(WEIGHT_TOO_SMALL)
    }

    function GetBottleWeightOk(): (r: Word)
      requires Wired()
      reads status
      ensures r == Bit(status.value, BOTTLE_WEIGHT_OK) && status.registerNumber == STATUS_REGISTER
    {
      status.GetBit(BOTTLE_WEIGHT_OK)
    }

    function GetBankWeightOk(): (r: Word)
      requires Wired()
      reads status
      ensures r == Bit(status.value, BANK_WEIGHT_OK) && status.registerNumber == STATUS_REGISTER
    {
      status.GetBit(BANK_WEIGHT_OK)
    }

    function GetStatusWork(): (r: Word)
      requires Wired()
      reads status
      ensures r == Bit(status.value, STATUS_WORK) && status.registerNumber == STATUS_REGISTER
    {
      status.GetBit(STATUS_WORK)
    }

    function GetLeftMovementError(): (r: Word)
      requires Wired()
      reads status
      ensures r == Bit(status.value, LEFT_MOVEMENT_ERROR) && status.registerNumber == STATUS_REGISTER
    {
      status.GetBit(LEFT_MOVEMENT_ERROR)
    }

    function GetRightMovementError(): (r: Word)
      requires Wired()
      reads status
      ensures r == Bit(status.value, RIGHT_MOVEMENT_ERROR) && status.registerNumber == STATUS_REGISTER
    {
      status.GetBit(RIGHT_MOVEMENT_ERROR)
    }

    // Readers of the counter and fill registers (20-23).

    function GetBankCount(): (r: Word)
      requires Wired()
      reads bankCounter
      ensures r == bankCounter.value && bankCounter.registerNumber == BANK_COUNTER_REGISTER
    {
      bankCounter.GetValue()
    }

    function GetBottleCount(): (r: Word)
      requires Wired()
      reads bottleCounter
      ensures r == bottleCounter.value && bottleCounter.registerNumber == BOTTLE_COUNTER_REGISTER
    {
      bottleCounter.GetValue()
    }

    function GetBottleFillPercent(): (r: Word)
      requires Wired()
      reads bottlePercent
      ensures r == bottlePercent.value && bottlePercent.registerNumber == BOTTLE_PERCENT_REGISTER
    {
      bottlePercent.GetValue()
    }

    function GetBankFillPercent(): (r: Word)
      requires Wired()
      reads bankPercent
      ensures r == bankPercent.value && bankPercent.registerNumber == BANK_PERCENT_REGISTER
    {
      bankPercent.GetValue()
    }

    // Writers of the command register (25).

    method CmdLockAndBlockCarriage()
      requires Valid()
      modifies cmd, slave
      ensures Valid() && View() == CommandBit(old(View()), LOCK_AND_BLOCK_CARRIAGE, true)
    {
      cmd.SetBit(LOCK_AND_BLOCK_CARRIAGE, true);
    }

    method CmdWeightErrorReset()
      requires Valid()
      modifies cmd, slave
      ensures Valid() && View() == CommandBit(old(View()), WEIGHT_ERROR_RESET, true)
    {
      cmd.SetBit(WEIGHT_ERROR_RESET, true);
    }

    method CmdResetBankCounters()
      requires Valid()
      modifies cmd, slave
      ensures Valid() && View() == CommandBit(old(View()), RESET_BANK_COUNTERS, true)
    {
      cmd.SetBit(RESET_BANK_COUNTERS, true);
    }

    method CmdResetBottleCounters()
      requires Valid()
      modifies cmd, slave
      ensures Valid() && View() == CommandBit(old(View()), RESET_BOTTLE_COUNTERS, true)
    {
      cmd.SetBit(RESET_BOTTLE_COUNTERS, true);
    }

    method CmdForceMoveCarriageLeft()
      requires Valid()
      modifies cmd, slave
      ensures Valid() && View() == CommandBit(old(View()), FORCE_MOVE_LEFT, true)
    {
      cmd.SetBit(FORCE_MOVE_LEFT, true);
    }

    method CmdForceMoveCarriageRight()
      requires Valid()
      modifies cmd, slave
      ensures Valid() && View() == CommandBit(old(View()), FORCE_MOVE_RIGHT, true)
    {
      cmd.SetBit(FORCE_MOVE_RIGHT, true);
    }

    method CmdRadxaDetectedBank()
      requires Valid()
      modifies cmd, slave
      ensures Valid() && View() == CommandBit(old(View()), DETECTED_BANK, true)
    {
      cmd.SetBit(DETECTED_BANK, true);
    }

    method CmdRadxaDetectedBottle()
      requires Valid()
      modifies cmd, slave
      ensures Valid() && View() == CommandBit(old(View()), DETECTED_BOTTLE, true)
    {
      cmd.SetBit(DETECTED_BOTTLE, true);
    }

    method CmdRadxaStopDetectedBank()
      requires Valid()
      modifies cmd, slave
      ensures Valid() && View() == CommandBit(old(View()), DETECTED_BANK, false)
    {
      cmd.SetBit(DETECTED_BANK, false);
    }

    method CmdRadxaStopDetectedBottle()
      requires Valid()
      modifies cmd, slave
      ensures Valid() && View() == CommandBit(old(View()), DETECTED_BOTTLE, false)
    {
      cmd.SetBit(DETECTED_BOTTLE, false);
    }

    method CmdResetWeightReading()
      requires Valid()
      modifies cmd, slave
      ensures Valid() && View() == CommandBit(old(View()), RESET_WEIGHT_READING, true)
    {
      cmd.SetBit(RESET_WEIGHT_READING, true);
    }

    method CmdFullClearRegister()
      requires Valid()
      modifies cmd, slave
      ensures Valid() && View() == ClearCommand(old(View()))
    {
      cmd.ResetAllBits();
    }
  }
}

=== FILE: server.dfy ===
/**
 * The WebSocket server's registry and mailbox: each registered client name
 * has a socket and a mailbox entry holding the latest message and a
 * `just_connected` flag. Reads are read-and-clear. The asyncio event loop,
 * the socket I/O and the timestamps are not modelled; each operation below
 * is one atomic step of a connection handler or of the application thread.
 */
module Server {
  import opened Options
  import opened Json
  import opened Text

  /** Identifies one accepted WebSocket connection. */
  type ConnId = nat

  /** A `client_messages` entry (its `timestamp` is not modelled). */
  datatype Entry = Entry(message: string, justConnected: bool)

  type Mailbox = map<string, Entry>

  /** The `clients` and `client_messages` dictionaries, plus what was handed to sockets. */
  datatype Registry = Registry(clients: map<string, ConnId>, messages: Mailbox, sent: seq<(ConnId, string)>)

  /**
   * The name a connection registers under, from its first message: the first
   * truthy of `client_id`, `name`, `client` for a JSON object, the stripped
   * text when it is not JSON. `None` means that nothing is registered: the
   * name is falsy (the connection is closed), the JSON is not an object (the
   * handler fails), or the name is a truthy value that is not a string (the
   * source registers it under a key no string name can reach; a list or
   * object fails there).
   */
  function RegistrationName(raw: string, decoded: Decoded): Option<string> {
    match decoded
    case NotJson =>
      var name := Strip(raw);
      if name == "" then None else Some(name)
    case Value(JObj(fields)) =>
      var name := Or(Or(Get(fields, "client_id"), Get(fields, "name")), Get(fields, "client"));
      if name.JStr? && name.s != "" then Some(name.s) else None
    case Value(_) => None
  }

  /** `get_command(name)`: the stored message and the mailbox with it reset to "". */
  function TakeCommand(mb: Mailbox, name: string): (string, Mailbox) {
    if name in mb then (mb[name].message, mb[name := mb[name].(message := "")])
    else ("", mb)
  }

  /** `is_client_just_connected(name)`: the flag, and the mailbox with the flag cleared. */
  function TakeJustConnected(mb: Mailbox, name: string): (bool, Mailbox) {
    if name in mb && mb[name].justConnected then (true, mb[name := mb[name].(justConnected := false)])
    else (false, mb)
  }

  /** `get_state(name)`: the stored message, not cleared. */
  function PeekState(mb: Mailbox, name: string): string {
    if name in mb then mb[name].message else ""
  }

  /** Registration of `name` on connection `conn` (`_handler` after the first message). */
  function Register(r: Registry, name: string, conn: ConnId): Registry {
    r.(clients := r.clients[name := conn], messages := r.messages[name := Entry("", true)])
  }

  /** A later message from the client registered as `name` (`_handler`'s receive loop). */
  function Deliver(r: Registry, name: string, message: string): Registry {
    r.(messages := r.messages[name := Entry(message, false)])
  }

  /** The `finally` of `_handler`: both entries for the name are removed. */
  function Unregister(r: Registry, name: string): Registry {
    r.(clients := r.clients - {name}, messages := r.messages - {name})
  }

  /** `send_to_client_async`: the message goes to the socket registered under `name`, if any. */
  function Send(r: Registry, name: string, message: string): Registry {
    if name in r.clients then r.(sent := r.sent + [(r.clients[name], message)]) else r
  }

  // Properties of the registry.

  /** The name comes from `client_id` before `name` before `client`. */
  lemma RegistrationPrefersClientId(raw: string, fields: map<string, Json>, id: string)
    requires "client_id" in fields && fields["client_id"] == JStr(id) && id != ""
    ensures RegistrationName(raw, Value(JObj(fields))) == Some(id)
  {
  }

  /** A falsy `client_id` gives way to a non-empty `name` string, whatever `client` holds. */
  lemma RegistrationFallsBackToName(raw: string, fields: map<string, Json>, name: string)
    requires !Truthy(Get(fields, "client_id"))
    requires "name" in fields && fields["name"] == JStr(name) && name != ""
    ensures RegistrationName(raw, Value(JObj(fields))) == Some(name)
  {
  }

  /** With `client_id` and `name` both falsy, a non-empty `client` string is the name. */
  lemma RegistrationFallsBackToClient(raw: string, fields: map<string, Json>, client: string)
    requires !Truthy(Get(fields, "client_id")) && !Truthy(Get(fields, "name"))
    requires "client" in fields && fields["client"] == JStr(client) && client != ""
    ensures RegistrationName(raw, Value(JObj(fields))) == Some(client)
  {
  }

  /**
   * A JSON object whose `client_id`, `name` and `client` are all missing or
   * falsy registers nothing (the connection is closed).
   */
  lemma RegistrationAllFalsyNone(raw: string, fields: map<string, Json>)
    requires !Truthy(Get(fields, "client_id")) && !Truthy(Get(fields, "name")) && !Truthy(Get(fields, "client"))
    ensures RegistrationName(raw, Value(JObj(fields))) == None
  {
  }

  /** Plain text registers under the text with surrounding whitespace removed. */
  lemma PlainTextRegistersStripped(raw: string)
    ensures RegistrationName(raw, NotJson) == if Strip(raw) == "" then None else Some(Strip(raw))
  {
  }

  /** A registered name is never empty. */
  lemma RegisteredNameNotEmpty(raw: string, decoded: Decoded)
    ensures RegistrationName(raw, decoded).Some? ==> RegistrationName(raw, decoded).value != ""
  {
  }

  /** Registration gives a fresh entry ("" and just connected), replacing any earlier one. */
  lemma RegisterReplaces(r: Registry, name: string, conn: ConnId)
    ensures var s := Register(r, name, conn);
      s.clients[name] == conn && s.messages[name] == Entry("", true) &&
      (forall n :: n in r.messages && n != name ==> n in s.messages && s.messages[n] == r.messages[n]) &&
      TakeJustConnected(s.messages, name).0
  {
  }

  /** Latest value wins: an unread earlier message is lost, and the just-connected flag goes with it. */
  lemma LatestMessageWins(r: Registry, name: string, first: string, second: string)
    ensures var s := Deliver(Deliver(r, name, first), name, second);
      TakeCommand(s.messages, name).0 == second && !TakeJustConnected(s.messages, name).0
  {
  }

  /** Reads are read-once: an immediate second `get_command` returns "". */
  lemma TakeCommandReadsOnce(mb: Mailbox, name: string)
    ensures TakeCommand(TakeCommand(mb, name).1, name).0 == ""
    ensures name in mb ==> TakeCommand(mb, name).0 == mb[name].message
    ensures name !in mb ==> TakeCommand(mb, name) == ("", mb)
  {
  }

  /** `get_command` only resets the message: the flag and the other entries stay. */
  lemma TakeCommandKeepsRest(mb: Mailbox, name: string)
    ensures var mb' := TakeCommand(mb, name).1;
      mb'.Keys == mb.Keys &&
      (forall n :: n in mb && n != name ==> mb'[n] == mb[n]) &&
      (name in mb ==> mb'[name].justConnected == mb[name].justConnected)
  {
  }

  /** `is_client_just_connected` answers true at most once per registration; unknown names get false. */
  lemma JustConnectedAtMostOnce(mb: Mailbox, name: string)
    ensures !TakeJustConnected(TakeJustConnected(mb, name).1, name).0
    ensures name !in mb ==> !TakeJustConnected(mb, name).0
    ensures TakeJustConnected(mb, name).1.Keys == mb.Keys
  {
  }

  /** `get_state` does not clear: two peeks agree, and a peek then a take agree. */
  lemma PeekDoesNotClear(mb: Mailbox, name: string)
    ensures PeekState(mb, name) == TakeCommand(mb, name).0
  {
  }

  /** After a disconnect the name has neither a socket nor a mailbox, so reads return "" and false. */
  lemma UnregisterRemovesBoth(r: Registry, name: string)
    ensures var s := Unregister(r, name);
      name !in s.clients && name !in s.messages &&
      TakeCommand(s.messages, name).0 == "" && !TakeJustConnected(s.messages, name).0 &&
      Send(s, name, "x").sent == r.sent
  {
  }

  /** Sending to a name with no socket sends nothing; to a registered one, exactly one message. */
  lemma SendOnlyToRegistered(r: Registry, name: string, message: string)
    ensures name !in r.clients ==> Send(r, name, message) == r
    ensures name in r.clients ==> Send(r, name, message).sent == r.sent + [(r.clients[name], message)]
  {
  }

  /**
   * Two connections under one name: the first one's disconnect removes the
   * entries of the second, still open, connection.
   */
  lemma StaleDisconnectDropsNewerRegistration(r: Registry, name: string, c1: ConnId, c2: ConnId)
    requires c1 != c2
    ensures var s := Unregister(Register(Register(r, name, c1), name, c2), name);
      name !in s.clients && name !in s.messages
  {
  }

  /** The server object: the two dictionaries and the log of messages handed to sockets. */
  class WebSocket {
    var clients: map<string, ConnId>
    var messages: Mailbox
    var sent: seq<(ConnId, string)>

    function Abs(): Registry
      reads this
    {
      Registry(clients, messages, sent)
    }

    constructor ()
      ensures clients == map[] && messages == map[] && sent == []
    {
      clients := map[];
      messages := map[];
      sent := [];
    }

    /**
     * `_handler` up to registration: decides the name from the first message
     * and, when there is one, stores the socket and a fresh mailbox entry.
     */
    method Connect(conn: ConnId, raw: string, loads: Decoder) returns (name: Option<string>)
      modifies this
      ensures name == RegistrationName(raw, loads(raw))
      ensures Abs() == if name.Some? then Register(old(Abs()), name.value, conn) else old(Abs())
    {
      name := RegistrationName(raw, loads(raw));
      if name.Some? {
        clients := clients[name.value := conn];
        messages := messages[name.value := Entry("", true)];
      }
    }

    /** One pass of `_handler`'s receive loop: the new message overwrites the stored one. */
    method Receive(name: string, message: string)
      modifies this
      ensures Abs() == Deliver(old(Abs()), name, message)
    {
      messages := messages[name := Entry(message, false)];
    }

    /** The `finally` of `_handler` for a connection that registered `name`. */
    method Disconnect(name: string)
      modifies this
      ensures Abs() == Unregister(old(Abs()), name)
    {
      if name in clients {
        clients := clients - {name};
      }
      if name in messages {
        messages := messages - {name};
      }
    }

    /** `get_command`: returns the stored message and resets it to "". */
    method GetCommand(name: string) returns (message: string)
      modifies this
      ensures (message, messages) == TakeCommand(old(messages), name)
      ensures clients == old(clients) && sent == old(sent)
    {
      if name in messages {
        message := messages[name].message;
        messages := messages[name := messages[name].(message := "")];
      } else {
        message := "";
      }
    }

    /** `is_client_just_connected`: true once after registration, then false. */
    method IsClientJustConnected(name: string) returns (just: bool)
      modifies this
      ensures (just, messages) == TakeJustConnected(old(messages), name)
      ensures clients == old(clients) && sent == old(sent)
    {
      if name in messages && messages[name].justConnected {
        messages := messages[name := messages[name].(justConnected := false)];
        return true;
      }
      return false;
    }

    /** `get_state`: the stored message, left in place. */
    function GetState(name: string): (message: string)
      reads this
      ensures message == PeekState(messages, name)
      ensures name !in messages ==> message == ""
    {
      if name in messages then messages[name].message else ""
    }

    /** `send_to_client_async`: looks the socket up and sends only when there is one. */
    method SendToClient(name: string, message: string)
      modifies this
      ensures Abs() == Send(old(Abs()), name, message)
    {
      if name in clients {
        sent := sent + [(clients[name], message)];
      }
    }
  }
}

=== FILE: sorting.dfy ===
/**
 * Python's `sorted(..., key=...)` / `list.sort(key=...)` for keys that are
 * pairs of integers compared lexicographically, as an insertion sort.
 */
module Sorting {

  /** Tuple comparison `a <= b` on `(primary, secondary)` keys. */
  predicate KeyLe(a: (int, int), b: (int, int)) {
    a.0 < b.0 || (a.0 == b.0 && a.1 <= b.1)
  }

  predicate SortedBy<T>(s: seq<T>, key: T -> (int, int)) {
    forall i, j :: 0 <= i < j < |s| ==> KeyLe(key(s[i]), key(s[j]))
  }

  /** Puts `x` in front of the first element whose key is not smaller, so earlier equals stay first. */
  function Insert<T>(x: T, s: seq<T>, key: T -> (int, int)): (r: seq<T>)
    requires SortedBy(s, key)
    ensures SortedBy(r, key)
    ensures multiset(r) == multiset(s) + multiset{x}
  {
    if s == [] || KeyLe(key(x), key(s[0])) then
      [x] + s
    else
      var rest := Insert(x, s[1..], key);
      assert s == [s[0]] + s[1..];
      forall k | 0 <= k < |rest| ensures KeyLe(key(s[0]), key(rest[k])) {
        assert rest[k] in multiset(s[1..]) + multiset{x};
        if rest[k] != x {
          assert rest[k] in s[1..];
        }
      }
      [s[0]] + rest
  }

  /** The sorted list: ordered by key, with the same elements. */
  function SortBy<T>(s: seq<T>, key: T -> (int, int)): (r: seq<T>)
    ensures SortedBy(r, key)
    ensures multiset(r) == multiset(s) && |r| == |s|
  {
    if s == [] then []
    else
      assert s == [s[0]] + s[1..];
      Insert(s[0], SortBy(s[1..], key), key)
  }
}

=== FILE: state_machine.dfy ===
/**
 * The controller's polling loop as a function from one snapshot of the
 * application to the next. A `Machine` holds the application's own fields,
 * the PLC object's view (slave registers and cached values), the peer
 * mailbox and the log of everything sent to the "app" and "vision" peers.
 * Time is an integer clock in milliseconds.
 */
module StateMachine {
  import opened Options
  import opened Json
  import opened Registers
  import opened Plc
  import opened Server

  /** `AppState`: the five states of the loop. */
  datatype AppState = Idle | WaitingVision | DumpingPlastic | DumpingAluminum | Error
  {
    /** `AppState.value`, as reported in `device_info`. */
    function Value(): string {
      match this
      case Idle => "idle"
      case WaitingVision => "waiting_vision"
      case DumpingPlastic => "dumping_plastic"
      case DumpingAluminum => "dumping_aluminum"
      case Error => "error"
    }

    predicate IsDumping() {
      this == DumpingPlastic || this == DumpingAluminum
    }
  }

  /** The two container kinds, named as the app and the vision peer name them. */
  datatype Container = Plastic | Aluminum
  {
    function Name(): string {
      if this == Plastic then "plastic" else "aluminum"
    }
  }

  /** An event for the app peer (its ISO timestamp is not modelled). */
  datatype Event = Event(name: string, data: map<string, Json>)

  /** Everything the controller hands to the WebSocket server, in order. */
  datatype Outbound = ToApp(event: Event) | ToVision(command: string)

  // Timeouts in milliseconds; every test is a strict `>`.
  const VISION_TIMEOUT := 2000
  const DUMP_TIMEOUT := 3000
  const CARRIAGE_RESET_TIMEOUT := 2000

  const APP := "app"
  const VISION := "vision"

  /** The veil and inference bookkeeping of the IDLE and WAITING_VISION states. */
  datatype Detection = Detection(
    prevVeil: Word,
    veilJustCleared: bool,
    inferenceRequested: bool,
    plcDetection: Option<Container>,
    pendingResponse: Option<string>,
    requestTime: Option<int>)

  /** The carriage bookkeeping: the dump clock and the recognition-bit reset clock. */
  datatype Carriage = Carriage(
    dumpStartedTime: Option<int>,
    movingBottle: bool,
    movingBank: bool,
    movingStartTime: Option<int>)

  /** The previous values behind the edge-triggered events. */
  datatype Edges = Edges(
    receiver: Word,
    weightError: Word,
    weightTooSmall: Word,
    leftMovementError: Word,
    rightMovementError: Word)

  /** The configuration from `device_init`, the virtual door, and the photo requests started. */
  datatype Device = Device(config: Json, doorLocked: bool, photoRequests: nat)

  /** A snapshot of the application. */
  datatype Machine = Machine(
    state: AppState,
    plc: PlcView,
    mail: Mailbox,
    outbox: seq<Outbound>,
    device: Device,
    detection: Detection,
    carriage: Carriage,
    edges: Edges)

  /** The application as `__init__` leaves it, over a given PLC and mailbox. */
  function Initial(plc: PlcView, mail: Mailbox): Machine {
    Machine(Idle, plc, mail, [], Device(JNull, false, 0),
            Detection(0, false, false, None, None, None),
            Carriage(None, false, false, None),
            Edges(0, 0, 0, 0, 0))
  }

  /** The timestamps the loop subtracts from are set whenever their state is current. */
  predicate Inv(m: Machine) {
    (m.state == WaitingVision ==> m.detection.requestTime.Some?) &&
    (m.state.IsDumping() ==> m.carriage.dumpStartedTime.Some?)
  }

  /** Everything after `before` in `after` went to the app peer. */
  predicate AppOnly(before: seq<Outbound>, after: seq<Outbound>) {
    before <= after && forall k :: |before| <= k < |after| ==> after[k].ToApp?
  }

  /** `send_event_to_app`. */
  function Emit(m: Machine, name: string, data: map<string, Json>): Machine {
    m.(outbox := m.outbox + [ToApp(Event(name, data))])
  }

  /** Python truthiness of a stored timestamp. */
  predicate Started(t: Option<int>) {
    t.Some? && t.value != 0
  }

  function BottleExist(m: Machine): Word {
    Bit(m.plc.status, BOTTLE_EXIST)
  }

  function BankExist(m: Machine): Word {
    Bit(m.plc.status, BANK_EXIST)
  }

  /** `bottle_exist == 1 or bank_exist == 1`. */
  predicate ContainerPresent(m: Machine) {
    BottleExist(m) == 1 || BankExist(m) == 1
  }

  /** What the PLC has detected: the bottle bit wins over the bank bit. */
  function PlcDetection(m: Machine): (d: Option<Container>)
    ensures d == Some(Plastic) <==> BottleExist(m) == 1
    ensures d == Some(Aluminum) <==> BottleExist(m) == 0 && BankExist(m) == 1
    ensures d.None? <==> !ContainerPresent(m)
  {
    if BottleExist(m) == 1 then Some(Plastic)
    else if BankExist(m) == 1 then Some(Aluminum)
    else None
  }

  // Handlers of the app's commands.

  /** `handle_get_photo`: starts a photo request (the worker thread is not modelled). */
  function HandleGetPhoto(m: Machine): (r: Machine)
    ensures r == m.(device := m.device.(photoRequests := m.device.photoRequests + 1))
  {
    m.(device := m.device.(photoRequests := m.device.photoRequests + 1))
  }

  /** The payload of `device_info`. */
  function DeviceInfo(m: Machine): map<string, Json> {
    map[
      "bottle_count" := JInt(m.plc.bottleCount as int),
      "bank_count" := JInt(m.plc.bankCount as int),
      "bottle_fill_percent" := JInt(m.plc.bottlePercent as int),
      "bank_fill_percent" := JInt(m.plc.bankPercent as int),
      "state" := JStr(m.state.Value()),
      "left_sensor" := JInt(Bit(m.plc.status, LEFT_SENSOR) as int),
      "center_sensor" := JInt(Bit(m.plc.status, CENTER_SENSOR) as int),
      "right_sensor" := JInt(Bit(m.plc.status, RIGHT_SENSOR) as int),
      "weight_error" := JInt(Bit(m.plc.status, WEIGHT_ERROR) as int),
      "door_locked" := JBool(m.device.doorLocked)]
  }

  /** `handle_get_device_info`: reports counters, fill levels, state, sensors and the door. */
  function HandleGetDeviceInfo(m: Machine): (r: Machine)
    ensures r == Emit(m, "device_info", DeviceInfo(m))
    ensures DeviceInfo(m).Keys == {"bottle_count", "bank_count", "bottle_fill_percent", "bank_fill_percent", "state",
                                   "left_sensor", "center_sensor", "right_sensor", "weight_error", "door_locked"}
    ensures DeviceInfo(m)["state"] == JStr(m.state.Value()) && DeviceInfo(m)["door_locked"] == JBool(m.device.doorLocked)
  {
    Emit(m, "device_info", DeviceInfo(m))
  }

  /** `handle_device_init`: a falsy configuration is ignored; otherwise it is stored and acknowledged. */
  function HandleDeviceInit(m: Machine, config: Json): (r: Machine)
    ensures !Truthy(config) ==> r == m
    ensures Truthy(config) ==>
      r == Emit(m.(device := m.device.(config := config)), "device_init_ack", map["status" := JStr("ok")])
  {
    if !Truthy(config) then m
    else Emit(m.(device := m.device.(config := config)), "device_init_ack", map["status" := JStr("ok")])
  }

  /**
   * `handle_container_dump`: "plastic" starts the carriage left (bit 4) and
   * "aluminum" starts it right (bit 5), entering the matching DUMPING state
   * with the dump clock started; anything else changes nothing.
   */
  function HandleContainerDump(m: Machine, param: Json, now: int): (r: Machine)
    ensures param == JStr("plastic") ==>
      r.state == DumpingPlastic && r.plc == CommandBit(m.plc, FORCE_MOVE_LEFT, true) &&
      r.carriage == m.carriage.(dumpStartedTime := Some(now)) &&
      r.outbox == m.outbox + [ToApp(Event("container_dumped", map["container_type" := JStr("plastic")]))]
    ensures param == JStr("aluminum") ==>
      r.state == DumpingAluminum && r.plc == CommandBit(m.plc, FORCE_MOVE_RIGHT, true) &&
      r.carriage == m.carriage.(dumpStartedTime := Some(now)) &&
      r.outbox == m.outbox + [ToApp(Event("container_dumped", map["container_type" := JStr("aluminum")]))]
    ensures param != JStr("plastic") && param != JStr("aluminum") ==> r == m
    ensures r == m.(state := r.state, plc := r.plc, carriage := r.carriage, outbox := r.outbox)
    ensures Inv(m) ==> Inv(r)
  {
    if param == JStr("plastic") then
      Emit(m.(state := DumpingPlastic, carriage := m.carriage.(dumpStartedTime := Some(now)),
              plc := CommandBit(m.plc, FORCE_MOVE_LEFT, true)),
           "container_dumped", map["container_type" := JStr("plastic")])
    else if param == JStr("aluminum") then
      Emit(m.(state := DumpingAluminum, carriage := m.carriage.(dumpStartedTime := Some(now)),
              plc := CommandBit(m.plc, FORCE_MOVE_RIGHT, true)),
           "container_dumped", map["container_type" := JStr("aluminum")])
    else
      m
  }

  /**
   * `handle_container_unloaded`: resets the bottle counters (bit 3) for
   * "plastic", the bank counters (bit 2) for "aluminum", and acknowledges
   * whatever was sent.
   */
  function HandleContainerUnloaded(m: Machine, param: Json): (r: Machine)
    ensures r.plc == (if param == JStr("plastic") then CommandBit(m.plc, RESET_BOTTLE_COUNTERS, true)
                      else if param == JStr("aluminum") then CommandBit(m.plc, RESET_BANK_COUNTERS, true)
                      else m.plc)
    ensures r == Emit(m.(plc := r.plc), "container_unloaded_ack", map["container_type" := param])
  {
    var m1 :=
      if param == JStr("plastic") then m.(plc := CommandBit(m.plc, RESET_BOTTLE_COUNTERS, true))
      else if param == JStr("aluminum") then m.(plc := CommandBit(m.plc, RESET_BANK_COUNTERS, true))
      else m;
    Emit(m1, "container_unloaded_ack", map["container_type" := param])
  }

  /** `handle_lock_door`. */
  function HandleLockDoor(m: Machine): Machine {
    Emit(m.(device := m.device.(doorLocked := true)), "up_door_locked", map["status" := JStr("ok")])
  }

  /** `handle_unlock_door`. */
  function HandleUnlockDoor(m: Machine): Machine {
    Emit(m.(device := m.device.(doorLocked := false)), "up_door_unlocked", map["status" := JStr("ok")])
  }

  /** `handle_stub_command`: acknowledges `<name>_ack` with status "not_implemented". */
  function HandleStubCommand(m: Machine, name: string): Machine {
    Emit(m, name + "_ack", map["status" := JStr("not_implemented")])
  }

  // The command registry.

  /** The commands registered to `handle_stub_command`. */
  predicate IsStubCommand(name: string) {
    name == "enter_service_mode" || name == "exit_service_mode" || name == "restore_device" ||
    name == "open_shutter" || name == "reboot_device"
  }

  /** The keys of `_command_handlers`. */
  predicate IsRegistered(name: string) {
    IsStubCommand(name) ||
    name == "get_photo" || name == "get_device_info" || name == "device_init" || name == "dump_container" ||
    name == "container_unloaded" || name == "lock_door" || name == "unlock_door" ||
    name == "cmd_full_clear_register" || name == "cmd_force_move_carriage_left" ||
    name == "cmd_force_move_carriage_right" || name == "cmd_weight_error_reset" || name == "cmd_reset_weight_reading"
  }

  /** `command in self._command_handlers`. */
  predicate IsKnownCommand(command: Json) {
    command.JStr? && IsRegistered(command.s)
  }

  /** The five `cmd_*` commands, which only write the command register. */
  function RegisterCommand(m: Machine, name: string): (r: Machine)
    requires IsRegisterCommand(name)
    ensures r == m.(plc := r.plc)
    ensures name == "cmd_full_clear_register" ==> r.plc == ClearCommand(m.plc)
    ensures name == "cmd_force_move_carriage_left" ==> r.plc == CommandBit(m.plc, FORCE_MOVE_LEFT, true)
    ensures name == "cmd_force_move_carriage_right" ==> r.plc == CommandBit(m.plc, FORCE_MOVE_RIGHT, true)
    ensures name == "cmd_weight_error_reset" ==> r.plc == CommandBit(m.plc, WEIGHT_ERROR_RESET, true)
    ensures name == "cmd_reset_weight_reading" ==> r.plc == CommandBit(m.plc, RESET_WEIGHT_READING, true)
  {
    if name == "cmd_full_clear_register" then m.(plc := ClearCommand(m.plc))
    else if name == "cmd_force_move_carriage_left" then m.(plc := CommandBit(m.plc, FORCE_MOVE_LEFT, true))
    else if name == "cmd_force_move_carriage_right" then m.(plc := CommandBit(m.plc, FORCE_MOVE_RIGHT, true))
    else if name == "cmd_weight_error_reset" then m.(plc := CommandBit(m.plc, WEIGHT_ERROR_RESET, true))
    else m.(plc := CommandBit(m.plc, RESET_WEIGHT_READING, true))
  }

  /** The app handlers that write the PLC's command register: the dump and the unload. */
  function PlcHandler(m: Machine, name: string, param: Json, now: int): (r: Machine)
    requires Inv(m)
    ensures Inv(r) && AppOnly(m.outbox, r.outbox)
    ensures r.mail == m.mail && r.detection == m.detection && r.edges == m.edges && r.device == m.device
    ensures r.state != m.state ==> name == "dump_container" && r.state.IsDumping()
  {
    if name == "dump_container" then HandleContainerDump(m, param, now)
    else HandleContainerUnloaded(m, param)
  }

  /** The app handlers that leave the PLC alone: photo, device info and configuration, the door. */
  function DeviceHandler(m: Machine, name: string, param: Json): (r: Machine)
    ensures r == m.(device := r.device, outbox := r.outbox) && AppOnly(m.outbox, r.outbox)
  {
    if name == "get_photo" then HandleGetPhoto(m)
    else if name == "get_device_info" then HandleGetDeviceInfo(m)
    else if name == "device_init" then HandleDeviceInit(m, param)
    else if name == "lock_door" then HandleLockDoor(m)
    else HandleUnlockDoor(m)
  }

  /** The handlers that talk to the app (everything but the stubs and the `cmd_*` commands). */
  function AppHandler(m: Machine, name: string, param: Json, now: int): (r: Machine)
    requires Inv(m)
    ensures Inv(r) && AppOnly(m.outbox, r.outbox)
    ensures r.mail == m.mail && r.detection == m.detection && r.edges == m.edges
    ensures r.state != m.state ==> name == "dump_container" && r.state.IsDumping()
  {
    if name == "dump_container" || name == "container_unloaded" then PlcHandler(m, name, param, now)
    else DeviceHandler(m, name, param)
  }

  /** The names `RegisterCommand` handles. */
  predicate IsRegisterCommand(name: string) {
    name == "cmd_full_clear_register" || name == "cmd_force_move_carriage_left" ||
    name == "cmd_force_move_carriage_right" || name == "cmd_weight_error_reset" || name == "cmd_reset_weight_reading"
  }

  /** `_dispatch_command`: runs the registered handler, or reports an unknown command. */
  function Dispatch(m: Machine, command: Json, params: map<string, Json>, now: int): (r: Machine)
    requires Inv(m)
    ensures Inv(r)
    ensures !IsKnownCommand(command) ==>
      r == Emit(m, "command_error", map["command" := command, "error" := JStr("unknown_command")])
    ensures command.JStr? && IsStubCommand(command.s) ==>
      r == Emit(m, command.s + "_ack", map["status" := JStr("not_implemented")])
    ensures AppOnly(m.outbox, r.outbox)
    ensures r.mail == m.mail && r.detection == m.detection && r.edges == m.edges
    ensures r.state != m.state ==> command == JStr("dump_container") && r.state.IsDumping()
    ensures command == JStr("dump_container") ==> r == HandleContainerDump(m, Get(params, "param"), now)
  {
    if !IsKnownCommand(command) then
      Emit(m, "command_error", map["command" := command, "error" := JStr("unknown_command")])
    else if IsStubCommand(command.s) then HandleStubCommand(m, command.s)
    else if IsRegisterCommand(command.s) then RegisterCommand(m, command.s)
    else AppHandler(m, command.s, Get(params, "param"), now)
  }

  // Parsing of the app's messages.

  /**
   * The messages `parse_command` handles without raising: empty, not JSON,
   * or a JSON object.
   */
  predicate Parseable(message: string, loads: Decoder) {
    message == "" || !loads(message).Value? || loads(message).json.JObj?
  }

  /**
   * Parseable, and a truthy `command` can be looked up in the registry (it is
   * not a non-empty list or object); a falsy one is never looked up.
   */
  predicate Dispatchable(message: string, loads: Decoder) {
    Parseable(message, loads) &&
    (message != "" && loads(message).Value? ==>
      var command := Get(loads(message).json.fields, "command");
      Truthy(command) ==> Hashable(command))
  }

  /**
   * `parse_command`: `(None, {})` for an empty or non-JSON message; otherwise
   * the `command` field and every field of the object, with `param` taken
   * from `container_type` when present, else from `config` when present.
   */
  function ParseCommand(message: string, loads: Decoder): (r: (Json, map<string, Json>))
    requires Parseable(message, loads)
    ensures message == "" || loads(message).NotJson? ==> r == (JNull, map[])
    ensures message != "" && loads(message).Value? ==>
      var d := loads(message).json.fields;
      r.0 == Get(d, "command") &&
      r.1.Keys == d.Keys + (if "container_type" in d || "config" in d then {"param"} else {}) &&
      (forall k :: k in d && k != "param" ==> r.1[k] == d[k]) &&
      ("container_type" in d ==> r.1["param"] == d["container_type"]) &&
      ("container_type" !in d && "config" in d ==> r.1["param"] == d["config"]) &&
      ("container_type" !in d && "config" !in d && "param" in d ==> r.1["param"] == d["param"])
  {
    if message == "" || loads(message).NotJson? then (JNull, map[])
    else
      var d := loads(message).json.fields;
      var params :=
        if "container_type" in d then d["param" := d["container_type"]]
        else if "config" in d then d["param" := d["config"]]
        else d;
      (Get(d, "command"), params)
  }

  // The vision answer.

  /** The vision answer matches the PLC's detection of a bottle. */
  predicate PlasticConfirmed(m: Machine, response: string) {
    m.detection.plcDetection == Some(Plastic) && response == "plastic"
  }

  /** The vision answer matches the PLC's detection of a bank. */
  predicate AluminumConfirmed(m: Machine, response: string) {
    m.detection.plcDetection == Some(Aluminum) && response == "aluminum"
  }

  /**
   * `_handle_vision_response_with_events`: a match between the PLC's
   * detection and the vision answer sets the recognition bit (7 for plastic,
   * 6 for aluminum), starts the carriage clock and sends
   * `container_recognized`; "none" or a mismatch writes nothing and sends
   * `container_not_recognized`, empty for "none" and otherwise carrying the
   * PLC's detection (null when it saw nothing) and the vision answer.
   */
  function HandleVisionResponseWithEvents(m: Machine, response: string, now: int): (r: Machine)
    ensures r == m.(plc := r.plc, carriage := r.carriage, outbox := r.outbox)
    ensures PlasticConfirmed(m, response) ==>
      r.plc == CommandBit(m.plc, DETECTED_BOTTLE, true) &&
      r.carriage == m.carriage.(movingBottle := true, movingStartTime := Some(now)) &&
      r.outbox == m.outbox + [ToApp(Event("container_recognized",
        map["container_type" := JStr("plastic"), "confidence" := JReal(1.0)]))]
    ensures AluminumConfirmed(m, response) ==>
      r.plc == CommandBit(m.plc, DETECTED_BANK, true) &&
      r.carriage == m.carriage.(movingBank := true, movingStartTime := Some(now)) &&
      r.outbox == m.outbox + [ToApp(Event("container_recognized",
        map["container_type" := JStr("aluminum"), "confidence" := JReal(1.0)]))]
    ensures !PlasticConfirmed(m, response) && !AluminumConfirmed(m, response) ==>
      r.plc == m.plc && r.carriage == m.carriage && AppOnly(m.outbox, r.outbox)
    ensures response == "none" ==>
      r.outbox == m.outbox + [ToApp(Event("container_not_recognized", map[]))]
    ensures response != "none" && !PlasticConfirmed(m, response) && !AluminumConfirmed(m, response) ==>
      r.outbox == m.outbox + [ToApp(Event("container_not_recognized",
        map["plc_type" := (if m.detection.plcDetection.Some? then JStr(m.detection.plcDetection.value.Name()) else JNull),
            "vision_type" := JStr(response)]))]
  {
    if response == "none" then
      Emit(m, "container_not_recognized", map[])
    else if PlasticConfirmed(m, response) then
      Emit(m.(plc := CommandBit(m.plc, DETECTED_BOTTLE, true),
              carriage := m.carriage.(movingBottle := true, movingStartTime := Some(now))),
           "container_recognized", map["container_type" := JStr("plastic"), "confidence" := JReal(1.0)])
    else if AluminumConfirmed(m, response) then
      Emit(m.(plc := CommandBit(m.plc, DETECTED_BANK, true),
              carriage := m.carriage.(movingBank := true, movingStartTime := Some(now))),
           "container_recognized", map["container_type" := JStr("aluminum"), "confidence" := JReal(1.0)])
    else
      var plcType := if m.detection.plcDetection.Some? then JStr(m.detection.plcDetection.value.Name()) else JNull;
      Emit(m, "container_not_recognized", map["plc_type" := plcType, "vision_type" := JStr(response)])
  }

  /** `_handle_vision_response`: the same decision, writing the bit only, with no event and no flag. */
  function HandleVisionResponse(m: Machine, response: string): (r: Machine)
    ensures r == m.(plc := r.plc)
    ensures r.plc == (if PlasticConfirmed(m, response) then CommandBit(m.plc, DETECTED_BOTTLE, true)
                      else if AluminumConfirmed(m, response) then CommandBit(m.plc, DETECTED_BANK, true)
                      else m.plc)
  {
    if response == "none" then m
    else if PlasticConfirmed(m, response) then m.(plc := CommandBit(m.plc, DETECTED_BOTTLE, true))
    else if AluminumConfirmed(m, response) then m.(plc := CommandBit(m.plc, DETECTED_BANK, true))
    else m
  }

  // The steps of one loop iteration.

  /** The per-kind constants of `_dumping_config` (its sensor getter is `SensorReached`). */
  datatype DumpConfig = DumpConfig(kind: Container, errorCode: string, errorMessage: string)

  function DumpingConfig(s: AppState): DumpConfig
    requires s.IsDumping()
  {
    if s == DumpingPlastic then DumpConfig(Plastic, "carriage_left_timeout", "Таймаут движения каретки влево")
    else DumpConfig(Aluminum, "carriage_right_timeout", "Таймаут движения каретки вправо")
  }

  /** The carriage sensor of the dump direction: left (bit 1) for plastic, right (bit 3) for aluminum. */
  predicate SensorReached(m: Machine)
    requires m.state.IsDumping()
  {
    if m.state == DumpingPlastic then Bit(m.plc.status, LEFT_SENSOR) == 1 else Bit(m.plc.status, RIGHT_SENSOR) == 1
  }

  /** The counter that `container_accepted` reports for a kind. */
  function Counter(plc: PlcView, kind: Container): Word {
    if kind == Plastic then plc.bottleCount else plc.bankCount
  }

  /**
   * `_handle_dumping_state`: the carriage sensor is checked before the
   * timeout. The sensor clears the command register and accepts the
   * container (back to IDLE); past the timeout the register is cleared, the
   * state is ERROR and one `hardware_error` is sent; otherwise nothing changes.
   */
  function DumpingStep(m: Machine, now: int): (r: Machine)
    requires m.state.IsDumping() && m.carriage.dumpStartedTime.Some?
    ensures r == m.(state := r.state, plc := r.plc, carriage := r.carriage, outbox := r.outbox)
    ensures r.carriage == m.carriage || r.carriage == m.carriage.(dumpStartedTime := None)
    ensures var c := DumpingConfig(m.state);
      if SensorReached(m) then
        r.state == Idle && r.plc == ClearCommand(m.plc) &&
        r.outbox == m.outbox + [ToApp(Event("container_accepted",
          map["container_type" := JStr(c.kind.Name()), "counter" := JInt(Counter(m.plc, c.kind) as int)]))]
      else if now - m.carriage.dumpStartedTime.value > DUMP_TIMEOUT then
        r.state == Error && r.plc == ClearCommand(m.plc) &&
        r.outbox == m.outbox + [ToApp(Event("hardware_error",
          map["error_code" := JStr(c.errorCode), "message" := JStr(c.errorMessage)]))]
      else
        r == m
    ensures Inv(r)
  {
    var c := DumpingConfig(m.state);
    var stopped := m.carriage.(dumpStartedTime := None);
    if SensorReached(m) then
      var cleared := m.(plc := ClearCommand(m.plc), state := Idle, carriage := stopped);
      Emit(cleared, "container_accepted",
           map["container_type" := JStr(c.kind.Name()), "counter" := JInt(Counter(cleared.plc, c.kind) as int)])
    else if now - m.carriage.dumpStartedTime.value > DUMP_TIMEOUT then
      Emit(m.(plc := ClearCommand(m.plc), state := Error, carriage := stopped), "hardware_error",
           map["error_code" := JStr(c.errorCode), "message" := JStr(c.errorMessage)])
    else
      m
  }

  /** More than `timeout` has passed since the truthy timestamp `t`. */
  predicate Elapsed(t: Option<int>, now: int, timeout: int) {
    Started(t) && now - t.value > timeout
  }

  /** The bottle half of the carriage-reset check. */
  function BottleReset(m: Machine, now: int): Machine {
    if m.carriage.movingBottle && Elapsed(m.carriage.movingStartTime, now, CARRIAGE_RESET_TIMEOUT) then
      m.(plc := CommandBit(m.plc, DETECTED_BOTTLE, false),
         carriage := m.carriage.(movingBottle := false, movingStartTime := None))
    else m
  }

  /** The bank half of the carriage-reset check. */
  function BankReset(m: Machine, now: int): Machine {
    if m.carriage.movingBank && Elapsed(m.carriage.movingStartTime, now, CARRIAGE_RESET_TIMEOUT) then
      m.(plc := CommandBit(m.plc, DETECTED_BANK, false),
         carriage := m.carriage.(movingBank := false, movingStartTime := None))
    else m
  }

  /**
   * The carriage-reset checks of the loop: a recognition bit (7, then 6) is
   * cleared once more than the reset timeout has passed since the shared
   * carriage clock was started. Only that register and the carriage fields change.
   */
  function CarriageReset(m: Machine, now: int): (r: Machine)
    ensures r == m.(plc := r.plc, carriage := r.carriage)
    ensures r.carriage.dumpStartedTime == m.carriage.dumpStartedTime
    ensures m.carriage.movingBottle && Elapsed(m.carriage.movingStartTime, now, CARRIAGE_RESET_TIMEOUT) ==>
      r.plc == CommandBit(m.plc, DETECTED_BOTTLE, false) &&
      r.carriage == m.carriage.(movingBottle := false, movingStartTime := None)
    ensures !(m.carriage.movingBottle || m.carriage.movingBank) || !Elapsed(m.carriage.movingStartTime, now, CARRIAGE_RESET_TIMEOUT) ==>
      r == m
  {
    BankReset(BottleReset(m, now), now)
  }

  /** The vision answer held after this iteration's read of the vision mailbox. */
  function PendingAfterRead(m: Machine): Option<string> {
    var response := TakeCommand(m.mail, VISION).0;
    if response != "" && m.detection.pendingResponse.None? then Some(response) else m.detection.pendingResponse
  }

  /** The PLC detection held after this iteration's look at the presence bits. */
  function DetectionAfterRead(m: Machine): Option<Container> {
    if m.detection.plcDetection.None? then PlcDetection(m) else m.detection.plcDetection
  }

  /** Both halves of the decision are held. */
  predicate DecisionReady(m: Machine) {
    PendingAfterRead(m).Some? && DetectionAfterRead(m).Some?
  }

  /** The waiting fields cleared on leaving WAITING_VISION. */
  function LeaveWaiting(m: Machine): Machine {
    m.(state := Idle, detection := m.detection.(requestTime := None, plcDetection := None, pendingResponse := None))
  }

  /** WAITING_VISION's reads: the vision mailbox is read once and the PLC's presence bits are looked at. */
  function WaitingRead(m: Machine): (r: Machine)
    ensures r.mail == TakeCommand(m.mail, VISION).1 && PeekState(r.mail, VISION) == ""
    ensures forall n :: n != VISION ==> PeekState(r.mail, n) == PeekState(m.mail, n)
    ensures r == m.(mail := r.mail, detection := m.detection.(pendingResponse := r.detection.pendingResponse,
                                                             plcDetection := r.detection.plcDetection))
    ensures m.detection.pendingResponse.Some? ==> r.detection.pendingResponse == m.detection.pendingResponse
    ensures m.detection.pendingResponse.None? ==>
      r.detection.pendingResponse == if PeekState(m.mail, VISION) == "" then None else Some(PeekState(m.mail, VISION))
    ensures m.detection.plcDetection.Some? ==> r.detection.plcDetection == m.detection.plcDetection
    ensures m.detection.plcDetection.None? ==> r.detection.plcDetection == PlcDetection(m)
  {
    m.(mail := TakeCommand(m.mail, VISION).1,
       detection := m.detection.(pendingResponse := PendingAfterRead(m), plcDetection := DetectionAfterRead(m)))
  }

  /** WAITING_VISION's decision, once both halves are held, or its timeout. */
  function WaitingDecide(m: Machine, now: int): (r: Machine)
    requires m.state == WaitingVision && m.detection.requestTime.Some?
    ensures r.state == Idle <==>
      (m.detection.pendingResponse.Some? && m.detection.plcDetection.Some?) || now - m.detection.requestTime.value > VISION_TIMEOUT
    ensures r.state == WaitingVision ==> r == m
    ensures r.mail == m.mail && r.edges == m.edges && r.device == m.device && Inv(r)
    ensures r.detection.inferenceRequested == m.detection.inferenceRequested && r.detection.prevVeil == m.detection.prevVeil
  {
    if m.detection.pendingResponse.Some? && m.detection.plcDetection.Some? then
      LeaveWaiting(HandleVisionResponseWithEvents(m, m.detection.pendingResponse.value, now))
    else if now - m.detection.requestTime.value > VISION_TIMEOUT then
      Emit(LeaveWaiting(m), "container_not_recognized", map[])
    else
      m
  }

  /**
   * One iteration in WAITING_VISION. The decision is taken only once both a
   * vision answer and a PLC detection are held; otherwise, past the vision
   * timeout, the state returns to IDLE with `container_not_recognized`. The
   * state afterwards is IDLE or still WAITING_VISION, never DUMPING or ERROR.
   */
  function WaitingStep(m: Machine, now: int): (r: Machine)
    requires m.state == WaitingVision && m.detection.requestTime.Some?
    ensures r.state == Idle || r.state == WaitingVision
    ensures r.mail == TakeCommand(m.mail, VISION).1 && r.edges == m.edges && r.device == m.device
    ensures r.detection.inferenceRequested == m.detection.inferenceRequested && r.detection.prevVeil == m.detection.prevVeil
    ensures r.state == Idle <==> DecisionReady(m) || now - m.detection.requestTime.value > VISION_TIMEOUT
    ensures r.state == Idle ==>
      r.detection.requestTime.None? && r.detection.plcDetection.None? && r.detection.pendingResponse.None?
    ensures r.state == WaitingVision ==>
      r.plc == m.plc && r.carriage == m.carriage && r.outbox == m.outbox &&
      r.detection == m.detection.(pendingResponse := PendingAfterRead(m), plcDetection := DetectionAfterRead(m))
    ensures !DecisionReady(m) && r.state == Idle ==>
      r.plc == m.plc && r.carriage == m.carriage &&
      r.outbox == m.outbox + [ToApp(Event("container_not_recognized", map[]))]
    ensures AppOnly(m.outbox, r.outbox) && |r.outbox| <= |m.outbox| + 1
    ensures Inv(r)
  {
    WaitingDecide(WaitingRead(m), now)
  }

  /** The commands the ERROR state acts on. */
  predicate ErrorStateCommand(command: Json) {
    command == JStr("get_photo") || command == JStr("get_device_info") ||
    command == JStr("dump_container") || command == JStr("restore_device")
  }

  /**
   * `_handle_error_state_commands`: in ERROR only get_photo, get_device_info,
   * dump_container and restore_device are acted on; restore_device returns
   * to IDLE; any other command is refused with `not_allowed_in_error_state`
   * and a falsy or unparsed command does nothing beyond consuming the message.
   */
  function ErrorStep(m: Machine, loads: Decoder, now: int): (r: Machine)
    requires m.state == Error
    requires Parseable(PeekState(m.mail, APP), loads)
    ensures var parsed := ParseCommand(PeekState(m.mail, APP), loads);
      r == ErrorCommand(m.(mail := TakeCommand(m.mail, APP).1), parsed.0, Get(parsed.1, "param"), now)
    ensures r.mail == TakeCommand(m.mail, APP).1
  {
    var parsed := ParseCommand(TakeCommand(m.mail, APP).0, loads);
    ErrorCommand(m.(mail := TakeCommand(m.mail, APP).1), parsed.0, Get(parsed.1, "param"), now)
  }

  /** The ERROR state's reaction to one parsed command. */
  function ErrorCommand(m: Machine, command: Json, param: Json, now: int): (r: Machine)
    requires m.state == Error
    ensures !Truthy(command) ==> r == m
    ensures command == JStr("get_photo") ==> r == HandleGetPhoto(m)
    ensures command == JStr("get_device_info") ==> r == HandleGetDeviceInfo(m)
    ensures command == JStr("dump_container") ==> r == HandleContainerDump(m, param, now)
    ensures command == JStr("restore_device") ==>
      r == Emit(m.(state := Idle), "restore_device_ack", map["status" := JStr("ok")])
    ensures Truthy(command) && !ErrorStateCommand(command) ==>
      r == Emit(m, "command_error", map["command" := command, "error" := JStr("not_allowed_in_error_state")])
    ensures r.state == Error || command == JStr("restore_device") || command == JStr("dump_container")
    ensures r.mail == m.mail && r.detection == m.detection && r.edges == m.edges
    ensures Inv(m) ==> Inv(r)
    ensures AppOnly(m.outbox, r.outbox)
  {
    if !Truthy(command) then m
    else if command == JStr("get_photo") then HandleGetPhoto(m)
    else if command == JStr("get_device_info") then HandleGetDeviceInfo(m)
    else if command == JStr("dump_container") then HandleContainerDump(m, param, now)
    else if command == JStr("restore_device") then
      Emit(m.(state := Idle), "restore_device_ack", map["status" := JStr("ok")])
    else
      Emit(m, "command_error", map["command" := command, "error" := JStr("not_allowed_in_error_state")])
  }

  /** The command sent to vision when the veil clears: "bank_exist" only when the PLC saw a bank and no bottle. */
  function VisionCommand(detected: Option<Container>): (c: string)
    ensures c == "bank_exist" <==> detected == Some(Aluminum)
    ensures c == "bottle_exist" <==> detected != Some(Aluminum)
  {
    if detected == Some(Aluminum) then "bank_exist" else "bottle_exist"
  }

  /** The `container_detected` event: the detected kind, or "unknown". */
  function DetectedEvent(detected: Option<Container>): Event {
    Event("container_detected",
          map["container_type" := JStr(if detected.Some? then detected.value.Name() else "unknown")])
  }

  /**
   * The veil has just cleared in IDLE: inference is requested, the PLC's
   * detection is recorded, `container_detected` goes to the app, stale
   * vision answers are dropped, the command goes to vision and the state
   * becomes WAITING_VISION.
   */
  function StartInference(m: Machine, now: int): (r: Machine)
    ensures r == m.(state := WaitingVision, detection := r.detection, mail := r.mail, outbox := r.outbox)
    ensures r.detection == m.detection.(veilJustCleared := true, inferenceRequested := true,
                                        requestTime := Some(now), plcDetection := PlcDetection(m))
    ensures r.outbox == m.outbox + [ToApp(DetectedEvent(PlcDetection(m))), ToVision(VisionCommand(PlcDetection(m)))]
    ensures r.mail == TakeCommand(m.mail, VISION).1
  {
    var d := m.detection.(veilJustCleared := true, inferenceRequested := true,
                          requestTime := Some(now), plcDetection := PlcDetection(m));
    m.(state := WaitingVision, detection := d, mail := TakeCommand(m.mail, VISION).1,
       outbox := m.outbox + [ToApp(DetectedEvent(PlcDetection(m))), ToVision(VisionCommand(PlcDetection(m)))])
  }

  /** The veil went from crossed (1) to free (0) and no inference is outstanding for this container. */
  predicate VeilTrigger(m: Machine) {
    m.detection.prevVeil == 1 && Bit(m.plc.status, VEIL) == 0 && !m.detection.inferenceRequested
  }

  /** The IDLE branch's look at a newly connected app: it gets `device_info`. */
  function GreetApp(m: Machine): (r: Machine)
    ensures r == m.(mail := r.mail, outbox := r.outbox) && AppOnly(m.outbox, r.outbox)
    ensures r.mail == TakeJustConnected(m.mail, APP).1 && PeekState(r.mail, APP) == PeekState(m.mail, APP)
  {
    var jc := TakeJustConnected(m.mail, APP);
    if jc.0 then HandleGetDeviceInfo(m.(mail := jc.1)) else m.(mail := jc.1)
  }

  /** The IDLE branch's veil tracking: reset of the inference latch, the trigger, and the veil history. */
  function TrackVeil(m: Machine, now: int): (r: Machine)
    requires m.state == Idle
    ensures r.detection.prevVeil == Bit(m.plc.status, VEIL)
    ensures r.plc == m.plc && r.carriage == m.carriage && r.edges == m.edges && r.device == m.device
    ensures Inv(r) && (r.state == Idle || r.state == WaitingVision)
    ensures r.mail == m.mail || r.mail == TakeCommand(m.mail, VISION).1
    ensures PeekState(r.mail, APP) == PeekState(m.mail, APP)
  {
    var m1 := if !ContainerPresent(m) then m.(detection := m.detection.(inferenceRequested := false)) else m;
    var veil := Bit(m.plc.status, VEIL);
    var m2 := if VeilTrigger(m1) then StartInference(m1, now) else m1;
    m2.(detection := m2.detection.(veilJustCleared := if veil == 1 then false else m2.detection.veilJustCleared,
                                   prevVeil := veil))
  }

  /** The IDLE branch's handling of the app's command: read it once, parse it, dispatch a truthy one. */
  function AppCommand(m: Machine, loads: Decoder, now: int): (r: Machine)
    requires Inv(m)
    requires Dispatchable(PeekState(m.mail, APP), loads)
    ensures Inv(r) && AppOnly(m.outbox, r.outbox)
    ensures r.mail == TakeCommand(m.mail, APP).1 && r.detection == m.detection && r.edges == m.edges
    ensures PeekState(m.mail, APP) == "" ==> r == m.(mail := r.mail)
    ensures r.state != m.state ==>
      ParseCommand(PeekState(m.mail, APP), loads).0 == JStr("dump_container") && r.state.IsDumping()
  {
    var message := TakeCommand(m.mail, APP).0;
    var m1 := m.(mail := TakeCommand(m.mail, APP).1);
    if message == "" then m1
    else
      var parsed := ParseCommand(message, loads);
      if Truthy(parsed.0) then Dispatch(m1, parsed.0, parsed.1, now) else m1
  }

  /** One iteration in IDLE: greet a new app, track the veil, then run the app's command. */
  function IdleStep(m: Machine, loads: Decoder, now: int): (r: Machine)
    requires m.state == Idle
    requires Dispatchable(PeekState(m.mail, APP), loads)
    ensures Inv(r) && AppOnly(TrackVeil(GreetApp(m), now).outbox, r.outbox)
    ensures r.state == Idle || r.state == WaitingVision ||
      (r.state.IsDumping() && ParseCommand(PeekState(m.mail, APP), loads).0 == JStr("dump_container"))
  {
    AppCommand(TrackVeil(GreetApp(m), now), loads, now)
  }

  /** `bottle or bank`: the receiver's state as `_check_receiver_state` computes it. */
  function ReceiverState(m: Machine): Word {
    if BottleExist(m) != 0 then BottleExist(m) else BankExist(m)
  }

  /**
   * `_check_receiver_state`: the receiver's state is compared with the
   * previous one, and an event is sent only when it changes.
   */
  function ReceiverStep(m: Machine): (r: Machine)
    ensures r == m.(outbox := r.outbox, edges := m.edges.(receiver := ReceiverState(m)))
    ensures ReceiverState(m) == m.edges.receiver ==> r.outbox == m.outbox
    ensures ReceiverState(m) != m.edges.receiver ==> r.outbox == m.outbox + [ToApp(
      if ReceiverState(m) != 0
      then Event("receiver_not_empty", map["bottle_exist" := JInt(BottleExist(m) as int), "bank_exist" := JInt(BankExist(m) as int)])
      else Event("receiver_empty", map[]))]
  {
    var bottle := BottleExist(m);
    var bank := BankExist(m);
    var current := ReceiverState(m);
    if current != m.edges.receiver then
      var m1 :=
        if current != 0 then Emit(m, "receiver_not_empty", map["bottle_exist" := JInt(bottle as int), "bank_exist" := JInt(bank as int)])
        else Emit(m, "receiver_empty", map[]);
      m1.(edges := m1.edges.(receiver := current))
    else m.(edges := m.edges.(receiver := current))
  }

  /** 1 when a flag has just risen from 0. */
  function Rises(current: Word, previous: Word): nat {
    if current != 0 && previous == 0 then 1 else 0
  }

  /** The four flags `_check_hardware_errors` watches, in the order it checks them. */
  datatype ErrorFlag = WeightError | WeightTooSmall | LeftMovementError | RightMovementError
  {
    /** The status bit behind the flag. */
    function StatusBit(): BitIndex {
      match this
      case WeightError => WEIGHT_ERROR
      case WeightTooSmall => WEIGHT_TOO_SMALL
      case LeftMovementError => LEFT_MOVEMENT_ERROR
      case RightMovementError => RIGHT_MOVEMENT_ERROR
    }

    /** The `error_code` sent for the flag. */
    function Code(): string {
      match this
      case WeightError => "weight_error"
      case WeightTooSmall => "weight_too_small"
      case LeftMovementError => "left_movement_error"
      case RightMovementError => "right_movement_error"
    }

    /** The `message` sent with the code. */
    function Message(): string {
      match this
      case WeightError => "Ошибка взвешивания"
      case WeightTooSmall => "Вес слишком маленький"
      case LeftMovementError => "Ошибка движения каретки влево"
      case RightMovementError => "Ошибка движения каретки вправо"
    }
  }

  /** The flag's value at the previous check. */
  function Previous(e: Edges, f: ErrorFlag): Word {
    match f
    case WeightError => e.weightError
    case WeightTooSmall => e.weightTooSmall
    case LeftMovementError => e.leftMovementError
    case RightMovementError => e.rightMovementError
  }

  /** The `hardware_error` event for one flag. */
  function HardwareError(f: ErrorFlag): Outbound {
    ToApp(Event("hardware_error", map["error_code" := JStr(f.Code()), "message" := JStr(f.Message())]))
  }

  /** One `hardware_error` per flag, in order. */
  function Reports(flags: seq<ErrorFlag>): (r: seq<Outbound>)
    ensures |r| == |flags| && forall k :: 0 <= k < |flags| ==> r[k] == HardwareError(flags[k])
  {
    seq(|flags|, k requires 0 <= k < |flags| => HardwareError(flags[k]))
  }

  lemma ReportsAppend(a: seq<ErrorFlag>, b: seq<ErrorFlag>)
    ensures Reports(a + b) == Reports(a) + Reports(b)
  {
  }

  /** Reports only go to the app. */
  lemma ReportsAppOnly(out: seq<Outbound>, flags: seq<ErrorFlag>)
    ensures AppOnly(out, out + Reports(flags))
  {
  }

  /** Reporting four batches one after the other is reporting them together. */
  lemma ReportsOfFour(out: seq<Outbound>, a: seq<ErrorFlag>, b: seq<ErrorFlag>, c: seq<ErrorFlag>, d: seq<ErrorFlag>)
    ensures out + Reports(a) + Reports(b) + Reports(c) + Reports(d) == out + Reports(a + b + c + d)
  {
    ReportsAppend(a, b);
    ReportsAppend(a + b, c);
    ReportsAppend(a + b + c, d);
  }

  /** The flag, when it has just risen. */
  function Alarm(current: Word, previous: Word, f: ErrorFlag): seq<ErrorFlag> {
    if Rises(current, previous) == 1 then [f] else []
  }

  /** A `hardware_error` for a flag that has just risen. */
  function RisingEdge(out: seq<Outbound>, current: Word, previous: Word, f: ErrorFlag): (r: seq<Outbound>)
    ensures r == out + Reports(Alarm(current, previous, f))
  {
    if current != 0 && previous == 0 then out + [HardwareError(f)] else out
  }

  /** 1 when flag `f` has just risen, as the status register and the edges show it. */
  function Risen(m: Machine, f: ErrorFlag): nat {
    Rises(Bit(m.plc.status, f.StatusBit()), Previous(m.edges, f))
  }

  /** The alarm of one flag as the status register and the edges show it. */
  function AlarmOf(m: Machine, f: ErrorFlag): seq<ErrorFlag> {
    Alarm(Bit(m.plc.status, f.StatusBit()), Previous(m.edges, f), f)
  }

  /**
   * The flags that have just risen, in the order they are checked: weight
   * error (bit 5), weight too small (bit 8), left movement (bit 12), right
   * movement (bit 13).
   */
  function RisenFlags(m: Machine): (flags: seq<ErrorFlag>)
    ensures |flags| == Rising(m)
    ensures forall f :: f in flags <==> Risen(m, f) == 1
    ensures InBitOrder(flags)
  {
    var a := AlarmOf(m, WeightError);
    var b := AlarmOf(m, WeightTooSmall);
    var c := AlarmOf(m, LeftMovementError);
    var d := AlarmOf(m, RightMovementError);
    AlarmKeepsOrder([], m, WeightError);
    AlarmKeepsOrder(a, m, WeightTooSmall);
    AlarmKeepsOrder(a + b, m, LeftMovementError);
    AlarmKeepsOrder(a + b + c, m, RightMovementError);
    assert [] + a == a;
    assert |a + b + c + d| == |a| + |b| + |c| + |d|;
    forall f ensures f in a + b + c + d <==> Risen(m, f) == 1 {
      AlarmMembers(m, f);
    }
    a + b + c + d
  }

  /** A flag is among the four alarms exactly when it has just risen. */
  lemma AlarmMembers(m: Machine, f: ErrorFlag)
    ensures f in AlarmOf(m, WeightError) + AlarmOf(m, WeightTooSmall) + AlarmOf(m, LeftMovementError) +
                 AlarmOf(m, RightMovementError) <==>
            Risen(m, f) == 1
  {
    match f
    case WeightError =>
    case WeightTooSmall =>
    case LeftMovementError =>
    case RightMovementError =>
  }

  /** Flags listed in increasing order of their status bits. */
  predicate InBitOrder(flags: seq<ErrorFlag>) {
    forall i, j :: 0 <= i < j < |flags| ==> flags[i].StatusBit() < flags[j].StatusBit()
  }

  /** Appending the alarm of a higher bit keeps the flags in bit order. */
  lemma AlarmKeepsOrder(flags: seq<ErrorFlag>, m: Machine, f: ErrorFlag)
    requires InBitOrder(flags) && forall k :: 0 <= k < |flags| ==> flags[k].StatusBit() < f.StatusBit()
    ensures InBitOrder(flags + AlarmOf(m, f))
    ensures forall k :: 0 <= k < |flags + AlarmOf(m, f)| ==> (flags + AlarmOf(m, f))[k].StatusBit() <= f.StatusBit()
  {
  }

  /** Number of the four hardware error flags that have just risen. */
  function Rising(m: Machine): nat {
    Risen(m, WeightError) + Risen(m, WeightTooSmall) + Risen(m, LeftMovementError) + Risen(m, RightMovementError)
  }

  /** The error flags as the status register shows them now. */
  function ErrorFlags(m: Machine): Edges {
    var s := m.plc.status;
    m.edges.(weightError := Bit(s, WEIGHT_ERROR), weightTooSmall := Bit(s, WEIGHT_TOO_SMALL),
             leftMovementError := Bit(s, LEFT_MOVEMENT_ERROR), rightMovementError := Bit(s, RIGHT_MOVEMENT_ERROR))
  }

  /**
   * `_check_hardware_errors`: weight error (bit 5), weight too small (bit 8)
   * and the left and right movement errors (bits 12, 13) each send one
   * `hardware_error` on a 0-to-1 transition, and record the new value.
   */
  function HardwareErrorsStep(m: Machine): (r: Machine)
    ensures r == m.(outbox := r.outbox, edges := ErrorFlags(m))
    ensures r.outbox == m.outbox + Reports(RisenFlags(m))
    ensures AppOnly(m.outbox, r.outbox) && |r.outbox| == |m.outbox| + Rising(m)
  {
    var s := m.plc.status;
    var e := m.edges;
    var o1 := RisingEdge(m.outbox, Bit(s, WEIGHT_ERROR), e.weightError, WeightError);
    var o2 := RisingEdge(o1, Bit(s, WEIGHT_TOO_SMALL), e.weightTooSmall, WeightTooSmall);
    var o3 := RisingEdge(o2, Bit(s, LEFT_MOVEMENT_ERROR), e.leftMovementError, LeftMovementError);
    var o4 := RisingEdge(o3, Bit(s, RIGHT_MOVEMENT_ERROR), e.rightMovementError, RightMovementError);
    var a, b, c, d := AlarmOf(m, WeightError), AlarmOf(m, WeightTooSmall),
                      AlarmOf(m, LeftMovementError), AlarmOf(m, RightMovementError);
    assert o4 == m.outbox + Reports(a) + Reports(b) + Reports(c) + Reports(d);
    ReportsOfFour(m.outbox, a, b, c, d);
    assert RisenFlags(m) == a + b + c + d;
    ReportsAppOnly(m.outbox, RisenFlags(m));
    m.(outbox := o4, edges := ErrorFlags(m))
  }

  /** The state branch of the loop, after the DUMPING and carriage checks. */
  function Branch(m: Machine, loads: Decoder, now: int): (r: Machine)
    requires Inv(m)
    requires m.state == Error ==> Parseable(PeekState(m.mail, APP), loads)
    requires m.state == Idle ==> Dispatchable(PeekState(m.mail, APP), loads)
    ensures Inv(r)
  {
    match m.state
    case WaitingVision => WaitingStep(m, now)
    case Error => ErrorStep(m, loads, now)
    case Idle => IdleStep(m, loads, now)
    case _ => m
  }

  /** The DUMPING and carriage-reset checks that open every iteration. */
  function Prelude(m: Machine, now: int): (r: Machine)
    requires Inv(m)
    ensures Inv(r) && r.mail == m.mail && r.detection == m.detection && r.edges == m.edges
  {
    CarriageReset(if m.state.IsDumping() then DumpingStep(m, now) else m, now)
  }

  /**
   * What one iteration needs of its inputs: the invariant, and, in the two
   * states that read the app's message, a message the loop does not crash on.
   */
  predicate StepReady(m: Machine, loads: Decoder, now: int) {
    Inv(m) &&
    (Prelude(m, now).state == Error ==> Parseable(PeekState(m.mail, APP), loads)) &&
    (Prelude(m, now).state == Idle ==> Dispatchable(PeekState(m.mail, APP), loads))
  }

  /** One iteration of `run`'s loop at time `now`. */
  function Step(m: Machine, loads: Decoder, now: int): Machine
    requires StepReady(m, loads, now)
  {
    HardwareErrorsStep(ReceiverStep(Branch(Prelude(m, now), loads, now)))
  }

  /** `update_data`, run by the polling thread between iterations. */
  function Poll(m: Machine): Machine {
    m.(plc := Refresh(m.plc))
  }
}

=== FILE: text.dfy ===
/**
 * The few `str` methods the controller relies on: `strip()`, `strip(chars)`,
 * `lower()` and `isalnum()`.
 */
module Text {

  /** Python's `str.isspace()` for one character: the complete list of code points it accepts. */
  predicate IsSpace(c: char) {
    ('\U{9}' <= c <= '\U{D}') || ('\U{1C}' <= c <= '\U{1F}') || c == ' ' ||
    c == '\U{85}' || c == '\U{A0}' || c == '\U{1680}' || ('\U{2000}' <= c <= '\U{200A}') ||
    c == '\U{2028}' || c == '\U{2029}' || c == '\U{202F}' || c == '\U{205F}' || c == '\U{3000}'
  }

  /** `str.lstrip` with a character predicate. */
  function TrimLeft(s: string, drop: char -> bool): (r: string)
    ensures |r| <= |s| && r == s[|s| - |r|..]
    ensures r != [] ==> !drop(r[0])
    ensures forall i :: 0 <= i < |s| - |r| ==> drop(s[i])
  {
    if s != [] && drop(s[0]) then
      var r := TrimLeft(s[1..], drop);
      assert s[1..][|s| - 1 - |r|..] == s[|s| - |r|..];
      forall i | 1 <= i < |s| - |r| ensures drop(s[i]) {
        assert s[i] == s[1..][i - 1];
      }
      r
    else s
  }

  /** `str.rstrip` with a character predicate. */
  function TrimRight(s: string, drop: char -> bool): (r: string)
    ensures |r| <= |s| && r == s[..|r|]
    ensures r != [] ==> !drop(r[|r| - 1])
    ensures forall i :: |r| <= i < |s| ==> drop(s[i])
  {
    if s != [] && drop(s[|s| - 1]) then
      var r := TrimRight(s[..|s| - 1], drop);
      assert s[..|s| - 1][..|r|] == s[..|r|];
      forall i | |r| <= i < |s| - 1 ensures drop(s[i]) {
        assert s[i] == s[..|s| - 1][i];
      }
      r
    else s
  }

  /** `str.strip` with a character predicate: drops it at both ends. */
  function Trim(s: string, drop: char -> bool): string {
    TrimRight(TrimLeft(s, drop), drop)
  }

  /** `r` is the stretch `s[a..b]`, and every character of `s` outside it satisfies `drop`. */
  ghost predicate Stretch(s: string, r: string, a: int, b: int, drop: char -> bool) {
    0 <= a <= b <= |s| && r == s[a..b] &&
    (forall i :: 0 <= i < a ==> drop(s[i])) &&
    (forall i :: b <= i < |s| ==> drop(s[i]))
  }

  /** Stripping at both ends cuts out one stretch, with only dropped characters outside it. */
  lemma TrimIsSlice(s: string, drop: char -> bool)
    ensures Stretch(s, Trim(s, drop), |s| - |TrimLeft(s, drop)|, |s| - |TrimLeft(s, drop)| + |Trim(s, drop)|, drop)
  {
    StretchOfPrefixOfSuffix(s, TrimLeft(s, drop), Trim(s, drop), drop);
  }

  /** A prefix `t` of a suffix `left` of `s` is a stretch of `s`, when what both cuts removed satisfies `drop`. */
  lemma StretchOfPrefixOfSuffix(s: string, left: string, t: string, drop: char -> bool)
    requires |left| <= |s| && left == s[|s| - |left|..]
    requires forall i :: 0 <= i < |s| - |left| ==> drop(s[i])
    requires |t| <= |left| && t == left[..|t|]
    requires forall i :: |t| <= i < |left| ==> drop(left[i])
    ensures Stretch(s, t, |s| - |left|, |s| - |left| + |t|, drop)
  {
    var a := |s| - |left|;
    assert t == s[a..a + |t|];
    forall i | a + |t| <= i < |s| ensures drop(s[i]) {
      assert s[i] == left[i - a];
    }
  }

  /** `s.strip()`: removes leading and trailing whitespace. */
  function Strip(s: string): string {
    Trim(s, IsSpace)
  }

  predicate IsUpper(c: char) {
    'A' <= c <= 'Z'
  }

  /**
   * `s.lower()` on the ASCII letters: no upper-case letter is left, each one
   * becomes its lower-case partner (32 code points further), and every other
   * character stays where and what it was.
   */
  function Lower(s: string): (r: string)
    ensures |r| == |s|
    ensures forall i :: 0 <= i < |r| ==> !IsUpper(r[i])
    ensures forall i :: 0 <= i < |s| && !IsUpper(s[i]) ==> r[i] == s[i]
    ensures forall i :: 0 <= i < |s| && IsUpper(s[i]) ==> 'a' <= r[i] <= 'z' && r[i] as int == s[i] as int + 32
  {
    seq(|s|, i requires 0 <= i < |s| => LowerChar(s[i]))
  }

  /** Lower-casing twice is lower-casing once. */
  lemma LowerIdempotent(s: string)
    ensures Lower(Lower(s)) == Lower(s)
  {
  }

  function LowerChar(c: char): char {
    if IsUpper(c) then (c as int - 'A' as int + 'a' as int) as char else c
  }

  /** `c.isalnum()` on the ASCII letters and digits. */
  predicate IsAlnum(c: char) {
    ('a' <= c <= 'z') || ('A' <= c <= 'Z') || ('0' <= c <= '9')
  }
}
